=== FILE: README.md ===
# Voice control panel of the movement recorder: a Dafny model

`app.js` is the browser client of a small vehicle-control service. It
records manoeuvres (ids 1..11) through a REST API. Operators send them in
one of three ways: buttons, keyboard shortcuts, or a voice panel driven
by the Web Speech API. This project models the voice pipeline and the
pure logic around it.

- **Text.** The JavaScript string primitives the pipeline relies on (`trim`, `toLowerCase`,
  `indexOf`, `slice`, UTF-16 length, decimal formatting) live in `text.dfy`.
- **Normalizer.** `normalizeText` is lowercasing, NFD decomposition, removal of combining
  marks, punctuation to spaces, blank runs collapsed, then trimming. Its
  output always has one shape: lowercase `\w` runs separated by single
  spaces.
- **Patterns.** This module covers the regular-expression tests of `localClassify`:
  `\b(...)\b`, `\bprefix`, and the two-word alternative "vuelta completa".
  They are modelled with JavaScript's `\b`/`\w` semantics. On normalised text
  they are proved equivalent to token-level statements: token membership,
  a token starting with a prefix, and two adjacent tokens.
- **Classifier.** `localClassify` is an ordered, first-match rule list over those tests,
  with the `COMMANDS` table and `CATALOGO`.
- **WakeGate.** This is the body of `rec.onresult`. It joins the results from `resultIndex`
  on, shows the transcript, and looks for the wake word "tony" in any case.
  It then requires at least two UTF-16 units after it and a final last result,
  and classifies that remainder.
- **Dispatch.** `performAction` posts the id, shows "Ejecutando", speaks the confirmation,
  and on settlement refreshes the status, reloads the open history, and shows
  a toast.
- **Keyboard.** The `keydown` shortcuts.
- **Api.** The error message of a failed response, the `res.ok` test, the
  reshaping of the history response, how the history table reads it, and the
  choice of the latest record.
- **Session.** This is the microphone controller: the click handler, `setMicState`, `onerror`,
  `onend` and `onresult`, as a state machine over events. Its state is the
  listening flag, the button's disabled flag, and which optional page
  elements exist.

Three facts about the code, each proved:

- `localClassify` never returns the combined-turn commands (ids 4..7), because earlier
  rules catch every text that would reach them (`Classifier.CombinedTurnsUnreachable`);
- `onresult` does not look at `listening` (`Session.ResultsIgnoreListening`);
- when `rec.start()` throws inside `onend`, the exception escapes and
  `listening` stays true (`Session.OnEnd`).

The wake-word search in `onresult` slices the transcript at an index found
in its lowercased copy (see "## Findings"). `WakeGate.OnResultAsWritten` and
`Session.OnResultsAsWritten` model that code as written. The state machine
of `Session` uses the corrected gate `WakeGate.OnResult`. The two agree
unless the transcript holds U+0130 (`WakeGate.AgreeOnResults`,
`Session.ResultsAgree`).

## Model

| member | source | states |
|---|---|---|
| Text.IsSpace | app.js:253-254 | defines the blanks: the ECMAScript WhiteSpace and LineTerminator code points, the set `\s` matches and `trim` removes |
| Text.IsWordChar | app.js:252 | defines `\w` without the `u` flag: ASCII letters, digits and `_` |
| Text.JoinSpaced | app.js:385 | `join(" ")`: one part is itself; more parts are separated by single spaces |
| Text.Trim | app.js:386 | `trim` removes exactly the leading and trailing blanks: the result is a slice whose ends are not blank, with only blanks cut on either side |
| Text.TrimFixesTrimmed | app.js:254 | a string that neither starts nor ends with a blank is its own trim |
| Text.LowerChar | app.js:391 | lowercasing one code point gives one or two code points and no ASCII capital; a `\w` character becomes its ASCII lowercase; exactly U+0130 grows to two |
| Text.Lower | app.js:391 | `toLowerCase` never shortens a string and leaves no ASCII capital |
| Text.LowerAppend | app.js:391 | lowercasing a concatenation is the concatenation of the lowercased parts |
| Text.LowerSingle | app.js:143 | lowercasing a one-character string is lowercasing that character |
| Text.LowerPointwise | app.js:391 | without U+0130 lowercasing keeps the length and maps position by position |
| Text.IndexFrom | app.js:392 | the search returns the first occurrence at or after the start, and None exactly when there is none |
| Text.IndexOf | app.js:392 | `indexOf` returns the first occurrence, and None (-1) exactly when the needle does not occur |
| Text.Utf16Length | app.js:396 | `.length` lies between the number of code points and twice it; one code point up to U+FFFF is one UTF-16 unit, one above it is two |
| Text.Utf16LengthAppend | app.js:396 | the UTF-16 length of a concatenation is the sum of the lengths |
| Text.Utf16LengthUniform | app.js:396 | a string of code points up to U+FFFF has as many UTF-16 units as code points; a string of code points above it has twice as many |
| Text.Utf16SliceFrom | app.js:395 | `slice(u)`, counted in UTF-16 units, never lengthens the text, and `slice(0)` is the whole text |
| Text.Utf16SliceLength | app.js:395-396 | the slice from unit `u` has the text's UTF-16 length minus `u` units, and is empty from that length on |
| Text.Utf16SliceAfter | app.js:395 | slicing past the units of a whole prefix `a` of `a + b` is slicing `b` |
| Text.Utf16SliceAtPrefix | app.js:395 | slicing at the UTF-16 width of the first `n` code points gives the text from code point `n` on |
| Text.Utf16SliceOfBmp | app.js:395 | when the first `u` code points are at most U+FFFF, slicing at unit `u` is slicing at code point `u` |
| Text.Utf16SliceSplitsPair | app.js:395 | a slice that starts inside a code point above U+FFFF starts with its lone low surrogate, then the rest |
| Text.LowerKeepsWidths | app.js:391-395 | without U+0130, lowercasing keeps the length and the UTF-16 width of every prefix |
| Text.LowerAstral | app.js:391 | a code point above U+FFFF is its own lowercase, in front of any text |
| Text.Decimal | app.js:49 | a decimal numeral is non-empty, all digits, and has no leading zero |
| Text.ParseDecimalOfDecimal | app.js:49 | reading back the decimal numeral of `n` gives `n` |
| Text.IntToString | app.js:402 | `String(n)` of a natural reads back as `n`; a negative number is a minus sign before its magnitude |
| Normalizer.Decompose | app.js:250 | NFD splits exactly the Latin-1 lowercase letters with a diacritic into their base letter (à..å to a, ç to c, è..ë to e, ì..ï to i, ñ to n, ò..ö to o, ù..ü to u, ý and ÿ to y) followed by one combining mark; every other code point, ASCII included, is its own decomposition |
| Normalizer.DecomposeAll | app.js:250 | NFD of a string never shortens it and at most doubles it, and is the code point's decomposition for a single code point |
| Normalizer.DecomposeFixesAscii | app.js:250 | NFD leaves ASCII text unchanged |
| Normalizer.DecomposeKeepsLower | app.js:249-250 | NFD introduces no ASCII capital into text that has none |
| Normalizer.DecomposeAllAppend | app.js:250 | NFD of a concatenation is the concatenation of the parts' NFD |
| Normalizer.IsCombiningMark | app.js:251 | defines the character class `[\u0300-\u036f]` |
| Normalizer.StripMarks | app.js:251 | removing U+0300..U+036F leaves no combining mark, only characters of the input, and text without marks unchanged |
| Normalizer.StripMarksAppend | app.js:251 | removing marks from a concatenation removes them from each part: exactly the other characters stay, in order |
| Normalizer.Punctuate | app.js:252 | every character that is neither `\w` nor `\s` becomes a space, and all others are kept in place |
| Normalizer.CollapseSpaces | app.js:253 | every blank run becomes one space: no two spaces in a row, other characters kept, text without blanks unchanged, an all-blank text a single space, empty only for empty input |
| Normalizer.CollapseAppend | app.js:253 | collapsing two pieces cut outside a blank run is collapsing each: non-blanks stay in order and each blank run between them becomes one space |
| Normalizer.Fold | app.js:249-250 | lowercasing then decomposing never shortens the text and leaves no ASCII capital |
| Normalizer.FoldAppend | app.js:249-250 | folding a concatenation folds each part |
| Normalizer.Runs | app.js:252-253 | the maximal runs of word characters are non-empty words, the first starting at a leading word character |
| Normalizer.Normalize | app.js:247-255 | the output is lowercase `\w` runs separated by single spaces with no blank at either end; it keeps exactly the word characters of the folded input, in order, grouped into the same maximal runs as in the folded text stripped of its marks |
| Normalizer.RunsOfSameWordPositions | app.js:252 | two texts with the same word characters at the same places have the same runs |
| Normalizer.RunsPunctuate | app.js:252 | turning punctuation into spaces keeps the runs |
| Normalizer.RunsDropSeparators | app.js:253-254 | leading non-word characters start no run |
| Normalizer.RunsDropTrailing | app.js:253-254 | trailing non-word characters extend no run |
| Normalizer.RunsCollapse | app.js:253 | collapsing blank runs keeps the runs |
| Normalizer.RunsTrim | app.js:254 | trimming keeps the runs |
| Normalizer.RunsSkipsSeparator | app.js:252-253 | a non-word character in front of a text starts no run |
| Normalizer.FoldLoneSurrogate | app.js:249-251 | a lone surrogate in front passes unchanged through lowercasing, NFD and mark removal, and the rest is processed as on its own |
| Normalizer.NormalizeOfNormalFold | app.js:247-255 | when folding and removing marks already give the normal shape, that is the output |
| Normalizer.SpanishAccentsFold | app.js:247-255 | each of á é í ó ú ü ñ and Á É Í Ó Ú Ü Ñ normalises to its plain letter |
| Normalizer.SpanishFold | app.js:249-250 | lowercasing and decomposing such a letter gives its plain letter followed by one combining mark |
| Normalizer.LowerAtras | app.js:249 | "Atrás" lowercases to "atrás" |
| Normalizer.DecomposeAtras | app.js:250 | NFD of "atrás" is "atra" with U+0301 before the "s" |
| Normalizer.FoldAtras | app.js:249-250 | folding "Atrás" gives "atra", U+0301, "s" |
| Normalizer.StripAtras | app.js:251 | removing the mark from it gives "atras" |
| Normalizer.NormalizeAtras | app.js:247-255 | "Atrás" normalises to "atras" |
| Normalizer.NormalizeShape | app.js:251-254 | on text without ASCII capitals, removing marks, replacing punctuation, collapsing blanks and trimming produce the normal shape |
| Normalizer.WordCharsStripMarks | app.js:251 | removing combining marks keeps every word character |
| Normalizer.WordCharsPunctuate | app.js:252 | replacing punctuation keeps every word character |
| Normalizer.WordCharsCollapse | app.js:253 | collapsing blanks keeps every word character |
| Normalizer.WordCharsTrim | app.js:254 | trimming keeps every word character |
| Normalizer.StagesFixNormalChars | app.js:249-252 | on text of lowercase word characters and spaces, the first four stages change nothing |
| Normalizer.LowerFixesNormal | app.js:249 | lowercasing leaves text of lowercase word characters and spaces unchanged |
| Normalizer.DecomposeFixesNormal | app.js:250 | decomposition leaves such text unchanged |
| Normalizer.StripFixesNormal | app.js:251 | removing combining marks leaves such text unchanged |
| Normalizer.CollapseFixesSingleSpaced | app.js:253 | text of lowercase word characters and single spaces is unchanged by collapsing |
| Normalizer.NormalizeFixesNormal | app.js:247-255 | normalising normal text returns it unchanged |
| Normalizer.NormalizeFixpoints | app.js:247-255 | a text is a fixed point of normalisation exactly when it has the normal shape |
| Normalizer.NormalizeIdempotent | app.js:247-255 | normalising twice is normalising once |
| Patterns.Boundary | app.js:272-313 | defines `\b` at a position: exactly one of the two neighbouring positions holds a `\w` character, positions outside the text holding none |
| Patterns.WholeAt | app.js:272-313 | defines a match of `\bw\b` at a position: `w` occurs there with a boundary on both sides |
| Patterns.HasWhole | app.js:272-313 | defines `/\bw\b/.test`: some position holds such a match |
| Patterns.HasAnyWhole | app.js:272-313 | defines `/\b(w1\|...\|wn)\b/.test`: one of the alternatives matches |
| Patterns.StartAt | app.js:279-287 | defines a match of `\bp` at a position: `p` occurs there after a boundary |
| Patterns.HasWordStart | app.js:279-287 | defines `/\bp/.test`: some position holds such a match |
| Patterns.WholeOfJoin | app.js:272-273 | a whole-word match in two texts joined by a space is a match in one of them |
| Patterns.JoinedTokensNormal | app.js:247-255 | tokens joined by single spaces form normal text that starts with the first token |
| Patterns.WholeOfTokens | app.js:272-277 | on joined tokens, `\bw\b` matches exactly when `w` is one of the tokens |
| Patterns.StartOfTokens | app.js:279-287 | on joined tokens, `\bp` matches exactly when some token starts with `p` |
| Patterns.PhraseOfTokens | app.js:279-281 | on joined tokens, `\bvuelta completa\b` matches exactly when the two words are adjacent tokens in that order |
| Patterns.Words | app.js:247-255 | splitting at spaces yields tokens exactly when the text is non-empty |
| Patterns.WordsOfNormal | app.js:247-255 | every normalised text is its own words joined by single spaces, and those words are tokens |
| Patterns.RunsOfWordThen | app.js:252-253 | a word followed by a non-word character is the first run |
| Patterns.RunsOfJoined | app.js:247-255 | tokens joined by single spaces are exactly the runs of the result |
| Patterns.LoneSurrogateSeparates | app.js:247-255 | a lone surrogate in front of a text changes none of the words of its normalised form |
| Patterns.WordsOfNormalize | app.js:247-255 | the words of `normalizeText`'s output are exactly the maximal runs of word characters of the input lowercased, decomposed and stripped of its marks |
| Classifier.CommandsIndexedById | app.js:217-229 | the command table has eleven entries, and entry `i` carries id `i + 1` |
| Classifier.CatalogLabel | app.js:5-17 | the catalogue has a label exactly for ids 1..11 |
| Classifier.Decide | app.js:272-316 | the rule list always answers a `COMMANDS` entry, whose id is in 1..11 |
| Classifier.ClassifyNormal | app.js:271-316 | classifying normal text answers a `COMMANDS` entry |
| Classifier.Classify | app.js:269-317 | `localClassify` always answers one of the eleven `COMMANDS` entries, the entry of its id |
| Classifier.AnyWholeOfTokens | app.js:272-277 | an alternation of whole words matches joined tokens exactly when one of the words is a token |
| Classifier.FullTurnOfTokens | app.js:279-281 | the full-turn magnitude test holds exactly for a "360" or "completo" token, or "vuelta" followed by "completa" |
| Classifier.CuesOfTokens | app.js:272-313 | on joined tokens every regular-expression test equals its token reading |
| Classifier.ClassifyByTokens | app.js:269-317 | `localClassify` is the rule list applied to the token tests of the normalised text's words |
| Classifier.CuesOverlap | app.js:274-313 | the combined-turn rules test the same forward words as rule 1, and a subset of the backward words |
| Classifier.ClassifyIgnoresNormalization | app.js:270 | classifying normalised text gives the same command as classifying the raw text |
| Classifier.StopWins | app.js:272-273 | a stop word as a token gives stop (id 3), whatever else is said |
| Classifier.CombinedTurnsUnreachable | app.js:289-313 | ids 4..7 are never returned |
| Classifier.CombinedTurnsPreempted | app.js:272-313 | whenever a combined-turn rule's test holds, an earlier rule answers first: stop when a stop word is present; otherwise forward for the forward combinations, and forward or backward for the backward ones |
| Classifier.LoneSurrogateIgnored | app.js:269-317 | a lone surrogate in front of a text does not change its command |
| Classifier.FullTurnBeatsQuarterTurn | app.js:279-287 | without stop, forward or backward words, a full-turn magnitude with a direction gives a full turn (10 or 11), never a quarter turn |
| Classifier.RightBeatsLeft | app.js:279-287 | with both directions named and a magnitude, the answer turns right (10 or 8) |
| Classifier.MotionNeedsVocabulary | app.js:272-316 | each answer other than stop requires the words of its own rule to be present; with none of the vocabulary the answer is stop |
| Classifier.SameTokensSameCues | app.js:272-313 | token lists with the same multiset, and the same "vuelta completa" adjacency, give the same test outcomes |
| Classifier.WordOrderIrrelevant | app.js:272-316 | two phrases whose normalised words are a permutation of each other classify alike, unless only one of them has "vuelta completa" adjacent |
| Classifier.ClassifyJoined | app.js:269-317 | a phrase written as tokens joined by single spaces classifies by its tokens |
| Classifier.StopAndGoStops | app.js:272-275 | "detener y avanza" is stop |
| Classifier.AccentedBackward | app.js:270-278 | "Atrás", with its capital and accent, is backward (id 2) |
| Classifier.BackwardWordCues | app.js:272-277 | the rule list answers backward on the single token "atras" |
| Classifier.ForwardTurnCues | app.js:274-275 | the rule list answers forward on the tokens of "adelante vuelta a la derecha" |
| Classifier.ForwardTurnIsForward | app.js:274-294 | "adelante vuelta a la derecha" is plain forward, not a combined turn |
| Classifier.QuarterTurnLeftCues | app.js:279-287 | the tokens of "gira noventa grados a la izquierda" pass the quarter-turn and left tests only |
| Classifier.QuarterTurnLeft | app.js:284-287 | "gira noventa grados a la izquierda" is the quarter turn left (id 9) |
| Classifier.FullTurnRightCues | app.js:279-280 | the rule list answers the full turn right on the tokens of "da una vuelta completa a la derecha" |
| Classifier.FullTurnRight | app.js:279-282 | "da una vuelta completa a la derecha" is the full turn right (id 10) |
| WakeGate.SliceStart | app.js:383 | `slice(idx)` starts at `idx` when it is in range, clamps above the length, and counts from the end when negative |
| WakeGate.Tops | app.js:384 | one top transcript per result, in order |
| WakeGate.FindWake | app.js:392 | the search returns the first wake-word position at or after the start, and None only when there is none |
| WakeGate.AfterWake | app.js:391-395 | there is text after the wake word exactly when the transcript contains "tony" in some case, and it is the trimmed text after the first occurrence |
| WakeGate.AfterWakeAtFirst | app.js:391-395 | the text after the wake word is read after the first occurrence, wherever that is |
| WakeGate.AsWrittenCut | app.js:392-395 | the offset `slice` receives, in UTF-16 units of the lowercased copy, lies at least four past the index of the match |
| WakeGate.AfterWakeAsWritten | app.js:391-395 | as written, there is text exactly when the lowercased transcript contains "tony"; it is the original transcript sliced, in UTF-16 units, at the units before the first match in the lowercased copy plus four, trimmed |
| WakeGate.CutAtWake | app.js:391-395 | without U+0130, that as-written offset lands in the transcript right after the wake word |
| WakeGate.FirstLowerWakeUnique | app.js:392 | there is at most one first position of "tony" in the lowercased transcript |
| WakeGate.Gate | app.js:389-403 | "last heard" is shown exactly for a non-empty transcript; a command is produced exactly when it has the wake word, two units after it, and a final last result, and it classifies the remainder |
| WakeGate.OnResult | app.js:380-404 | "last heard" is the transcript exactly when it is non-empty; a command comes only from a final last result, and exactly when the remainder after the first wake word has two or more UTF-16 units, and it is that remainder classified |
| WakeGate.GateAsWritten | app.js:389-403 | as written, "last heard" is shown exactly for a non-empty transcript; a command is produced exactly when the as-written remainder exists, has two or more UTF-16 units and the last result is final, and it is that remainder classified |
| WakeGate.OnResultAsWritten | app.js:380-404 | as written, "last heard" is the transcript exactly when it is non-empty; a command comes exactly when the lowercased transcript has "tony", the original sliced in UTF-16 units after that index and trimmed has two or more units, and the last result is final, and it is that slice classified |
| WakeGate.FirstWakeUnique | app.js:392 | there is at most one first wake-word position |
| WakeGate.NonEmptyTranscriptHasResults | app.js:398 | a non-empty transcript implies at least one result, so the `pop()` in the finality test has a result to read |
| WakeGate.EmptyTranscriptIgnored | app.js:382-387 | when every result from `resultIndex` on is blank, nothing is shown and nothing is dispatched |
| WakeGate.BlankJoin | app.js:385 | blank parts joined with spaces are blank |
| WakeGate.NoWakeNoCommand | app.js:391-393 | without "tony" in any case, nothing is dispatched |
| WakeGate.InterimNoCommand | app.js:398-399 | an interim last result never dispatches, though "last heard" is still shown |
| WakeGate.ShortRemainderNoCommand | app.js:395-396 | fewer than two UTF-16 units after the wake word dispatch nothing |
| WakeGate.FinalWakeDispatches | app.js:395-403 | a final event with two or more units after the first wake word dispatches that remainder, classified |
| WakeGate.EarlierResultsIgnored | app.js:381-386 | results before `resultIndex` play no part in the event |
| WakeGate.WakeAtLowered | app.js:391-392 | without U+0130, the wake word is at `j` of the transcript exactly when it is at `j` of the lowercased transcript |
| WakeGate.AsWrittenAgrees | app.js:391-395 | without U+0130, slicing at the index found in the lowercased text gives the corrected remainder |
| WakeGate.AgreeOnResults | app.js:380-404 | without U+0130 in the transcript, the handler as written and the corrected one do the same |
| WakeGate.ShiftedLower | app.js:391 | each U+0130 lowercases to two code points, shifting the lowercased text |
| WakeGate.ShiftPrefixWake | app.js:392 | in "İİ tony " the wake word starts at index 3 of the transcript |
| WakeGate.ShiftedAsWritten | app.js:391-395 | as written, after "İİ tony " the remainder loses its first character |
| WakeGate.ShiftedCorrected | app.js:391-395 | corrected, after "İİ tony " the remainder is the full rest |
| WakeGate.ShiftedEventAsWritten | app.js:380-404 | a final "İİ tony " event classifies the rest without its first character, as written |
| WakeGate.ShiftedEventCorrected | app.js:380-404 | the same event, corrected, classifies the full rest |
| WakeGate.UnknownWordCues | app.js:316 | the lone tokens "vanza" and "x" pass no test, so the answer falls through to stop |
| WakeGate.ForwardWordCues | app.js:274-275 | the lone token "avanza" is forward |
| WakeGate.WakeShiftCounterexample | app.js:391-403 | "İİ tony avanza" sends stop as written, and forward once corrected |
| WakeGate.SingleTranscript | app.js:382-386 | one result whose ends are not blank is its own transcript |
| WakeGate.PairCut | app.js:391-395 | in "İtony😀" followed by normal text, the lowercased copy has "tony" at index 2, and the as-written slice starts inside the emoji, with its low surrogate |
| WakeGate.PairAsWritten | app.js:391-395 | as written, the remainder after "İtony😀" is the emoji's lone low surrogate followed by the rest |
| WakeGate.PairEventAsWritten | app.js:380-403 | a final "İtony😀" event classifies the lone surrogate and the rest as the rest alone, as written |
| WakeGate.SplitPairCommand | app.js:380-403 | a final "İtony😀x" event posts stop (id 3), as written |
| Api.Truthy | app.js:49 | defines JavaScript truthiness of a parsed value: `null`, `false`, `0` and `""` are falsy, arrays and objects truthy |
| Api.TruthyField | app.js:49 | defines truthiness of a property read, where a missing property is `undefined` and falsy |
| Api.Ok | app.js:48 | defines `res.ok`: a status from 200 to 299 |
| Api.JoinItems | app.js:49-50 | defines `String(array)`: the elements' strings joined by commas, `null` as empty |
| Api.Field | app.js:49 | a property read finds a value only on an object that has the key |
| Api.ToDisplayString | app.js:50 | the message of an error built from a string is that string; from a natural number, its decimal numeral |
| Api.HttpErrorMessage | app.js:49 | a truthy body `message` is the error text; otherwise it is "Error HTTP " followed by the status |
| Api.Outcome | app.js:47-52 | a 2xx response settles with its body, a network failure with its message, and any other response fails with the message built from its status and body |
| Api.FallbackMessageCarriesStatus | app.js:49 | without a usable message, the status can be read back from the error text after "Error HTTP " |
| Api.ShapeHistory | app.js:73-74 | the reshaped history is truthy and never a bare array: an array is wrapped under `data`, and other truthy bodies pass through |
| Api.ShapeHistoryIdempotent | app.js:73-74 | reshaping twice is reshaping once |
| Api.HistoryViewOf | app.js:162-170 | a table is shown only for a non-empty list of non-null rows |
| Api.HistoryShapesAgree | app.js:73-74 | a bare array and the same array under `data` show the same table |
| Api.HistoryShowsRecords | app.js:82-99 | non-null records are shown row for row, and an empty list shows "Sin registros" |
| Api.HistoryWithoutData | app.js:164-165 | a non-array body without `data` shows the empty row, not an error |
| Api.LatestRecord | app.js:123-124 | the status is updated exactly from a truthy value: the first element of an array body when it is truthy, or else the body's `data` when truthy, and nothing otherwise |
| Api.LatestShapesAgree | app.js:123 | an array starting with `x` and `{data: x}` update the status alike |
| Api.LatestOfNothing | app.js:123-124 | an empty array, a null body or a falsy `data` updates nothing |
| Dispatch.Confirmation | app.js:353-366 | the confirmation is "Listo." exactly for ids outside 1..11 |
| Dispatch.ConfirmationsDistinct | app.js:353-365 | different manoeuvres have different confirmations |
| Dispatch.DetectedText | app.js:402 | the detected line starts with the id's digits, which read back as the id, followed by " — " and the key |
| Dispatch.PerformAction | app.js:337-366 | "Ejecutando: key" is shown, then the id is posted; the confirmation is spoken exactly when speech is on |
| Dispatch.Settle | app.js:340-351 | success refreshes the status, shows "Registrado", and reloads the history exactly when the modal is open; failure only shows "No se pudo registrar" with the message |
| Dispatch.SettleResponse | app.js:41-53 | a 2xx response refreshes the status, shows "Registrado" and reloads an open history; a rejected response toasts "No se pudo registrar: " with the body's message or "Error HTTP " and the status; a network failure toasts its message |
| Dispatch.ResponseTrace | app.js:335-367 | a dispatch up to the settlement of its response posts the id once and speaks the confirmation exactly when speech is on, whatever the response |
| Dispatch.RejectedPostToastsStatus | app.js:48-50 | a rejected POST without a usable body message toasts "No se pudo registrar: Error HTTP " followed by a numeral that reads back as the status |
| Dispatch.Spoken | app.js:319-328 | the phrases spoken are exactly those of the speech effects |
| Dispatch.SpokenAppend | app.js:319-328 | the phrases spoken by two effect sequences in a row are those of the first, then the second |
| Dispatch.SpeechIgnoresOutcome | app.js:340-366 | what a dispatch says depends on neither the POST's outcome nor the modal: the confirmation, or nothing with speech off |
| Dispatch.ImmediateEffects | app.js:338-366 | what `performAction` issues at once posts the id exactly once and speaks only the confirmation |
| Dispatch.SettleNeverPosts | app.js:341-351 | settling a POST never posts again |
| Dispatch.PostCount | app.js:340 | the number of posts among the effects is zero exactly when no effect is a post |
| Dispatch.PostCountAppend | app.js:340 | posts add up across consecutive effect sequences |
| Dispatch.OnePostPerAction | app.js:337-351 | a dispatch records exactly one movement, the dispatched id |
| Keyboard.Matches | app.js:144-154 | every id sent is in 1..11 and its shortcut equals the key |
| Keyboard.ShortcutsDistinct | app.js:144-154 | no two ids share a shortcut |
| Keyboard.AtMostOneMatch | app.js:144-154 | a key matches at most one entry |
| Keyboard.AtMostOneDispatch | app.js:142-155 | a key press sends at most one movement |
| Keyboard.MatchesEntry | app.js:144-154 | an entry's own key matches only that entry |
| Keyboard.KeyForDispatches | app.js:142-155 | pressing an id's shortcut sends exactly that id |
| Keyboard.UpperKeyDispatches | app.js:143 | the capital letter of a letter shortcut sends the same id |
| Keyboard.DispatchMeansShortcut | app.js:142-155 | a key that sends an id lowercases to that id's shortcut |
| Keyboard.LongKeysIgnored | app.js:143-154 | keys longer than one character ("Enter", "Shift", ...) send nothing |
| Session.SpeakThrows | app.js:319-328 | defines when `speak` throws: the speech box is checked but the browser offers no speech synthesis |
| Session.SetMicState | app.js:257-266 | the flag takes the new value; the button is re-enabled only when the mic display exists |
| Session.Click | app.js:425-448 | a disabled button ignores clicks; without a recogniser the click only alerts; otherwise the panel ends listening exactly when it was off, `start()` returned and speaking the prompt did not throw, and the button stays disabled exactly when the mic display is missing |
| Session.OnError | app.js:406-411 | an error switches listening off and shows "Error de micrófono: " with the reason |
| Session.OnEnd | app.js:413-415 | the end of recognition restarts the engine exactly while listening, changes no state, and lets an exception escape exactly when that restart throws |
| Session.HeardEffects | app.js:389-403 | "last heard" is shown first; with a command, the detected "id — key" follows, then "Ejecutando", then the POST of its id; an exception escapes exactly when a command is spoken while speech synthesis is missing |
| Session.OnResults | app.js:380-404 | a result event changes no controller state |
| Session.OnResultsAsWritten | app.js:380-404 | the handler as written changes no controller state either |
| Session.ResultsAgree | app.js:380-404 | without U+0130 in the transcript, the handler as written and the corrected one issue the same effects |
| Session.Replay | app.js:380-448 | handling the events one at a time keeps listening off without a recogniser, never changes which elements exist or the speech setting, posts no more movements than there were final result events, and reaches the same state and effects as the whole run |
| Session.RunExtends | app.js:380-448 | a run one event longer is the shorter run followed by that event |
| Session.ClickWithoutRecognizer | app.js:427-430 | without a recogniser a click only raises the alert |
| Session.ClickFromOff | app.js:432-440 | from off, the click starts the engine; it listens exactly when `start()` returns and the prompt does not throw; it speaks the prompt exactly when `start()` returned, speech is on and synthesis exists; no exception escapes |
| Session.PromptFailureClearsFlag | app.js:433-440 | when speaking the prompt throws, the catch turns listening off although the engine started, and the following `onend` does nothing |
| Session.ClickFromOn | app.js:441-446 | from on, the click stops the engine and always ends not listening, and an exception escapes exactly when `stop()` throws |
| Session.StopIsNotRestarted | app.js:441-446 | after the operator stops, the following `onend` does not restart the engine |
| Session.StepPreservesWf | app.js:257-266 | every event keeps listening off without a recogniser, and never changes which elements exist |
| Session.RunPreservesWf | app.js:257-266 | the same holds over any run of events |
| Session.NeverListensWithoutRecognizer | app.js:427-430 | without a recogniser nothing ever listens |
| Session.StepDisabledNoStop | app.js:259 | without the mic display, a disabled button stays disabled and no event stops the engine |
| Session.ButtonStaysLocked | app.js:259 | without the mic display, once disabled, the button stays disabled and the engine is never stopped |
| Session.RunKeepsDisplay | app.js:259 | no run of events adds or removes the mic display |
| Session.ResultsNeverStop | app.js:380-404 | a result event never stops the engine |
| Session.HeardNeverStops | app.js:389-403 | showing and dispatching a gate decision never stops the engine |
| Session.ClickReenables | app.js:265 | with the mic display present, every handled click leaves the button enabled |
| Session.ResultsIgnoreListening | app.js:380-404 | a result event does the same whether or not the panel is listening |
| Session.HeardPostsOnce | app.js:401-403 | a gate decision posts once exactly when it carries a command, and posts that command's id |
| Session.ResultsPostOnce | app.js:398-403 | a result event posts at most once, and only when the gate lets a command through |
| Session.ResultsPostOnceAsWritten | app.js:398-403 | the handler as written also posts once exactly when its gate lets a command through, and posts that command's id |
| Session.StepPosts | app.js:398-399 | only a final result event can post, and at most once |
| Session.PostsBoundedByFinals | app.js:398-403 | a run posts no more movements than it has final result events |

## Left out

- Network transport: `fetch`, the HTTP round trip and JSON parsing are not modelled. A response arrives as a status and an already parsed body, and a failed fetch as its error message.
- The page itself is not modelled: DOM writes, toasts, the Bootstrap modal, the 2-second `setInterval` refresh of the history, and `showSection`. These appear only as effects (`Dispatch.Effect`) or are absent.
- The speech recogniser and speech synthesis are left out. Whether `start()`/`stop()` throw, whether the speech box is checked, and whether the browser offers speech synthesis (`synthesis`; without it `speak` throws) are parameters, and a recognition event is its list of results and `resultIndex`.
- Only the top alternative of each result is used, and `lang`, `continuous` and `interimResults` are not modelled.
- Date and time formatting (`toLocaleString`, `toLocaleTimeString`), `setStatus`/`setStatusVoz` uppercasing, and the HTML of each history row are not modelled.
- Unicode tables: lowercasing covers ASCII, Latin-1 and U+0130 only. Decomposition covers the lowercase Latin-1 letters only. Every other code point is treated as its own lowercase and decomposition.
- Lone surrogates: Dafny strings hold code points, so a transcript is always well-formed UTF-16. When `slice` starts inside a code point above U+FFFF, the lone low surrogate it leaves is the stand-in `Text.LoneSurrogate` (U+FFFD). Like a lone surrogate in JavaScript, it counts one UTF-16 unit, is neither blank nor a word character, is its own lowercase and NFD, and becomes a space under punctuation. Its actual code unit value is not modelled.
- JSON numbers are integers: floats, NaN and exponent forms are not modelled.
- `enviarMovimiento`, the `[data-mov]` control buttons and their status updates are not modelled. Keyboard shortcuts are modelled up to the ids they send.
- Async interleaving is not modelled. A POST's settlement effects follow its immediate effects in one trace, and other events cannot arrive in between.
- The optional elements `el.action`, `el.detected`, `el.lastHeard` and `el.btn` are assumed present. Only the mic display (`el.micState`) is modelled as possibly absent.
- Keyboard.KeyDispatches: has no ensures of its own. What it sends is stated by `Keyboard.AtMostOneDispatch`, `Keyboard.KeyForDispatches`, `Keyboard.DispatchMeansShortcut` and `Keyboard.LongKeysIgnored`.
- Dispatch.ActionTrace: has no ensures of its own. It is the concatenation its lemmas (`Dispatch.OnePostPerAction`, `Dispatch.SpeechIgnoresOutcome`) speak about.
- Classifier.TextCues: has no ensures of its own. It is related to the token view by `Classifier.CuesOfTokens`.
- Session.Step: has no ensures of its own, and neither does Session.Run. Their properties are in the Session lemmas. Result events go through the corrected handler, as in `Session.OnResults`.
- Session.OnResults: uses the corrected gate `WakeGate.OnResult`, not the code as written. The two differ only on transcripts holding U+0130 (`Session.ResultsAgree`). The as-written handler is `Session.OnResultsAsWritten`.
- Session.ResultsPostOnce: is stated for the corrected gate. `Session.ResultsPostOnceAsWritten` states the same for the code as written.
- Session.Controller: `tts` is fixed for a whole run. The page reads the speech checkbox again at every `speak`, so toggling it mid-run is not modelled.
- WakeGate.Transcript: has no ensures of its own. Its content is fixed by `WakeGate.EmptyTranscriptIgnored` and `WakeGate.EarlierResultsIgnored`.

## Findings

| source | as written | input that shows it | evidently intended | confidence | as-written member | corrected member |
|---|---|---|---|---|---|---|
| app.js:391-395 | The position of "tony" is found in `transcript.toLowerCase()` but used to slice `transcript` itself. Lowercasing U+0130 (İ) gives two code points, so the index is shifted by one per İ before the wake word. As `slice` counts UTF-16 units, the shifted cut can also fall inside a code point above U+FFFF: for "İtony😀x" the remainder starts with the emoji's lone low surrogate (`WakeGate.PairAsWritten`). | One final result "İİ tony avanza": the lowercased text has "tony" at index 5 instead of 3, the remainder is "vanza", and stop (id 3) is posted | Slice after the wake word as it stands in the transcript: the remainder "avanza" and forward (id 1) | not executed | WakeGate.WakeShiftCounterexample | WakeGate.OnResult |

=== FILE: api.dfy ===
/**
  The pure part of the movement API client: the error message a failed
  response produces (app.js:49, 58, 69), the `res.ok` test, the reshaping of
  the history response (app.js:73-74), how the history view reads that
  shape (app.js:162-170, 82-100), and the choice of the latest record
  (app.js:123-124). Responses arrive already parsed; a body that does not
  parse is `null`, as `res.json().catch(() => null)` makes it.
*/
module Api {
  import opened Wrappers
  import opened Text

  /** A parsed JSON value. Numbers are integers. */
  datatype Json =
    | JNull
    | JBool(b: bool)
    | JNumber(n: int)
    | JString(s: string)
    | JArray(items: seq<Json>)
    | JObject(fields: map<string, Json>)

  /** JavaScript truthiness of a value. */
  predicate Truthy(j: Json) {
    match j
    case JNull => false
    case JBool(b) => b
    case JNumber(n) => n != 0
    case JString(s) => s != []
    case JArray(_) => true
    case JObject(_) => true
  }

  /** Truthiness of a property read, where `None` is `undefined`. */
  predicate TruthyField(f: Option<Json>) {
    f.Some? && Truthy(f.value)
  }

  /** `j.k`: only objects carry named properties; anything else reads `undefined`. */
  function Field(j: Json, k: string): (r: Option<Json>)
    ensures r.Some? <==> j.JObject? && k in j.fields
  {
    if j.JObject? && k in j.fields then Some(j.fields[k]) else None
  }

  /** `String(v)` of a JSON value: what `new Error(v).message` holds. */
  function ToDisplayString(j: Json): (r: string)
    ensures j.JString? ==> r == j.s
    ensures j.JNumber? && j.n >= 0 ==> ParseDecimal(r) == Some(j.n)
  {
    match j
    case JNull => "null"
    case JBool(b) => if b then "true" else "false"
    case JNumber(n) => IntToString(n)
    case JString(s) => s
    case JArray(items) => JoinItems(items)
    case JObject(_) => "[object Object]"
  }

  /** `Array.prototype.toString`: elements joined by commas, `null` as empty. */
  function JoinItems(items: seq<Json>): string
    decreases items
  {
    if |items| == 0 then []
    else
      var head := if items[0].JNull? then [] else ToDisplayString(items[0]);
      if |items| == 1 then head else head + "," + JoinItems(items[1..])
  }

  /** `res.ok`: a status in the 2xx range. */
  predicate Ok(status: int) {
    200 <= status <= 299
  }

  const HttpErrorPrefix: string := "Error HTTP "

  /** The message thrown for a failed response: the body's `message` when it
      is truthy, otherwise "Error HTTP " and the status. */
  function HttpErrorMessage(status: int, body: Json): (msg: string)
    ensures TruthyField(Field(body, "message")) ==> msg == ToDisplayString(body.fields["message"])
    ensures !TruthyField(Field(body, "message")) ==> msg == HttpErrorPrefix + IntToString(status)
  {
    if Truthy(body) && TruthyField(Field(body, "message")) then ToDisplayString(Field(body, "message").value)
    else HttpErrorPrefix + IntToString(status)
  }

  /** What a fetch produced: a response, or a rejection with its message. */
  datatype Response = Response(status: int, body: Json) | NetworkError(message: string)

  /** The settled value of `postMovimiento` / `getUltimoMovimiento`: the body
      on success, the error's message on failure. */
  function Outcome(resp: Response): (r: Result<Json, string>)
    ensures resp.Response? && Ok(resp.status) ==> r == Success(resp.body)
    ensures resp.NetworkError? ==> r == Failure(resp.message)
    ensures resp.Response? && !Ok(resp.status) ==> r == Failure(HttpErrorMessage(resp.status, resp.body))
    ensures r.Failure? && resp.Response? ==> !Ok(resp.status)
  {
    match resp
    case NetworkError(m) => Failure(m)
    case Response(status, body) =>
      if Ok(status) then Success(body) else Failure(HttpErrorMessage(status, body))
  }

  /** When the body has no usable message, the status can be read back from
      the error text. */
  lemma FallbackMessageCarriesStatus(status: int, body: Json)
    requires status >= 0 && !TruthyField(Field(body, "message"))
    ensures var msg := HttpErrorMessage(status, body);
      |msg| > |HttpErrorPrefix| && msg[..|HttpErrorPrefix|] == HttpErrorPrefix
      && ParseDecimal(msg[|HttpErrorPrefix|..]) == Some(status)
  {
    var msg := HttpErrorMessage(status, body);
    assert msg[|HttpErrorPrefix|..] == IntToString(status);
  }

  // ---------------------------------------------------------------------
  // The movement history.

  /** `getMovimientos`' reshaping: a bare array becomes `{data: array}`, a
      falsy body becomes `{data: []}`, anything else passes through. */
  function ShapeHistory(body: Json): (r: Json)
    ensures Truthy(r) && !r.JArray?
    ensures body.JArray? ==> Field(r, "data") == Some(body)
    ensures !body.JArray? && Truthy(body) ==> r == body
  {
    if body.JArray? then JObject(map["data" := body])
    else if Truthy(body) then body
    else JObject(map["data" := JArray([])])
  }

  /** Reshaping a reshaped value changes nothing. */
  lemma ShapeHistoryIdempotent(body: Json)
    ensures ShapeHistory(ShapeHistory(body)) == ShapeHistory(body)
  {
  }

  /** What the history table ends up showing. */
  datatype HistoryView =
    | Table(rows: seq<Json>)  // one row per record
    | NoRecords               // the "Sin registros" row
    | LoadFailed              // rendering threw: "Sin registros" and an error toast

  /** `cargarMovimientos` after a successful fetch: `const {data} = shaped`,
      `rows = data || []`, then `renderMovimientos(rows)`, which shows the
      empty row when `rows.length === 0` and throws when `rows` is not an
      array or a row is `null`. */
  function HistoryViewOf(shaped: Json): (v: HistoryView)
    ensures v.Table? ==> |v.rows| > 0 && forall i :: 0 <= i < |v.rows| ==> !v.rows[i].JNull?
  {
    var data := Field(shaped, "data");
    var rows := if TruthyField(data) then data.value else JArray([]);
    match rows
    case JArray(items) =>
      if |items| == 0 then NoRecords
      else if exists i :: 0 <= i < |items| && items[i].JNull? then LoadFailed
      else Table(items)
    case JObject(fields) =>
      if "length" in fields && fields["length"] == JNumber(0) then NoRecords else LoadFailed
    case _ => LoadFailed
  }

  /** A bare array of records and the same array wrapped as `{data: ...}`
      show the same table. */
  lemma HistoryShapesAgree(items: seq<Json>)
    ensures HistoryViewOf(ShapeHistory(JArray(items)))
         == HistoryViewOf(ShapeHistory(JObject(map["data" := JArray(items)])))
  {
  }

  /** A list of non-null records is shown row for row, whichever shape the
      server sends; an empty list shows the empty row. */
  lemma HistoryShowsRecords(items: seq<Json>)
    requires forall i :: 0 <= i < |items| ==> !items[i].JNull?
    ensures |items| > 0 ==> HistoryViewOf(ShapeHistory(JArray(items))) == Table(items)
    ensures |items| == 0 ==> HistoryViewOf(ShapeHistory(JArray(items))) == NoRecords
  {
  }

  /** A body that is not an array and has no `data` shows the empty row,
      not an error. */
  lemma HistoryWithoutData(body: Json)
    requires !body.JArray? && Field(body, "data").None?
    ensures HistoryViewOf(ShapeHistory(body)) == NoRecords
  {
  }

  // ---------------------------------------------------------------------
  // The latest movement.

  /** `refrescarUltimo`: the first element of an array body, otherwise the
      body's `data`; the status is updated only when that value is truthy. */
  function LatestRecord(body: Json): (r: Option<Json>)
    ensures r.Some? ==> Truthy(r.value)
    ensures r.Some? ==>
      || (body.JArray? && |body.items| > 0 && r.value == body.items[0])
      || (!body.JArray? && Field(body, "data") == Some(r.value))
    ensures body.JArray? && |body.items| > 0 && Truthy(body.items[0]) ==> r == Some(body.items[0])
    ensures !body.JArray? && TruthyField(Field(body, "data")) ==> r == Field(body, "data")
  {
    var data :=
      if body.JArray? then (if |body.items| > 0 then Some(body.items[0]) else None)
      else Field(body, "data");
    if TruthyField(data) then data else None
  }

  /** An array whose first element is `x` and an object `{data: x}` update
      the status with the same record. */
  lemma LatestShapesAgree(x: Json, more: seq<Json>)
    ensures LatestRecord(JArray([x] + more)) == LatestRecord(JObject(map["data" := x]))
  {
  }

  /** Nothing is updated from an empty list, a `null` body or a falsy `data`. */
  lemma LatestOfNothing(body: Json)
    requires body == JArray([]) || body == JNull || (body.JObject? && !TruthyField(Field(body, "data")))
    ensures LatestRecord(body).None?
  {
  }
}

=== FILE: classifier.dfy ===
/**
  The intent classifier `localClassify` (app.js:269-317) with its tables
  `COMMANDS` (app.js:217-229) and `CATALOGO` (app.js:5-17).

  `ClassifyNormal` is the source's ordered first-match rule list over the
  regular-expression tests of module Patterns. `TokenCues` is an
  independent reading of the same rules over the tokens of the text;
  `ClassifyByTokens` proves the two agree on every input, and the priority,
  reachability and word-order properties are proved from it.
*/
module Classifier {
  import opened Wrappers
  import opened Text
  import opened Normalizer
  import opened Patterns

  /** A classified intent: the wire id of a manoeuvre and its key phrase. */
  datatype Command = Command(id: int, key: string)

  /** `COMMANDS`, in id order. */
  const Commands: seq<Command> := [
    Command(1, "adelante"),
    Command(2, "atr\U{E1}s"),
    Command(3, "detener"),
    Command(4, "vuelta adelante derecha"),
    Command(5, "vuelta adelante izquierda"),
    Command(6, "vuelta atr\U{E1}s derecha"),
    Command(7, "vuelta atr\U{E1}s izquierda"),
    Command(8, "giro 90 derecha"),
    Command(9, "giro 90 izquierda"),
    Command(10, "giro 360 derecha"),
    Command(11, "giro 360 izquierda")
  ]

  /** Entry `i` of the table carries id `i + 1`: ids run 1..11 without gaps. */
  lemma CommandsIndexedById()
    ensures |Commands| == 11
    ensures forall i :: 0 <= i < |Commands| ==> Commands[i].id == i + 1
  {
  }

  /** `CATALOGO[id]`, the label the control panel shows; `None` is `undefined`. */
  function CatalogLabel(id: int): (r: Option<string>)
    ensures r.Some? <==> 1 <= id <= 11
  {
    match id
    case 1 => Some("Adelante")
    case 2 => Some("Atr\U{E1}s")
    case 3 => Some("Detener")
    case 4 => Some("Vuelta adelante derecha")
    case 5 => Some("Vuelta adelante izquierda")
    case 6 => Some("Vuelta atr\U{E1}s derecha")
    case 7 => Some("Vuelta atr\U{E1}s izquierda")
    case 8 => Some("Giro 90\U{B0} derecha")
    case 9 => Some("Giro 90\U{B0} izquierda")
    case 10 => Some("Giro 360\U{B0} derecha")
    case 11 => Some("Giro 360\U{B0} izquierda")
    case _ => None
  }

  const StopWords: seq<string> := ["detener", "para", "alto", "stop"]
  const ForwardWords: seq<string> := ["adelante", "avanza", "frente"]
  const BackwardWords: seq<string> := ["atras", "retrocede", "reversa", "regresa"]
  const FullTurnWords: seq<string> := ["360", "completo", "vuelta completa"]
  const QuarterTurnWords: seq<string> := ["90", "noventa"]
  const RightStem: string := "derech"
  const LeftStem: string := "izquier"
  /** The forward alternatives of the combined rules (app.js:290, 296). */
  const ForwardTurnWords: seq<string> := ["adelante", "frente", "avanza"]
  /** The backward alternatives of the combined rules (app.js:303, 309): "regresa" is not among them. */
  const BackwardTurnWords: seq<string> := ["atras", "reversa", "retrocede"]

  /** The outcomes of the regular-expression tests `localClassify` makes. */
  datatype Cues = Cues(
    stop: bool,          // app.js:272
    forward: bool,       // app.js:274
    backward: bool,      // app.js:276
    fullTurn: bool,      // app.js:279 and 281
    quarterTurn: bool,   // app.js:284 and 286
    right: bool,         // `/\bderech/`, app.js:279, 284, 291, 304
    left: bool,          // `/\bizquier/`, app.js:281, 286, 297, 310
    forwardTurn: bool,   // app.js:290 and 296
    backwardTurn: bool,  // app.js:303 and 309
    vuelta: bool)        // `/\bvuelta\b/`, app.js:292, 298, 305, 311

  /** The ordered first-match rule list of app.js:272-316. */
  function Decide(c: Cues): (r: Command)
    ensures 1 <= r.id <= 11 && r == Commands[r.id - 1]
  {
    if c.stop then Command(3, "detener")
    else if c.forward then Command(1, "adelante")
    else if c.backward then Command(2, "atr\U{E1}s")
    else if c.fullTurn && c.right then Command(10, "giro 360 derecha")
    else if c.fullTurn && c.left then Command(11, "giro 360 izquierda")
    else if c.quarterTurn && c.right then Command(8, "giro 90 derecha")
    else if c.quarterTurn && c.left then Command(9, "giro 90 izquierda")
    else if c.forwardTurn && c.right && c.vuelta then Command(4, "vuelta adelante derecha")
    else if c.forwardTurn && c.left && c.vuelta then Command(5, "vuelta adelante izquierda")
    else if c.backwardTurn && c.right && c.vuelta then Command(6, "vuelta atr\U{E1}s derecha")
    else if c.backwardTurn && c.left && c.vuelta then Command(7, "vuelta atr\U{E1}s izquierda")
    else Command(3, "detener")
  }

  /** The tests, evaluated on normalised text. */
  function TextCues(t: string): Cues {
    Cues(
      HasAnyWhole(t, StopWords), HasAnyWhole(t, ForwardWords), HasAnyWhole(t, BackwardWords),
      HasAnyWhole(t, FullTurnWords), HasAnyWhole(t, QuarterTurnWords),
      HasWordStart(t, RightStem), HasWordStart(t, LeftStem),
      HasAnyWhole(t, ForwardTurnWords), HasAnyWhole(t, BackwardTurnWords), HasWhole(t, "vuelta"))
  }

  /** `localClassify` on text that is already normalised. */
  function ClassifyNormal(t: string): (r: Command)
    ensures r in Commands
    ensures 1 <= r.id <= 11 && r == Commands[r.id - 1]
  {
    Decide(TextCues(t))
  }

  /** `localClassify`: normalise, then apply the rule list. The answer is
      always an entry of `COMMANDS`, the one whose id it carries. */
  function Classify(text: string): (r: Command)
    ensures r in Commands
    ensures 1 <= r.id <= 11 && r == Commands[r.id - 1]
  {
    ClassifyNormal(Normalize(text))
  }

  // ---------------------------------------------------------------------
  // The same rules read over tokens.

  /** Some word of `ws` is a token. */
  predicate AnyToken(ws: seq<string>, toks: seq<string>) {
    exists w | w in ws :: w in toks
  }

  /** The magnitude test of app.js:279-281 on tokens: "360", "completo", or
      "vuelta" directly followed by "completa". */
  predicate FullTurnTokens(toks: seq<string>) {
    AnyToken(["360", "completo"], toks) || Adjacent(toks, "vuelta", "completa")
  }

  /** The same tests read over tokens. */
  function TokenCues(toks: seq<string>): Cues {
    Cues(
      AnyToken(StopWords, toks), AnyToken(ForwardWords, toks), AnyToken(BackwardWords, toks),
      FullTurnTokens(toks), AnyToken(QuarterTurnWords, toks),
      SomeTokenStarts(toks, RightStem), SomeTokenStarts(toks, LeftStem),
      AnyToken(ForwardTurnWords, toks), AnyToken(BackwardTurnWords, toks), "vuelta" in toks)
  }

  lemma AnyWholeOfTokens(toks: seq<string>, ws: seq<string>)
    requires IsTokenList(toks)
    requires forall w :: w in ws ==> IsWord(w)
    ensures HasAnyWhole(JoinSpaced(toks), ws) <==> AnyToken(ws, toks)
  {
    forall w | w in ws
      ensures HasWhole(JoinSpaced(toks), w) <==> w in toks
    {
      WholeOfTokens(toks, w);
    }
  }

  lemma FullTurnOfTokens(toks: seq<string>)
    requires IsTokenList(toks)
    ensures HasAnyWhole(JoinSpaced(toks), FullTurnWords) <==> FullTurnTokens(toks)
  {
    var t := JoinSpaced(toks);
    WholeOfTokens(toks, "360");
    WholeOfTokens(toks, "completo");
    PhraseOfTokens(toks, "vuelta", "completa");
    assert "vuelta" + " " + "completa" == "vuelta completa";
    assert HasAnyWhole(t, FullTurnWords) <==>
      HasWhole(t, "360") || HasWhole(t, "completo") || HasWhole(t, "vuelta completa");
  }

  /** On joined tokens the regular-expression tests and the token tests agree. */
  lemma CuesOfTokens(toks: seq<string>)
    requires IsTokenList(toks)
    ensures TextCues(JoinSpaced(toks)) == TokenCues(toks)
  {
    var a, b := TextCues(JoinSpaced(toks)), TokenCues(toks);
    WordCuesOfTokens(toks);
    TurnCuesOfTokens(toks);
    assert a.stop == b.stop && a.forward == b.forward && a.backward == b.backward;
    assert a.fullTurn == b.fullTurn && a.quarterTurn == b.quarterTurn;
    assert a.right == b.right && a.left == b.left && a.vuelta == b.vuelta;
    assert a.forwardTurn == b.forwardTurn && a.backwardTurn == b.backwardTurn;
  }

  lemma WordCuesOfTokens(toks: seq<string>)
    requires IsTokenList(toks)
    ensures var a, b := TextCues(JoinSpaced(toks)), TokenCues(toks);
      a.stop == b.stop && a.forward == b.forward && a.backward == b.backward
      && a.forwardTurn == b.forwardTurn && a.backwardTurn == b.backwardTurn
  {
    MotionCuesOfTokens(toks);
    CombinedCuesOfTokens(toks);
  }

  lemma MotionCuesOfTokens(toks: seq<string>)
    requires IsTokenList(toks)
    ensures var a, b := TextCues(JoinSpaced(toks)), TokenCues(toks);
      a.stop == b.stop && a.forward == b.forward && a.backward == b.backward
  {
    var t := JoinSpaced(toks);
    assert HasAnyWhole(t, StopWords) <==> AnyToken(StopWords, toks) by {
      AnyWholeOfTokens(toks, StopWords);
    }
    assert HasAnyWhole(t, ForwardWords) <==> AnyToken(ForwardWords, toks) by {
      AnyWholeOfTokens(toks, ForwardWords);
    }
    assert HasAnyWhole(t, BackwardWords) <==> AnyToken(BackwardWords, toks) by {
      AnyWholeOfTokens(toks, BackwardWords);
    }
  }

  lemma CombinedCuesOfTokens(toks: seq<string>)
    requires IsTokenList(toks)
    ensures var a, b := TextCues(JoinSpaced(toks)), TokenCues(toks);
      a.forwardTurn == b.forwardTurn && a.backwardTurn == b.backwardTurn
  {
    AnyWholeOfTokens(toks, ForwardTurnWords);
    AnyWholeOfTokens(toks, BackwardTurnWords);
  }

  lemma TurnCuesOfTokens(toks: seq<string>)
    requires IsTokenList(toks)
    ensures var a, b := TextCues(JoinSpaced(toks)), TokenCues(toks);
      a.fullTurn == b.fullTurn && a.quarterTurn == b.quarterTurn
      && a.right == b.right && a.left == b.left && a.vuelta == b.vuelta
  {
    FullTurnOfTokens(toks);
    AnyWholeOfTokens(toks, QuarterTurnWords);
    StartOfTokens(toks, RightStem);
    StartOfTokens(toks, LeftStem);
    WholeOfTokens(toks, "vuelta");
  }

  /** `localClassify` is the rule list applied to the token tests of the normalised text. */
  lemma ClassifyByTokens(text: string)
    ensures Classify(text) == Decide(TokenCues(Words(Normalize(text))))
  {
    WordsOfNormal(Normalize(text));
    CuesOfTokens(Words(Normalize(text)));
  }

  /** A lone surrogate ahead of the text does not change the command. */
  lemma LoneSurrogateIgnored(s: string)
    ensures Classify([LoneSurrogate] + s) == Classify(s)
  {
    ClassifyByTokens([LoneSurrogate] + s);
    ClassifyByTokens(s);
    LoneSurrogateSeparates(s);
  }

  /** The combined rules test the same forward words as rule 1 and a subset
      of the backward words of rule 2. */
  lemma CuesOverlap(t: string)
    ensures TextCues(t).forwardTurn == TextCues(t).forward
    ensures TextCues(t).backwardTurn ==> TextCues(t).backward
  {
    var c := TextCues(t);
    if c.forwardTurn {
      var w :| w in ForwardTurnWords && HasWhole(t, w);
      assert w in ForwardWords;
    }
    if c.forward {
      var w :| w in ForwardWords && HasWhole(t, w);
      assert w in ForwardTurnWords;
    }
    if c.backwardTurn {
      var w :| w in BackwardTurnWords && HasWhole(t, w);
      assert w in BackwardWords;
    }
  }

  // ---------------------------------------------------------------------
  // Properties of the classifier.

  /** Classifying already-normalised text changes nothing: `localClassify`
      normalises on its own. */
  lemma ClassifyIgnoresNormalization(text: string)
    ensures Classify(Normalize(text)) == Classify(text)
  {
    NormalizeIdempotent(text);
  }

  /** A stop word anywhere as a whole token stops the vehicle, whatever else
      the phrase says. */
  lemma StopWins(text: string, w: string)
    ensures w in StopWords && w in Words(Normalize(text)) ==> Classify(text).id == 3
  {
    if w in StopWords && w in Words(Normalize(text)) {
      ClassifyByTokens(text);
      assert TokenCues(Words(Normalize(text))).stop;
    }
  }

  /** Ids 4..7 are never returned: every text that passes a combined turn
      rule was already taken by the forward or backward rule before it. */
  lemma CombinedTurnsUnreachable(text: string)
    ensures Classify(text).id !in {4, 5, 6, 7}
  {
    CuesOverlap(Normalize(text));
  }

  /** Whenever the words of a combined turn are present (a forward or
      backward word, "vuelta" and a direction), an earlier rule has already
      answered: stop when a stop word is present, otherwise plain forward or
      backward. */
  lemma CombinedTurnsPreempted(text: string)
    requires var c := TokenCues(Words(Normalize(text)));
      c.vuelta && (c.right || c.left)
    ensures var c := TokenCues(Words(Normalize(text)));
      c.stop ==> Classify(text).id == 3
    ensures var c := TokenCues(Words(Normalize(text)));
      !c.stop && c.forwardTurn ==> Classify(text).id == 1
    ensures var c := TokenCues(Words(Normalize(text)));
      !c.stop && c.backwardTurn ==> Classify(text).id in {1, 2}
  {
    var c := TokenCues(Words(Normalize(text)));
    ClassifyByTokens(text);
    assert c.forwardTurn ==> c.forward by {
      if c.forwardTurn {
        var w :| w in ForwardTurnWords && w in Words(Normalize(text));
        assert w in ForwardWords;
      }
    }
    assert c.backwardTurn ==> c.backward by {
      if c.backwardTurn {
        var w :| w in BackwardTurnWords && w in Words(Normalize(text));
        assert w in BackwardWords;
      }
    }
  }

  /** Without a stop, forward or backward word, a full turn outranks a
      quarter turn. */
  lemma FullTurnBeatsQuarterTurn(text: string)
    requires var c := TokenCues(Words(Normalize(text)));
      !c.stop && !c.forward && !c.backward && c.fullTurn && c.quarterTurn && (c.right || c.left)
    ensures Classify(text).id in {10, 11}
  {
    ClassifyByTokens(text);
  }

  /** When both directions are named with a magnitude, right wins. */
  lemma RightBeatsLeft(text: string)
    requires var c := TokenCues(Words(Normalize(text)));
      !c.stop && !c.forward && !c.backward && (c.fullTurn || c.quarterTurn) && c.right && c.left
    ensures Classify(text).id in {10, 8}
  {
    ClassifyByTokens(text);
  }

  /** Motion is commanded only when the text names it: any answer other than
      stop needs a forward word, a backward word, or a magnitude together
      with a direction. */
  lemma MotionNeedsVocabulary(text: string)
    ensures var c := TokenCues(Words(Normalize(text)));
      Classify(text).id != 3 ==>
        c.forward || c.backward || ((c.fullTurn || c.quarterTurn) && (c.right || c.left))
  {
    ClassifyByTokens(text);
    CombinedTurnsUnreachable(text);
  }

  /** Word order does not matter: two phrases with the same tokens, in any
      order, classify alike, provided they agree on whether "vuelta" is
      directly followed by "completa" (the one two-word alternative). */
  lemma WordOrderIrrelevant(x: string, y: string)
    requires multiset(Words(Normalize(x))) == multiset(Words(Normalize(y)))
    requires Adjacent(Words(Normalize(x)), "vuelta", "completa")
          == Adjacent(Words(Normalize(y)), "vuelta", "completa")
    ensures Classify(x) == Classify(y)
  {
    var tx := Words(Normalize(x));
    var ty := Words(Normalize(y));
    SameTokensSameCues(tx, ty);
    ClassifyByTokens(x);
    ClassifyByTokens(y);
  }

  lemma SameTokensSameCues(tx: seq<string>, ty: seq<string>)
    requires multiset(tx) == multiset(ty)
    requires Adjacent(tx, "vuelta", "completa") == Adjacent(ty, "vuelta", "completa")
    ensures TokenCues(tx) == TokenCues(ty)
  {
    assert forall w :: w in tx <==> w in ty by {
      forall w
        ensures w in tx <==> w in ty
      {
        assert w in tx <==> w in multiset(tx);
        assert w in ty <==> w in multiset(ty);
      }
    }
    forall p
      ensures SomeTokenStarts(tx, p) <==> SomeTokenStarts(ty, p)
    {
      if SomeTokenStarts(tx, p) {
        var j :| 0 <= j < |tx| && p <= tx[j];
        assert tx[j] in ty;
      }
      if SomeTokenStarts(ty, p) {
        var j :| 0 <= j < |ty| && p <= ty[j];
        assert ty[j] in tx;
      }
    }
  }

  /** A phrase written as tokens joined by single spaces classifies by its tokens. */
  lemma ClassifyJoined(toks: seq<string>)
    requires IsTokenList(toks)
    ensures Classify(JoinSpaced(toks)) == Decide(TokenCues(toks))
  {
    JoinedTokensNormal(toks);
    NormalizeFixesNormal(JoinSpaced(toks));
    CuesOfTokens(toks);
  }

  /** "detener y avanza": the stop word wins over the forward word after it. */
  lemma StopAndGoStops(toks: seq<string>)
    requires toks == ["detener", "y", "avanza"]
    ensures Classify(JoinSpaced(toks)).id == 3
  {
    assert IsTokenList(toks);
    assert Decide(TokenCues(toks)).id == 3 by {
      assert "detener" in toks;
    }
    ClassifyJoined(toks);
  }

  /** "Atrás", capital and accent included, is backward (id 2): lowercasing,
      decomposition and the removal of the mark turn it into "atras". */
  lemma AccentedBackward(s: string)
    requires s == "Atr\U{E1}s"
    ensures Classify(s).id == 2
  {
    assert Normalize(s) == JoinSpaced(["atras"]) by {
      NormalizeAtras(s);
    }
    ClassifyIgnoresNormalization(s);
    BackwardWordCues(["atras"]);
    ClassifyJoined(["atras"]);
  }

  lemma BackwardWordCues(toks: seq<string>)
    requires toks == ["atras"]
    ensures IsTokenList(toks)
    ensures Decide(TokenCues(toks)).id == 2
  {
    assert !AnyToken(StopWords, toks) by {
      assert forall w :: w in StopWords ==> w !in toks;
    }
    assert !AnyToken(ForwardWords, toks) by {
      assert forall w :: w in ForwardWords ==> w !in toks;
    }
    assert "atras" in BackwardWords;
  }

  /** "adelante vuelta a la derecha" is plain forward (id 1), not the
      combined forward-right turn (id 4). */
  lemma ForwardTurnIsForward(toks: seq<string>)
    requires toks == ["adelante", "vuelta", "a", "la", "derecha"]
    ensures Classify(JoinSpaced(toks)).id == 1
  {
    assert IsTokenList(toks);
    ForwardTurnCues(toks);
    ClassifyJoined(toks);
  }

  lemma ForwardTurnCues(toks: seq<string>)
    requires toks == ["adelante", "vuelta", "a", "la", "derecha"]
    ensures Decide(TokenCues(toks)).id == 1
  {
    assert !AnyToken(StopWords, toks) by {
      assert forall w :: w in StopWords ==> w !in toks;
    }
    assert "adelante" in toks;
  }

  /** The tests on the tokens of "gira noventa grados a la izquierda". */
  lemma QuarterTurnLeftCues(toks: seq<string>)
    requires toks == ["gira", "noventa", "grados", "a", "la", "izquierda"]
    ensures var c := TokenCues(toks);
      && !c.stop && !c.forward && !c.backward && !c.fullTurn && !c.right
      && c.quarterTurn && c.left
  {
    assert !AnyToken(StopWords, toks) by {
      assert forall w :: w in StopWords ==> w !in toks;
    }
    assert !AnyToken(ForwardWords, toks) by {
      assert forall w :: w in ForwardWords ==> w !in toks;
    }
    assert !AnyToken(BackwardWords, toks) by {
      assert forall w :: w in BackwardWords ==> w !in toks;
    }
    assert !FullTurnTokens(toks) by {
      assert "360" !in toks && "completo" !in toks && "vuelta" !in toks;
    }
    assert !SomeTokenStarts(toks, RightStem) by {
      forall j | 0 <= j < |toks|
        ensures !(RightStem <= toks[j])
      {
        assert toks[j][0] != 'd';
      }
    }
    assert "noventa" in toks && LeftStem <= toks[5];
  }

  /** "gira noventa grados a la izquierda" is the quarter turn left (id 9). */
  lemma QuarterTurnLeft(toks: seq<string>)
    requires toks == ["gira", "noventa", "grados", "a", "la", "izquierda"]
    ensures Classify(JoinSpaced(toks)).id == 9
  {
    assert IsTokenList(toks);
    QuarterTurnLeftCues(toks);
    ClassifyJoined(toks);
  }

  /** The tests on the tokens of "da una vuelta completa a la derecha". */
  lemma FullTurnRightCues(toks: seq<string>)
    requires toks == ["da", "una", "vuelta", "completa", "a", "la", "derecha"]
    ensures Decide(TokenCues(toks)).id == 10
  {
    assert !AnyToken(StopWords, toks) by {
      assert forall w :: w in StopWords ==> w !in toks;
    }
    assert !AnyToken(ForwardWords, toks) by {
      assert forall w :: w in ForwardWords ==> w !in toks;
    }
    assert !AnyToken(BackwardWords, toks) by {
      assert forall w :: w in BackwardWords ==> w !in toks;
    }
    assert toks[2] == "vuelta" && toks[3] == "completa";
    assert RightStem <= toks[6];
  }

  /** "da una vuelta completa a la derecha" is the full turn right (id 10). */
  lemma FullTurnRight(toks: seq<string>)
    requires toks == ["da", "una", "vuelta", "completa", "a", "la", "derecha"]
    ensures Classify(JoinSpaced(toks)).id == 10
  {
    assert IsTokenList(toks);
    FullTurnRightCues(toks);
    ClassifyJoined(toks);
  }
}

=== FILE: dispatch.dfy ===
/**
  `performAction` (app.js:337-367): what dispatching a classified command
  does. The POST is fired and forgotten; the spoken confirmation and the
  "Ejecutando" line happen at once, and the toast, status refresh and
  history reload happen when the POST settles. Effects are listed in the
  order the source issues them.
*/
module Dispatch {
  import opened Wrappers
  import opened Text
  import opened Classifier
  import opened Api

  /** An observable effect of the voice panel. */
  datatype Effect =
    | ShowLastHeard(text: string)   // `el.lastHeard`
    | ShowDetected(text: string)    // `el.detected`
    | ShowAction(text: string)      // `el.action`
    | Post(id: int)                 // `postMovimiento(id)`
    | Speak(text: string)           // `speak(...)` with the TTS box checked
    | Toast(text: string)           // `showToast(...)`
    | RefreshLatest                 // `refrescarUltimo()`
    | ReloadHistory                 // `cargarMovimientos()`
    | Alert(text: string)           // `alert(...)`
    | StartEngine                   // `rec.start()`
    | StopEngine                    // `rec.stop()`
    | Uncaught                      // an exception escapes the handler

  /** The spoken confirmation for an id, "Listo." for any id outside the table. */
  function Confirmation(id: int): (r: string)
    ensures (1 <= id <= 11) <==> r != "Listo."
  {
    match id
    case 1 => "Avanzando."
    case 2 => "Retrocediendo."
    case 3 => "Deteniendo."
    case 4 => "Adelante con giro a la derecha."
    case 5 => "Adelante con giro a la izquierda."
    case 6 => "Atr\U{E1}s con giro a la derecha."
    case 7 => "Atr\U{E1}s con giro a la izquierda."
    case 8 => "Giro noventa grados a la derecha."
    case 9 => "Giro noventa grados a la izquierda."
    case 10 => "Giro completo a la derecha."
    case 11 => "Giro completo a la izquierda."
    case _ => "Listo."
  }

  /** Different manoeuvres are confirmed with different phrases. */
  lemma ConfirmationsDistinct(i: int, j: int)
    requires 1 <= i <= 11 && 1 <= j <= 11 && i != j
    ensures Confirmation(i) != Confirmation(j)
  {
    ConfirmationLength(i);
    ConfirmationLength(j);
    var a, b := Confirmation(i), Confirmation(j);
    if |a| == |b| {
      assert a[0] != b[0] by {
        assert Confirmation(5)[0] == 'A' && Confirmation(8)[0] == 'G';
      }
    }
  }

  /** The length of each confirmation; only ids 5 and 8 share one. */
  lemma ConfirmationLength(id: int)
    requires 1 <= id <= 11
    ensures |Confirmation(id)| == match id
      case 1 => 10 case 2 => 14 case 3 => 11 case 4 => 31 case 5 => 33 case 6 => 28
      case 7 => 30 case 8 => 33 case 9 => 35 case 10 => 27 case _ => 29
  {
  }

  /** The text `el.detected` shows for a classified command: "<id> — <key>". */
  function DetectedText(c: Command): (r: string)
    ensures |r| > |IntToString(c.id)|
    ensures c.id >= 0 ==> ParseDecimal(r[..|IntToString(c.id)|]) == Some(c.id)
    ensures r[|IntToString(c.id)|..] == " \U{2014} " + c.key
  {
    var digits := IntToString(c.id);
    assert (digits + " \U{2014} " + c.key)[..|digits|] == digits;
    assert (digits + " \U{2014} " + c.key)[|digits|..] == " \U{2014} " + c.key;
    digits + " \U{2014} " + c.key
  }

  /** The effects `performAction` issues at once. `tts` is whether the
      speech checkbox exists and is checked. */
  function PerformAction(id: int, key: string, tts: bool): (effects: seq<Effect>)
    ensures |effects| >= 2 && effects[0] == ShowAction("Ejecutando: " + key) && effects[1] == Post(id)
    ensures Speak(Confirmation(id)) in effects <==> tts
  {
    [ShowAction("Ejecutando: " + key), Post(id)] + (if tts then [Speak(Confirmation(id))] else [])
  }

  /** The effects when the POST settles. `historyOpen` is whether the
      history modal is showing at that moment. */
  function Settle(key: string, outcome: Result<Json, string>, historyOpen: bool): (effects: seq<Effect>)
    ensures outcome.Success? ==> Toast("Registrado: " + key) in effects && RefreshLatest in effects
    ensures outcome.Success? ==> (ReloadHistory in effects <==> historyOpen)
    ensures outcome.Failure? ==> effects == [Toast("No se pudo registrar: " + outcome.error)]
  {
    match outcome
    case Success(_) =>
      [RefreshLatest] + (if historyOpen then [ReloadHistory] else []) + [Toast("Registrado: " + key)]
    case Failure(msg) => [Toast("No se pudo registrar: " + msg)]
  }

  /** The effects of a dispatch from start to settlement. */
  function ActionTrace(id: int, key: string, tts: bool, outcome: Result<Json, string>, historyOpen: bool): seq<Effect> {
    PerformAction(id, key, tts) + Settle(key, outcome, historyOpen)
  }

  /** The settlement the POST's response drives: `postMovimiento` turns it
      into a body or an error message (app.js:41-53), and the `then` or
      `catch` of `performAction` reacts to that (app.js:340-351). */
  function SettleResponse(key: string, resp: Response, historyOpen: bool): (effects: seq<Effect>)
    ensures resp.Response? && Ok(resp.status) ==>
      Toast("Registrado: " + key) in effects && RefreshLatest in effects && (ReloadHistory in effects <==> historyOpen)
    ensures resp.Response? && !Ok(resp.status) ==>
      effects == [Toast("No se pudo registrar: " + HttpErrorMessage(resp.status, resp.body))]
    ensures resp.NetworkError? ==> effects == [Toast("No se pudo registrar: " + resp.message)]
  {
    Settle(key, Outcome(resp), historyOpen)
  }

  /** A dispatch from start to the settlement of its response. */
  function ResponseTrace(id: int, key: string, tts: bool, resp: Response, historyOpen: bool): (effects: seq<Effect>)
    ensures effects == PerformAction(id, key, tts) + SettleResponse(key, resp, historyOpen)
    ensures PostCount(effects) == 1
    ensures Spoken(effects) == (if tts then [Confirmation(id)] else [])
  {
    OnePostPerAction(id, key, tts, Outcome(resp), historyOpen);
    SpeechIgnoresOutcome(id, key, tts, Outcome(resp), historyOpen, Outcome(resp), historyOpen);
    ActionTrace(id, key, tts, Outcome(resp), historyOpen)
  }

  /** A rejected POST whose body has no usable message toasts the status,
      which can be read back from the toast. */
  lemma RejectedPostToastsStatus(key: string, status: int, body: Json, historyOpen: bool)
    requires !Ok(status) && status >= 0 && !TruthyField(Field(body, "message"))
    ensures var effects := SettleResponse(key, Response(status, body), historyOpen);
      var prefix := "No se pudo registrar: " + HttpErrorPrefix;
      |effects| == 1 && effects[0].Toast? && |effects[0].text| > |prefix|
      && effects[0].text[..|prefix|] == prefix
      && ParseDecimal(effects[0].text[|prefix|..]) == Some(status)
  {
    var msg := HttpErrorMessage(status, body);
    FallbackMessageCarriesStatus(status, body);
    var prefix := "No se pudo registrar: " + HttpErrorPrefix;
    var text := "No se pudo registrar: " + msg;
    assert text[..|prefix|] == prefix;
    assert text[|prefix|..] == msg[|HttpErrorPrefix|..];
  }

  /** The spoken effects of a sequence. */
  function Spoken(effects: seq<Effect>): (r: seq<string>)
    ensures |r| <= |effects|
    ensures forall s :: s in r <==> Speak(s) in effects
  {
    if effects == [] then []
    else (if effects[0].Speak? then [effects[0].text] else []) + Spoken(effects[1..])
  }

  lemma {:induction false} SpokenAppend(a: seq<Effect>, b: seq<Effect>)
    ensures Spoken(a + b) == Spoken(a) + Spoken(b)
  {
    if a == [] {
      assert a + b == b;
    } else {
      assert (a + b)[1..] == a[1..] + b;
      SpokenAppend(a[1..], b);
    }
  }

  /** The confirmation is spoken whether the POST succeeds or fails: what is
      said depends on neither the outcome nor the history modal. */
  lemma SpeechIgnoresOutcome(id: int, key: string, tts: bool,
                             o1: Result<Json, string>, h1: bool, o2: Result<Json, string>, h2: bool)
    ensures Spoken(ActionTrace(id, key, tts, o1, h1)) == Spoken(ActionTrace(id, key, tts, o2, h2))
    ensures Spoken(ActionTrace(id, key, tts, o1, h1)) == (if tts then [Confirmation(id)] else [])
  {
    var p := PerformAction(id, key, tts);
    SpokenAppend(p, Settle(key, o1, h1));
    SpokenAppend(p, Settle(key, o2, h2));
    SettleSilent(key, o1, h1);
    SettleSilent(key, o2, h2);
    ImmediateEffects(id, key, tts);
  }

  /** What `performAction` issues at once posts the id once and speaks the
      confirmation only with the speech box checked. */
  lemma ImmediateEffects(id: int, key: string, tts: bool)
    ensures PostCount(PerformAction(id, key, tts)) == 1
    ensures Spoken(PerformAction(id, key, tts)) == (if tts then [Confirmation(id)] else [])
    ensures forall e :: e in PerformAction(id, key, tts) && e.Post? ==> e == Post(id)
  {
    var phrase := Confirmation(id);
    ActionCounts(id, key, if tts then [Speak(phrase)] else [], phrase);
  }

  lemma ActionCounts(id: int, key: string, say: seq<Effect>, phrase: string)
    requires say == [] || say == [Speak(phrase)]
    ensures PostCount([ShowAction("Ejecutando: " + key), Post(id)] + say) == 1
    ensures Spoken([ShowAction("Ejecutando: " + key), Post(id)] + say) == (if say == [] then [] else [phrase])
  {
    var front := [ShowAction("Ejecutando: " + key), Post(id)];
    PostCountAppend(front, say);
    SpokenAppend(front, say);
    assert front[1..] == [Post(id)];
    assert [Post(id)][1..] == [];
    if say != [] {
      assert say[1..] == [];
    }
  }

  lemma SettleSilent(key: string, outcome: Result<Json, string>, historyOpen: bool)
    ensures Spoken(Settle(key, outcome, historyOpen)) == []
  {
    var s := Settle(key, outcome, historyOpen);
    forall k | 0 <= k < |s| ensures !s[k].Speak? {
    }
    SpokenEmpty(s);
  }

  lemma {:induction false} SpokenEmpty(effects: seq<Effect>)
    requires forall k :: 0 <= k < |effects| ==> !effects[k].Speak?
    ensures Spoken(effects) == []
  {
    if effects != [] {
      SpokenEmpty(effects[1..]);
    }
  }

  /** Posts of a sequence of effects. */
  function PostCount(effects: seq<Effect>): (n: nat)
    ensures n <= |effects|
    ensures n == 0 <==> forall k :: 0 <= k < |effects| ==> !effects[k].Post?
  {
    if effects == [] then 0 else (if effects[0].Post? then 1 else 0) + PostCount(effects[1..])
  }

  lemma {:induction false} PostCountAppend(a: seq<Effect>, b: seq<Effect>)
    ensures PostCount(a + b) == PostCount(a) + PostCount(b)
  {
    if a == [] {
      assert a + b == b;
    } else {
      assert (a + b)[1..] == a[1..] + b;
      PostCountAppend(a[1..], b);
    }
  }

  /** A dispatch records the movement exactly once, and it is the dispatched id. */
  lemma OnePostPerAction(id: int, key: string, tts: bool, outcome: Result<Json, string>, historyOpen: bool)
    ensures PostCount(ActionTrace(id, key, tts, outcome, historyOpen)) == 1
    ensures forall e :: e in ActionTrace(id, key, tts, outcome, historyOpen) && e.Post? ==> e == Post(id)
  {
    var p := PerformAction(id, key, tts);
    var s := Settle(key, outcome, historyOpen);
    PostCountAppend(p, s);
    ImmediateEffects(id, key, tts);
    SettleNeverPosts(key, outcome, historyOpen);
  }

  lemma SettleNeverPosts(key: string, outcome: Result<Json, string>, historyOpen: bool)
    ensures PostCount(Settle(key, outcome, historyOpen)) == 0
    ensures forall e :: e in Settle(key, outcome, historyOpen) ==> !e.Post?
  {
  }
}

=== FILE: keyboard.dfy ===
/**
  The keyboard shortcuts of the control panel (app.js:141-155): the key of a
  `keydown` event is lowercased and compared against eleven keys, each in
  its own `if`, and every match sends that movement.
*/
module Keyboard {
  import opened Text

  /** The shortcut table, in the order the handler tests it: entry `i` sends id `i + 1`. */
  const ShortcutKeys: seq<string> := ["w", "s", " ", "e", "q", "c", "z", "d", "a", "x", "y"]

  /** The ids a key sends, one per matching `if`, in order. */
  function KeyDispatches(key: string): (ids: seq<int>)
  {
    Matches(Lower(key), 0)
  }

  /** The ids of the table entries from `from` on that equal `k`. */
  function Matches(k: string, from: nat): (ids: seq<int>)
    requires from <= |ShortcutKeys|
    decreases |ShortcutKeys| - from
    ensures forall i :: 0 <= i < |ids| ==> from < ids[i] <= 11 && k == ShortcutKeys[ids[i] - 1]
  {
    if from == |ShortcutKeys| then []
    else (if ShortcutKeys[from] == k then [from + 1] else []) + Matches(k, from + 1)
  }

  /** The shortcut for an id. */
  function KeyFor(id: int): (k: string)
    requires 1 <= id <= 11
    ensures k in ShortcutKeys
  {
    ShortcutKeys[id - 1]
  }

  /** No two ids share a shortcut. */
  lemma ShortcutsDistinct()
    ensures forall i, j :: 0 <= i < j < |ShortcutKeys| ==> ShortcutKeys[i] != ShortcutKeys[j]
  {
  }

  /** A lowercase key matches at most one entry: a key press sends at most one movement. */
  lemma {:induction false} AtMostOneMatch(k: string, from: nat)
    requires from <= |ShortcutKeys|
    decreases |ShortcutKeys| - from
    ensures |Matches(k, from)| <= 1
  {
    if from < |ShortcutKeys| {
      AtMostOneMatch(k, from + 1);
      if ShortcutKeys[from] == k {
        ShortcutsDistinct();
        NoLaterMatch(k, from + 1);
      }
    }
  }

  lemma {:induction false} NoLaterMatch(k: string, from: nat)
    requires from <= |ShortcutKeys|
    requires forall j :: from <= j < |ShortcutKeys| ==> ShortcutKeys[j] != k
    decreases |ShortcutKeys| - from
    ensures Matches(k, from) == []
  {
    if from < |ShortcutKeys| {
      NoLaterMatch(k, from + 1);
    }
  }

  /** Every key sends at most one movement. */
  lemma AtMostOneDispatch(key: string)
    ensures |KeyDispatches(key)| <= 1
  {
    AtMostOneMatch(Lower(key), 0);
  }

  /** The entries from `from` on that equal entry `j` are entry `j` alone. */
  lemma {:induction false} MatchesEntry(j: nat, from: nat)
    requires from <= j < |ShortcutKeys|
    decreases |ShortcutKeys| - from
    ensures Matches(ShortcutKeys[j], from) == [j + 1]
  {
    ShortcutsDistinct();
    if from < j {
      MatchesEntry(j, from + 1);
    } else {
      NoLaterMatch(ShortcutKeys[j], from + 1);
    }
  }

  /** Pressing an id's shortcut sends exactly that id. */
  lemma KeyForDispatches(id: int)
    requires 1 <= id <= 11
    ensures KeyDispatches(KeyFor(id)) == [id]
  {
    var k := KeyFor(id);
    assert k == [k[0]];
    LowerSingle(k[0]);
    assert LowerChar(k[0]) == k;
    MatchesEntry(id - 1, 0);
  }

  /** The capital of a letter shortcut lowercases to the shortcut. */
  lemma UpperLowers(id: int)
    requires 1 <= id <= 11 && id != 3
    ensures Lower([(KeyFor(id)[0] as int - 32) as char]) == KeyFor(id)
  {
    var k := KeyFor(id);
    assert |k| == 1 && 'a' <= k[0] <= 'z';
    var u := (k[0] as int - 32) as char;
    assert IsAsciiUpper(u) && (u as int + 32) as char == k[0];
    LowerSingle(u);
  }

  /** The capital letter of a shortcut works too: the handler lowercases the key. */
  lemma UpperKeyDispatches(id: int)
    requires 1 <= id <= 11 && id != 3
    ensures KeyDispatches([(KeyFor(id)[0] as int - 32) as char]) == [id]
  {
    UpperLowers(id);
    MatchesEntry(id - 1, 0);
  }

  /** A key that sends an id lowercases to that id's shortcut. */
  lemma DispatchMeansShortcut(key: string, id: int)
    ensures id in KeyDispatches(key) ==> 1 <= id <= 11 && Lower(key) == KeyFor(id)
  {
  }

  /** Keys whose lowercase is longer than one character ("Enter", "Shift", …) send nothing. */
  lemma LongKeysIgnored(key: string)
    requires |Lower(key)| != 1
    ensures KeyDispatches(key) == []
  {
    LongNoMatch(Lower(key), 0);
  }

  lemma {:induction false} LongNoMatch(k: string, from: nat)
    requires |k| != 1 && from <= |ShortcutKeys|
    decreases |ShortcutKeys| - from
    ensures Matches(k, from) == []
  {
    if from < |ShortcutKeys| {
      ShortcutsSingle();
      assert ShortcutKeys[from] != k;
      LongNoMatch(k, from + 1);
    }
  }

  /** Every shortcut is a single character. */
  lemma ShortcutsSingle()
    ensures forall j :: 0 <= j < |ShortcutKeys| ==> |ShortcutKeys[j]| == 1
  {
  }
}

=== FILE: normalizer.dfy ===
/**
  `normalizeText` (app.js:247-255): lowercase, canonical decomposition,
  removal of the combining diacritics U+0300..U+036F, every character that is
  neither `\w` nor `\s` turned into a space, blank runs collapsed to one
  space, and the ends trimmed.
*/
module Normalizer {
  import opened Text

  predicate IsCombiningMark(c: char) {
    '\U{300}' <= c <= '\U{36F}'
  }

  /** The lowercase Latin-1 letters that carry a diacritic: U+00E0..U+00E5,
      U+00E7..U+00EF, U+00F1..U+00F6, U+00F9..U+00FD and U+00FF. */
  predicate HasDiacritic(c: char) {
    || ('\U{E0}' <= c <= '\U{E5}')
    || ('\U{E7}' <= c <= '\U{EF}')
    || ('\U{F1}' <= c <= '\U{F6}')
    || ('\U{F9}' <= c <= '\U{FD}')
    || c == '\U{FF}'
  }

  /** The canonical (NFD) decomposition of one code point. The table covers
      the lowercase Latin-1 letters, the precomposed letters that lowercasing
      leaves behind in that block; every other code point is its own
      decomposition. A letter with a diacritic becomes its base letter
      followed by one combining mark. */
  function Decompose(c: char): (r: seq<char>)
    ensures 1 <= |r| <= 2
    ensures |r| == 2 <==> HasDiacritic(c)
    ensures |r| == 2 ==> 'a' <= r[0] <= 'z' && IsCombiningMark(r[1])
    ensures |r| == 1 ==> r[0] == c
    ensures c as int < 0x80 ==> r == [c]
    ensures '\U{E0}' <= c <= '\U{E5}' ==> r[0] == 'a'
    ensures c == '\U{E7}' ==> r[0] == 'c'
    ensures '\U{E8}' <= c <= '\U{EB}' ==> r[0] == 'e'
    ensures '\U{EC}' <= c <= '\U{EF}' ==> r[0] == 'i'
    ensures c == '\U{F1}' ==> r[0] == 'n'
    ensures '\U{F2}' <= c <= '\U{F6}' ==> r[0] == 'o'
    ensures '\U{F9}' <= c <= '\U{FC}' ==> r[0] == 'u'
    ensures c == '\U{FD}' || c == '\U{FF}' ==> r[0] == 'y'
  {
    match c
    case '\U{E0}' => ['a', '\U{300}']
    case '\U{E1}' => ['a', '\U{301}']
    case '\U{E2}' => ['a', '\U{302}']
    case '\U{E3}' => ['a', '\U{303}']
    case '\U{E4}' => ['a', '\U{308}']
    case '\U{E5}' => ['a', '\U{30A}']
    case '\U{E7}' => ['c', '\U{327}']
    case '\U{E8}' => ['e', '\U{300}']
    case '\U{E9}' => ['e', '\U{301}']
    case '\U{EA}' => ['e', '\U{302}']
    case '\U{EB}' => ['e', '\U{308}']
    case '\U{EC}' => ['i', '\U{300}']
    case '\U{ED}' => ['i', '\U{301}']
    case '\U{EE}' => ['i', '\U{302}']
    case '\U{EF}' => ['i', '\U{308}']
    case '\U{F1}' => ['n', '\U{303}']
    case '\U{F2}' => ['o', '\U{300}']
    case '\U{F3}' => ['o', '\U{301}']
    case '\U{F4}' => ['o', '\U{302}']
    case '\U{F5}' => ['o', '\U{303}']
    case '\U{F6}' => ['o', '\U{308}']
    case '\U{F9}' => ['u', '\U{300}']
    case '\U{FA}' => ['u', '\U{301}']
    case '\U{FB}' => ['u', '\U{302}']
    case '\U{FC}' => ['u', '\U{308}']
    case '\U{FD}' => ['y', '\U{301}']
    case '\U{FF}' => ['y', '\U{308}']
    case _ => [c]
  }

  /** `normalize("NFD")`, code point by code point. */
  function DecomposeAll(s: string): (r: string)
    ensures |s| <= |r| <= 2 * |s|
    ensures |s| == 1 ==> r == Decompose(s[0])
  {
    if s == [] then [] else Decompose(s[0]) + DecomposeAll(s[1..])
  }

  /** ASCII text has nothing to decompose. */
  lemma {:induction false} DecomposeFixesAscii(s: string)
    requires forall k :: 0 <= k < |s| ==> s[k] as int < 0x80
    ensures DecomposeAll(s) == s
  {
    if s != [] {
      assert forall k :: 0 <= k < |s| - 1 ==> s[1..][k] == s[k + 1];
      DecomposeFixesAscii(s[1..]);
    }
  }

  /** Decomposition introduces no ASCII capital. */
  lemma {:induction false} DecomposeKeepsLower(s: string)
    requires forall k :: 0 <= k < |s| ==> !IsAsciiUpper(s[k])
    ensures forall k :: 0 <= k < |DecomposeAll(s)| ==> !IsAsciiUpper(DecomposeAll(s)[k])
  {
    if s != [] {
      var h, t := Decompose(s[0]), DecomposeAll(s[1..]);
      assert forall k :: 0 <= k < |s| - 1 ==> s[1..][k] == s[k + 1];
      DecomposeKeepsLower(s[1..]);
      assert DecomposeAll(s) == h + t;
      assert forall k :: 0 <= k < |h| ==> !IsAsciiUpper(h[k]);
    }
  }

  /** Decomposition works code point by code point, so it distributes over concatenation. */
  lemma {:induction false} DecomposeAllAppend(a: string, b: string)
    ensures DecomposeAll(a + b) == DecomposeAll(a) + DecomposeAll(b)
  {
    if a == [] {
      assert a + b == b;
    } else {
      var d := Decompose(a[0]);
      assert (a + b)[0] == a[0] && (a + b)[1..] == a[1..] + b;
      assert DecomposeAll(a + b) == d + DecomposeAll(a[1..] + b);
      assert DecomposeAll(a) == d + DecomposeAll(a[1..]);
      DecomposeAllAppend(a[1..], b);
      AppendAssoc(d, DecomposeAll(a[1..]), DecomposeAll(b));
    }
  }

  /** `replace(/[\u0300-\u036f]/g, "")`. */
  function StripMarks(s: string): (r: string)
    ensures |r| <= |s|
    ensures forall k :: 0 <= k < |r| ==> r[k] in s && !IsCombiningMark(r[k])
    ensures (forall k :: 0 <= k < |s| ==> !IsCombiningMark(s[k])) ==> r == s
  {
    if s == [] then []
    else if IsCombiningMark(s[0]) then StripMarks(s[1..])
    else [s[0]] + StripMarks(s[1..])
  }

  /** Stripping marks keeps exactly the other characters, in order: it
      distributes over concatenation, so a mark disappears wherever it
      stands and anything else stays where it was. */
  lemma {:induction false} StripMarksAppend(a: string, b: string)
    ensures StripMarks(a + b) == StripMarks(a) + StripMarks(b)
  {
    if a == [] {
      assert a + b == b;
    } else {
      assert (a + b)[1..] == a[1..] + b;
      StripMarksAppend(a[1..], b);
    }
  }

  /** `replace(/[^\w\s]/g, " ")`. */
  function Punctuate(s: string): (r: string)
    ensures |r| == |s|
    ensures forall k :: 0 <= k < |s| ==> r[k] == (if IsWordChar(s[k]) || IsSpace(s[k]) then s[k] else ' ')
  {
    if s == [] then [] else [if IsWordChar(s[0]) || IsSpace(s[0]) then s[0] else ' '] + Punctuate(s[1..])
  }

  /** No two spaces follow each other. */
  predicate NoDoubleSpace(s: string) {
    forall k :: 0 <= k < |s| - 1 ==> !(s[k] == ' ' && s[k + 1] == ' ')
  }

  /** `replace(/\s+/g, " ")`: each maximal run of blanks becomes one space. */
  function CollapseSpaces(s: string): (r: string)
    decreases |s|
    ensures r == [] <==> s == []
    ensures |s| > 0 ==> r[0] == (if IsSpace(s[0]) then ' ' else s[0])
    ensures forall k :: 0 <= k < |r| ==> r[k] == ' ' || (!IsSpace(r[k]) && r[k] in s)
    ensures NoDoubleSpace(r)
    ensures (forall k :: 0 <= k < |s| ==> !IsSpace(s[k])) ==> r == s
    ensures |s| > 0 && AllSpace(s) ==> r == " "
  {
    if s == [] then []
    else if IsSpace(s[0]) then [' '] + CollapseSpaces(s[LeadingSpaces(s)..])
    else [s[0]] + CollapseSpaces(s[1..])
  }

  /** Collapsing works piecewise as long as the cut does not fall inside a
      run of blanks: the non-blank characters stay where they are, in order,
      and each run of blanks between them becomes exactly one space. */
  lemma {:induction false} CollapseAppend(a: string, b: string)
    requires a == [] || b == [] || !IsSpace(a[|a| - 1]) || !IsSpace(b[0])
    decreases |a|, 2
    ensures CollapseSpaces(a + b) == CollapseSpaces(a) + CollapseSpaces(b)
  {
    if a == [] {
      assert a + b == b;
    } else if b == [] {
      assert a + b == a;
    } else if !IsSpace(a[0]) && |a| == 1 {
      CollapseWordStep(a, b);
      assert a[1..] + b == b && a[1..] == [];
    } else if !IsSpace(a[0]) {
      CollapseAppendWord(a, b);
    } else {
      CollapseAppendBlank(a, b);
    }
  }

  /** The step of `CollapseAppend` when `a` starts with a non-blank. */
  lemma {:induction false} CollapseAppendWord(a: string, b: string)
    requires |a| > 1 && !IsSpace(a[0]) && b != []
    requires !IsSpace(a[|a| - 1]) || !IsSpace(b[0])
    decreases |a|, 1
    ensures CollapseSpaces(a + b) == CollapseSpaces(a) + CollapseSpaces(b)
  {
    var rest := a[1..];
    CollapseWordStep(a, b);
    assert rest[|rest| - 1] == a[|a| - 1];
    assert |rest| < |a| && (!IsSpace(rest[|rest| - 1]) || !IsSpace(b[0]));
    CollapseAppend(rest, b);
    AppendAssoc([a[0]], CollapseSpaces(rest), CollapseSpaces(b));
  }

  /** A leading non-blank is kept, in `a` and in `a + b` alike. */
  lemma CollapseWordStep(a: string, b: string)
    requires a != [] && !IsSpace(a[0])
    ensures CollapseSpaces(a + b) == [a[0]] + CollapseSpaces(a[1..] + b)
    ensures CollapseSpaces(a) == [a[0]] + CollapseSpaces(a[1..])
  {
    assert (a + b)[0] == a[0] && (a + b)[1..] == a[1..] + b;
  }

  /** The step of `CollapseAppend` when `a` starts with a blank. */
  lemma {:induction false} CollapseAppendBlank(a: string, b: string)
    requires a != [] && b != [] && IsSpace(a[0])
    requires !IsSpace(a[|a| - 1]) || !IsSpace(b[0])
    decreases |a|, 1
    ensures CollapseSpaces(a + b) == CollapseSpaces(a) + CollapseSpaces(b)
  {
    if LeadingSpaces(a) < |a| {
      CollapseBlanksThenWord(a, b);
    } else {
      CollapseAllBlankThen(a, b);
    }
  }

  /** `a` opens with blanks and goes on with a non-blank. */
  lemma {:induction false} CollapseBlanksThenWord(a: string, b: string)
    requires a != [] && b != [] && IsSpace(a[0]) && LeadingSpaces(a) < |a|
    requires !IsSpace(a[|a| - 1]) || !IsSpace(b[0])
    decreases |a|, 0
    ensures CollapseSpaces(a + b) == CollapseSpaces(a) + CollapseSpaces(b)
  {
    var rest := a[LeadingSpaces(a)..];
    CollapseBlankPrefix(a, b);
    assert |rest| < |a| && (!IsSpace(rest[|rest| - 1]) || !IsSpace(b[0]));
    CollapseAppend(rest, b);
    AppendAssoc([' '], CollapseSpaces(rest), CollapseSpaces(b));
  }

  /** Both `a` and `a + b` collapse their leading blanks to one space and go
      on with what follows them. */
  lemma CollapseBlankPrefix(a: string, b: string)
    requires a != [] && IsSpace(a[0]) && LeadingSpaces(a) < |a|
    ensures 1 <= LeadingSpaces(a)
    ensures a[LeadingSpaces(a)..][|a| - LeadingSpaces(a) - 1] == a[|a| - 1]
    ensures CollapseSpaces(a) == [' '] + CollapseSpaces(a[LeadingSpaces(a)..])
    ensures CollapseSpaces(a + b) == [' '] + CollapseSpaces(a[LeadingSpaces(a)..] + b)
  {
    assert (a + b)[0] == a[0];
    CollapseBlankStep(a + b);
    BlanksThenWord(a, b);
    CollapseBlankStep(a);
  }

  /** When `a` is not all blank, its leading blanks are those of `a + b`. */
  lemma BlanksThenWord(a: string, b: string)
    requires LeadingSpaces(a) < |a|
    ensures LeadingSpaces(a + b) == LeadingSpaces(a)
    ensures (a + b)[LeadingSpaces(a)..] == a[LeadingSpaces(a)..] + b
  {
    LeadingSpacesOfPrefix(a, b);
  }

  /** Blanks ahead of a non-blank collapse to one space. */
  lemma CollapseAllBlankThen(a: string, b: string)
    requires a != [] && b != [] && !IsSpace(b[0]) && IsSpace(a[0]) && LeadingSpaces(a) == |a|
    ensures CollapseSpaces(a + b) == CollapseSpaces(a) + CollapseSpaces(b)
  {
    var n := LeadingSpaces(a);
    assert a == a[..n];
    LeadingSpacesOfPadded(a, b);
    assert (a + b)[n..] == b;
    assert a[n..] == [];
    CollapseBlankStep(a);
    assert (a + b)[0] == a[0];
    CollapseBlankStep(a + b);
  }

  /** `toLowerCase().normalize("NFD")`. */
  function Fold(s: string): (r: string)
    ensures |s| <= |r|
    ensures forall k :: 0 <= k < |r| ==> !IsAsciiUpper(r[k])
  {
    DecomposeKeepsLower(Lower(s));
    DecomposeAll(Lower(s))
  }

  /** Folding works code point by code point: it distributes over concatenation. */
  lemma FoldAppend(a: string, b: string)
    ensures Fold(a + b) == Fold(a) + Fold(b)
  {
    LowerAppend(a, b);
    DecomposeAllAppend(Lower(a), Lower(b));
  }

  /** A character `normalizeText` can emit: a lowercase `\w` character or a space. */
  predicate IsNormalChar(c: char) {
    ('a' <= c <= 'z') || ('0' <= c <= '9') || c == '_' || c == ' '
  }

  /** The shape of every `normalizeText` output. */
  predicate IsNormal(t: string) {
    && (forall k :: 0 <= k < |t| ==> IsNormalChar(t[k]))
    && NoDoubleSpace(t)
    && (|t| > 0 ==> t[0] != ' ' && t[|t| - 1] != ' ')
  }

  /** The `\w` characters of a string, in order. */
  function WordChars(s: string): (r: string)
    ensures forall k :: 0 <= k < |r| ==> IsWordChar(r[k])
  {
    if s == [] then [] else (if IsWordChar(s[0]) then [s[0]] else []) + WordChars(s[1..])
  }

  /** The maximal runs of `\w` characters of a string, in order: the words a
      `\b`-delimited pattern can match. */
  function Runs(s: string): (rs: seq<string>)
    ensures forall i :: 0 <= i < |rs| ==> IsWord(rs[i])
    ensures |s| > 0 && IsWordChar(s[0]) ==> |rs| > 0 && |rs[0]| > 0 && rs[0][0] == s[0]
  {
    if s == [] then []
    else
      var rest := Runs(s[1..]);
      if !IsWordChar(s[0]) then rest
      else if |s| > 1 && IsWordChar(s[1]) then [[s[0]] + rest[0]] + rest[1..]
      else [[s[0]]] + rest
  }

  /** A character that is no letter, digit or underscore ends a run and is
      not part of any. */
  lemma RunsSkipsSeparator(c: char, s: string)
    requires !IsWordChar(c)
    ensures Runs([c] + s) == Runs(s)
  {
    assert ([c] + s)[1..] == s;
  }

  /** Lowercasing, decomposition and mark stripping all keep a lone
      surrogate as it is. */
  lemma FoldLoneSurrogate(s: string)
    ensures StripMarks(Fold([LoneSurrogate] + s)) == [LoneSurrogate] + StripMarks(Fold(s))
  {
    FoldAppend([LoneSurrogate], s);
    assert Fold([LoneSurrogate]) == [LoneSurrogate] by {
      LowerSingle(LoneSurrogate);
    }
    StripMarksAppend([LoneSurrogate], Fold(s));
    assert StripMarks([LoneSurrogate]) == [LoneSurrogate];
  }

  /** `normalizeText`. Its output has the normal shape, keeps exactly the
      letters, digits and underscores of the folded input in order, and
      groups them into the same words: only separators change. */
  function Normalize(s: string): (r: string)
    ensures IsNormal(r)
    ensures WordChars(r) == WordChars(Fold(s))
    ensures Runs(r) == Runs(StripMarks(Fold(s)))
  {
    var f := Fold(s);
    var p := Punctuate(StripMarks(f));
    var c := CollapseSpaces(p);
    var r := Trim(c);
    NormalizeShape(f, p, c, r);
    WordCharsStripMarks(f);
    WordCharsPunctuate(StripMarks(f));
    WordCharsCollapse(p);
    WordCharsTrim(c);
    RunsPunctuate(StripMarks(f));
    RunsCollapse(p);
    RunsTrim(c);
    r
  }

  /** After folding and punctuation, every character is a blank or a normal character. */
  lemma {:induction false} PunctuatedFoldChars(f: string)
    requires forall k :: 0 <= k < |f| ==> !IsAsciiUpper(f[k])
    ensures forall k :: 0 <= k < |Punctuate(StripMarks(f))| ==>
              IsSpace(Punctuate(StripMarks(f))[k]) || IsNormalChar(Punctuate(StripMarks(f))[k])
  {
    var m := StripMarks(f);
    forall k | 0 <= k < |m|
      ensures IsSpace(Punctuate(m)[k]) || IsNormalChar(Punctuate(m)[k])
    {
      assert m[k] in f;
    }
  }

  lemma NormalizeShape(f: string, p: string, c: string, r: string)
    requires forall k :: 0 <= k < |f| ==> !IsAsciiUpper(f[k])
    requires p == Punctuate(StripMarks(f)) && c == CollapseSpaces(p) && r == Trim(c)
    ensures IsNormal(r)
  {
    PunctuatedFoldChars(f);
    CollapsedNormalChars(p, c);
    TrimmedNormal(c, r);
  }

  /** Collapsing blanks over blanks and normal characters leaves only normal characters. */
  lemma CollapsedNormalChars(p: string, c: string)
    requires forall k :: 0 <= k < |p| ==> IsSpace(p[k]) || IsNormalChar(p[k])
    requires c == CollapseSpaces(p)
    ensures forall k :: 0 <= k < |c| ==> IsNormalChar(c[k])
  {
    forall k | 0 <= k < |c|
      ensures IsNormalChar(c[k])
    {
      if c[k] != ' ' {
        assert c[k] in p;
        var i :| 0 <= i < |p| && p[i] == c[k];
      }
    }
  }

  /** Trimming a string of normal characters without double spaces gives the normal shape. */
  lemma TrimmedNormal(c: string, r: string)
    requires forall k :: 0 <= k < |c| ==> IsNormalChar(c[k])
    requires NoDoubleSpace(c) && r == Trim(c)
    ensures IsNormal(r)
  {
    var a := LeadingSpaces(c);
    assert r == c[a..a + |r|];
    forall k | 0 <= k < |r|
      ensures IsNormalChar(r[k])
    {
      assert r[k] == c[a + k];
    }
    forall k | 0 <= k < |r| - 1
      ensures !(r[k] == ' ' && r[k + 1] == ' ')
    {
      assert r[k] == c[a + k] && r[k + 1] == c[a + k + 1];
    }
    assert IsSpace(' ');
  }

  lemma {:induction false} WordCharsAppend(a: string, b: string)
    ensures WordChars(a + b) == WordChars(a) + WordChars(b)
  {
    if a == [] {
      assert a + b == b;
    } else {
      assert (a + b)[1..] == a[1..] + b;
      WordCharsAppend(a[1..], b);
    }
  }

  lemma {:induction false} WordCharsOfBlanks(s: string)
    requires forall k :: 0 <= k < |s| ==> !IsWordChar(s[k])
    ensures WordChars(s) == []
  {
    if s != [] {
      WordCharsOfBlanks(s[1..]);
    }
  }

  lemma {:induction false} WordCharsStripMarks(s: string)
    ensures WordChars(StripMarks(s)) == WordChars(s)
  {
    if s != [] {
      WordCharsStripMarks(s[1..]);
      if !IsCombiningMark(s[0]) {
        WordCharsAppend([s[0]], StripMarks(s[1..]));
      }
    }
  }

  lemma {:induction false} WordCharsPunctuate(s: string)
    ensures WordChars(Punctuate(s)) == WordChars(s)
  {
    if s != [] {
      WordCharsPunctuate(s[1..]);
      var c := if IsWordChar(s[0]) || IsSpace(s[0]) then s[0] else ' ';
      assert Punctuate(s) == [c] + Punctuate(s[1..]);
      WordCharsAppend([c], Punctuate(s[1..]));
    }
  }

  lemma {:induction false} WordCharsCollapse(s: string)
    decreases |s|, 1
    ensures WordChars(CollapseSpaces(s)) == WordChars(s)
  {
    if s != [] {
      if IsSpace(s[0]) {
        WordCharsCollapseBlank(s);
      } else {
        assert CollapseSpaces(s) == [s[0]] + CollapseSpaces(s[1..]);
        WordCharsCollapse(s[1..]);
        WordCharsAppend([s[0]], CollapseSpaces(s[1..]));
      }
    }
  }

  /** The step of `WordCharsCollapse` for a leading run of blanks. */
  lemma {:induction false} WordCharsCollapseBlank(s: string)
    requires s != [] && IsSpace(s[0])
    decreases |s|, 0
    ensures WordChars(CollapseSpaces(s)) == WordChars(s)
  {
    var n := LeadingSpaces(s);
    CollapseBlankStep(s);
    WordCharsCollapse(s[n..]);
    WordCharsAppend([' '], CollapseSpaces(s[n..]));
    WordCharsDropBlanks(s);
  }

  lemma CollapseBlankStep(s: string)
    requires s != [] && IsSpace(s[0])
    ensures CollapseSpaces(s) == [' '] + CollapseSpaces(s[LeadingSpaces(s)..])
  {
  }

  /** Leading blanks hold no letter, digit or underscore. */
  lemma WordCharsDropBlanks(s: string)
    ensures WordChars(s) == WordChars(s[LeadingSpaces(s)..])
  {
    var n := LeadingSpaces(s);
    assert s == s[..n] + s[n..];
    WordCharsAppend(s[..n], s[n..]);
    WordCharsOfBlanks(s[..n]);
  }

  lemma WordCharsTrim(s: string)
    ensures WordChars(Trim(s)) == WordChars(s)
  {
    var a := LeadingSpaces(s);
    var rest := s[a..];
    var r := Trim(s);
    assert WordChars(s) == WordChars(s[..a]) + WordChars(rest) by {
      WordCharsSplit(s, a);
    }
    assert WordChars(s[..a]) == [] by {
      WordCharsOfBlanks(s[..a]);
    }
    assert WordChars(rest) == WordChars(r) + WordChars(rest[|r|..]) by {
      assert r == rest[..|r|];
      WordCharsSplit(rest, |r|);
    }
    assert WordChars(rest[|r|..]) == [] by {
      assert rest[|r|..] == s[a + |r|..];
      WordCharsOfBlanks(rest[|r|..]);
    }
  }

  lemma WordCharsSplit(s: string, i: nat)
    requires i <= |s|
    ensures WordChars(s) == WordChars(s[..i]) + WordChars(s[i..])
  {
    assert s == s[..i] + s[i..];
    WordCharsAppend(s[..i], s[i..]);
  }

  /** Replacing characters that are not `\w` by other characters that are not
      `\w` leaves the words where they were. */
  predicate SameWordPositions(x: string, y: string) {
    && |x| == |y|
    && forall k :: 0 <= k < |x| ==>
         (IsWordChar(x[k]) <==> IsWordChar(y[k])) && (IsWordChar(x[k]) ==> x[k] == y[k])
  }

  lemma {:induction false} RunsOfSameWordPositions(x: string, y: string)
    requires SameWordPositions(x, y)
    ensures Runs(x) == Runs(y)
  {
    if x != [] {
      assert SameWordPositions(x[1..], y[1..]) by {
        forall k | 0 <= k < |x| - 1
          ensures (IsWordChar(x[1..][k]) <==> IsWordChar(y[1..][k])) && (IsWordChar(x[1..][k]) ==> x[1..][k] == y[1..][k])
        {
          assert x[1..][k] == x[k + 1] && y[1..][k] == y[k + 1];
        }
      }
      RunsOfSameWordPositions(x[1..], y[1..]);
      assert IsWordChar(x[0]) <==> IsWordChar(y[0]);
      if |x| > 1 {
        assert IsWordChar(x[1]) <==> IsWordChar(y[1]);
      }
      if IsWordChar(x[0]) {
        assert x[0] == y[0];
      }
    }
  }

  /** Punctuation becomes a space, which separates words just as it did. */
  lemma RunsPunctuate(s: string)
    ensures Runs(Punctuate(s)) == Runs(s)
  {
    RunsOfSameWordPositions(Punctuate(s), s);
  }

  /** Characters that are not `\w` in front of a string do not start a word. */
  lemma {:induction false} RunsDropSeparators(s: string, n: nat)
    requires n <= |s|
    requires forall k :: 0 <= k < n ==> !IsWordChar(s[k])
    ensures Runs(s) == Runs(s[n..])
  {
    if n > 0 {
      assert s[1..][n - 1..] == s[n..];
      assert forall k :: 0 <= k < n - 1 ==> s[1..][k] == s[k + 1];
      RunsDropSeparators(s[1..], n - 1);
    }
  }

  /** Characters that are not `\w` after a string do not extend its last word. */
  lemma {:induction false} RunsDropTrailing(x: string, b: string)
    requires forall k :: 0 <= k < |b| ==> !IsWordChar(b[k])
    ensures Runs(x + b) == Runs(x)
  {
    if x == [] {
      assert x + b == b;
      RunsDropSeparators(b, |b|);
      assert b[|b|..] == [];
    } else {
      assert (x + b)[1..] == x[1..] + b;
      RunsDropTrailing(x[1..], b);
      if |x| == 1 && |b| > 0 {
        assert (x + b)[1] == b[0];
      }
      if |x| > 1 {
        assert (x + b)[1] == x[1];
      }
    }
  }

  /** A run of blanks is a separator however long it is. */
  lemma {:induction false} RunsCollapse(s: string)
    decreases |s|, 1
    ensures Runs(CollapseSpaces(s)) == Runs(s)
  {
    if s != [] {
      if IsSpace(s[0]) {
        RunsCollapseBlank(s);
      } else {
        RunsCollapseWord(s);
      }
    }
  }

  /** The step of `RunsCollapse` when `s` starts with a blank. */
  lemma {:induction false} RunsCollapseBlank(s: string)
    requires s != [] && IsSpace(s[0])
    decreases |s|, 0
    ensures Runs(CollapseSpaces(s)) == Runs(s)
  {
    var n := LeadingSpaces(s);
    var c := CollapseSpaces(s[n..]);
    assert CollapseSpaces(s) == [' '] + c;
    assert |s[n..]| < |s|;
    RunsCollapse(s[n..]);
    assert ([' '] + c)[1..] == c;
    RunsDropLeading(s);
    RunsDropSeparators([' '] + c, 1);
  }

  /** The step of `RunsCollapse` when `s` starts with a non-blank. */
  lemma {:induction false} RunsCollapseWord(s: string)
    requires s != [] && !IsSpace(s[0])
    decreases |s|, 0
    ensures Runs(CollapseSpaces(s)) == Runs(s)
  {
    var c := CollapseSpaces(s[1..]);
    assert CollapseSpaces(s) == [s[0]] + c;
    assert |s[1..]| < |s|;
    RunsCollapse(s[1..]);
    assert ([s[0]] + c)[1..] == c;
    if |s| > 1 {
      assert IsWordChar(c[0]) <==> IsWordChar(s[1]);
    }
  }

  /** Trimming removes separators only. */
  lemma RunsTrim(s: string)
    ensures Runs(Trim(s)) == Runs(s)
  {
    RunsDropLeading(s);
    RunsDropTrailingBlanks(s);
  }

  /** Trailing blanks end no run. */
  lemma RunsDropTrailingBlanks(s: string)
    ensures Runs(Trim(s)) == Runs(s[LeadingSpaces(s)..])
  {
    var a := LeadingSpaces(s);
    var r := Trim(s);
    var tail := s[a + |r|..];
    assert s[a..] == r + tail;
    BlanksAreNotWord(tail);
    RunsDropTrailing(r, tail);
  }

  lemma BlanksAreNotWord(x: string)
    requires AllSpace(x)
    ensures forall k :: 0 <= k < |x| ==> !IsWordChar(x[k])
  {
    forall k | 0 <= k < |x|
      ensures !IsWordChar(x[k])
    {
      assert IsSpace(x[k]);
    }
  }

  /** Leading blanks start no run. */
  lemma RunsDropLeading(s: string)
    ensures Runs(s[LeadingSpaces(s)..]) == Runs(s)
  {
    var a := LeadingSpaces(s);
    assert forall k :: 0 <= k < a ==> !IsWordChar(s[k]) by {
      forall k | 0 <= k < a
        ensures !IsWordChar(s[k])
      {
        assert s[..a][k] == s[k];
      }
    }
    RunsDropSeparators(s, a);
  }

  predicate NormalChars(s: string) {
    forall k :: 0 <= k < |s| ==> IsNormalChar(s[k])
  }

  /** Each stage of the pipeline leaves a string of normal characters alone. */
  lemma StagesFixNormalChars(s: string)
    requires NormalChars(s)
    ensures Lower(s) == s
    ensures DecomposeAll(s) == s
    ensures StripMarks(s) == s
    ensures Punctuate(s) == s
  {
    LowerFixesNormal(s);
    DecomposeFixesNormal(s);
    StripFixesNormal(s);
  }

  lemma {:induction false} LowerFixesNormal(s: string)
    requires NormalChars(s)
    ensures Lower(s) == s
  {
    if s != [] {
      LowerFixesNormal(s[1..]);
      assert IsNormalChar(s[0]);
    }
  }

  lemma {:induction false} DecomposeFixesNormal(s: string)
    requires NormalChars(s)
    ensures DecomposeAll(s) == s
  {
    if s != [] {
      DecomposeFixesNormal(s[1..]);
      assert IsNormalChar(s[0]);
    }
  }

  lemma {:induction false} StripFixesNormal(s: string)
    requires NormalChars(s)
    ensures StripMarks(s) == s
  {
    if s != [] {
      StripFixesNormal(s[1..]);
      assert IsNormalChar(s[0]);
    }
  }

  lemma {:induction false} CollapseFixesSingleSpaced(s: string)
    requires NormalChars(s) && NoDoubleSpace(s)
    ensures CollapseSpaces(s) == s
  {
    if s != [] {
      assert NormalChars(s[1..]) && NoDoubleSpace(s[1..]);
      CollapseFixesSingleSpaced(s[1..]);
      if IsSpace(s[0]) {
        assert s[0] == ' ';
        assert |s| > 1 ==> !IsSpace(s[1]);
        assert LeadingSpaces(s) == 1;
      }
    }
  }

  /** A string already in normal shape is left unchanged by `normalizeText`. */
  lemma {:induction false} NormalizeFixesNormal(t: string)
    requires IsNormal(t)
    ensures Normalize(t) == t
  {
    StagesFixNormalChars(t);
    CollapseFixesSingleSpaced(t);
    TrimFixesTrimmed(t);
  }

  /** The strings `normalizeText` leaves unchanged are exactly those in normal shape. */
  lemma NormalizeFixpoints(t: string)
    ensures Normalize(t) == t <==> IsNormal(t)
  {
    if IsNormal(t) {
      NormalizeFixesNormal(t);
    }
  }

  /** When folding and stripping the marks already give the normal shape, the
      remaining stages change nothing. */
  lemma NormalizeOfNormalFold(s: string)
    requires IsNormal(StripMarks(Fold(s)))
    ensures Normalize(s) == StripMarks(Fold(s))
  {
    var m := StripMarks(Fold(s));
    StagesFixNormalChars(m);
    CollapseFixesSingleSpaced(m);
    TrimFixesTrimmed(m);
  }

  /** The accented letters of Spanish, small and capital, each with the plain
      letter it is spoken as: á é í ó ú ü ñ and Á É Í Ó Ú Ü Ñ. */
  const SpanishAccented: map<char, char> := map[
    '\U{E1}' := 'a', '\U{E9}' := 'e', '\U{ED}' := 'i', '\U{F3}' := 'o',
    '\U{FA}' := 'u', '\U{FC}' := 'u', '\U{F1}' := 'n',
    '\U{C1}' := 'a', '\U{C9}' := 'e', '\U{CD}' := 'i', '\U{D3}' := 'o',
    '\U{DA}' := 'u', '\U{DC}' := 'u', '\U{D1}' := 'n'
  ]

  /** `normalizeText` turns each accented Spanish letter into its plain letter. */
  lemma SpanishAccentsFold(c: char)
    requires c in SpanishAccented
    ensures Normalize([c]) == [SpanishAccented[c]]
  {
    var d := SpanishFold(c);
    StripBaseAndMark(d);
    NormalizeOfNormalFold([c]);
  }

  /** Folding an accented Spanish letter gives its plain letter and one mark. */
  lemma SpanishFold(c: char) returns (d: string)
    requires c in SpanishAccented
    ensures d == Fold([c])
    ensures |d| == 2 && d[0] == SpanishAccented[c] && IsCombiningMark(d[1])
  {
    var l := SpanishLower(c);
    SpanishDecompose(l);
    d := Decompose(l);
    assert DecomposeAll([l]) == d;
  }

  /** The capital accented letters lower to the small ones. */
  lemma SpanishLower(c: char) returns (l: char)
    requires c in SpanishAccented
    ensures Lower([c]) == [l]
    ensures l in SpanishAccented && l as int >= 0xE0
    ensures SpanishAccented[l] == SpanishAccented[c]
  {
    l := if c as int < 0xE0 then (c as int + 32) as char else c;
    LowerSingle(c);
  }

  /** Each small accented letter decomposes into its plain letter and a mark. */
  lemma SpanishDecompose(l: char)
    requires l in SpanishAccented && l as int >= 0xE0
    ensures |Decompose(l)| == 2 && Decompose(l)[0] == SpanishAccented[l]
  {
  }

  /** A letter followed by one mark strips to the letter. */
  lemma StripBaseAndMark(d: string)
    requires |d| == 2 && 'a' <= d[0] <= 'z' && IsCombiningMark(d[1])
    ensures StripMarks(d) == [d[0]]
  {
    assert d == [d[0]] + [d[1]];
    StripMarksAppend([d[0]], [d[1]]);
  }

  /** "Atrás" normalises to "atras". */
  lemma NormalizeAtras(s: string)
    requires s == "Atr\U{E1}s"
    ensures Normalize(s) == "atras"
  {
    FoldAtras(s);
    StripAtras(Fold(s));
    NormalizeOfNormalFold(s);
  }

  lemma StripAtras(x: string)
    requires x == "atra\U{301}s"
    ensures StripMarks(x) == "atras"
  {
    var a, m, b := x[..4], x[4..5], x[5..];
    assert x == (a + m) + b;
    StripMarksAppend(a + m, b);
    StripMarksAppend(a, m);
    assert StripMarks(m) == [] by {
      assert IsCombiningMark(m[0]) && m[1..] == [];
    }
    assert StripMarks(a) == a;
    assert StripMarks(b) == b;
    assert a + b == "atras";
  }

  lemma FoldAtras(s: string)
    requires s == "Atr\U{E1}s"
    ensures Fold(s) == "atra\U{301}s"
  {
    LowerAtras(s);
    DecomposeAtras();
  }

  lemma DecomposeAtras()
    ensures DecomposeAll("atr" + "\U{E1}" + "s") == "atra\U{301}s"
  {
    DecomposeAllAppend("atr" + "\U{E1}", "s");
    DecomposeAllAppend("atr", "\U{E1}");
    DecomposeFixesAscii("atr");
    DecomposeFixesAscii("s");
    assert DecomposeAll("\U{E1}") == ['a', '\U{301}'];
  }

  lemma LowerAtras(s: string)
    requires s == "Atr\U{E1}s"
    ensures Lower(s) == "atr" + "\U{E1}" + "s"
  {
    assert LengthPreservingLower(s);
    LowerPointwise(s);
  }

  /** `normalizeText` is idempotent. */
  lemma NormalizeIdempotent(s: string)
    ensures Normalize(Normalize(s)) == Normalize(s)
  {
    NormalizeFixesNormal(Normalize(s));
  }
}

=== FILE: patterns.dfy ===
/**
  The regular-expression tests `localClassify` applies to normalised text
  (app.js:272-313), with the semantics `RegExp.prototype.test` gives them:
  `\b(w1|...|wn)\b` holds when some alternative occurs somewhere with a word
  boundary on both sides, and `\bp` when `p` occurs right after a boundary.

  On a normal text (single spaces between runs of `\w` characters) these
  tests read as statements about its tokens: a whole-word test is token
  membership, a `\bp` test asks for a token starting with `p`, and the
  two-word alternative "vuelta completa" asks for two adjacent tokens. The
  lemmas below establish that reading.
*/
module Patterns {
  import opened Text
  import opened Normalizer

  /** Position `i` holds a `\w` character; positions outside the text do not. */
  predicate IsWordAt(t: string, i: int) {
    0 <= i < |t| && IsWordChar(t[i])
  }

  /** `\b` at position `i`: exactly one of the two neighbouring positions is `\w`. */
  predicate Boundary(t: string, i: int) {
    IsWordAt(t, i - 1) != IsWordAt(t, i)
  }

  /** `\bw\b` matches at position `i`. */
  predicate WholeAt(t: string, w: string, i: int) {
    OccursAt(t, w, i) && Boundary(t, i) && Boundary(t, i + |w|)
  }

  /** `/\bw\b/.test(t)`. */
  predicate HasWhole(t: string, w: string) {
    exists i | 0 <= i <= |t| - |w| :: WholeAt(t, w, i)
  }

  /** `/\b(w1|...|wn)\b/.test(t)`: alternation tries every alternative. */
  predicate HasAnyWhole(t: string, ws: seq<string>) {
    exists w | w in ws :: HasWhole(t, w)
  }

  /** `\bp` matches at position `i`. */
  predicate StartAt(t: string, p: string, i: int) {
    OccursAt(t, p, i) && Boundary(t, i)
  }

  /** `/\bp/.test(t)`. */
  predicate HasWordStart(t: string, p: string) {
    exists i | 0 <= i <= |t| - |p| :: StartAt(t, p, i)
  }

  /** A token of a normal text: non-empty, lowercase `\w` characters only. */
  predicate IsToken(w: string) {
    |w| > 0 && forall k :: 0 <= k < |w| ==> IsNormalChar(w[k]) && w[k] != ' '
  }

  predicate IsTokenList(toks: seq<string>) {
    forall j :: 0 <= j < |toks| ==> IsToken(toks[j])
  }

  /** Some token begins with `p`. */
  predicate SomeTokenStarts(toks: seq<string>, p: string) {
    exists j :: 0 <= j < |toks| && p <= toks[j]
  }

  /** Token `a` is immediately followed by token `b`. */
  predicate Adjacent(toks: seq<string>, a: string, b: string) {
    exists j :: 0 <= j < |toks| - 1 && toks[j] == a && toks[j + 1] == b
  }

  lemma TokenIsWord(w: string)
    requires IsToken(w)
    ensures IsWord(w)
  {
    forall k | 0 <= k < |w|
      ensures IsWordChar(w[k])
    {
      assert IsNormalChar(w[k]) && w[k] != ' ';
    }
  }

  // ---------------------------------------------------------------------
  // Positions in `u + " " + v`.

  lemma WordAtLeft(u: string, v: string, j: int)
    requires -1 <= j <= |u|
    ensures IsWordAt(u + " " + v, j) == IsWordAt(u, j)
  {
    if 0 <= j < |u| {
      assert (u + " " + v)[j] == u[j];
    }
  }

  lemma WordAtRight(u: string, v: string, j: int)
    requires -1 <= j
    ensures IsWordAt(u + " " + v, |u| + 1 + j) == IsWordAt(v, j)
  {
    if 0 <= j < |v| {
      assert (u + " " + v)[|u| + 1 + j] == v[j];
    }
  }

  /** A match inside the left part stays a match in the joined text. */
  lemma {:induction false} WholeAtEmbedLeft(u: string, v: string, w: string, i: int)
    requires WholeAt(u, w, i)
    ensures WholeAt(u + " " + v, w, i)
  {
    var t := u + " " + v;
    assert t[i..i + |w|] == u[i..i + |w|];
    WordAtLeft(u, v, i - 1);
    WordAtLeft(u, v, i);
    WordAtLeft(u, v, i + |w| - 1);
    WordAtLeft(u, v, i + |w|);
  }

  /** A match inside the right part stays a match, shifted, in the joined text. */
  lemma {:induction false} WholeAtEmbedRight(u: string, v: string, w: string, i: int)
    requires WholeAt(v, w, i)
    ensures WholeAt(u + " " + v, w, |u| + 1 + i)
  {
    var t := u + " " + v;
    assert t[|u| + 1 + i..|u| + 1 + i + |w|] == v[i..i + |w|];
    WordAtRight(u, v, i - 1);
    WordAtRight(u, v, i);
    WordAtRight(u, v, i + |w| - 1);
    WordAtRight(u, v, i + |w|);
  }

  /** A match that starts past the joining space lies in the right part. */
  lemma {:induction false} WholeAtRightPart(u: string, v: string, w: string, i: int)
    requires i >= |u| + 1 && WholeAt(u + " " + v, w, i)
    ensures WholeAt(v, w, i - |u| - 1)
  {
    var t := u + " " + v;
    var i' := i - |u| - 1;
    assert v[i'..i' + |w|] == t[i..i + |w|];
    WordAtRight(u, v, i' - 1);
    WordAtRight(u, v, i');
    WordAtRight(u, v, i' + |w|);
  }

  /** A space-free match in the joined text lies wholly in one part. */
  lemma {:induction false} WholeAtSplit(u: string, v: string, w: string, i: int)
    requires IsWord(w) && WholeAt(u + " " + v, w, i)
    ensures i + |w| <= |u| ==> WholeAt(u, w, i)
    ensures i + |w| > |u| ==> i >= |u| + 1 && WholeAt(v, w, i - |u| - 1)
  {
    var t := u + " " + v;
    if i + |w| <= |u| {
      assert u[i..i + |w|] == t[i..i + |w|];
      WordAtLeft(u, v, i - 1);
      WordAtLeft(u, v, i);
      WordAtLeft(u, v, i + |w| - 1);
      WordAtLeft(u, v, i + |w|);
    } else {
      assert i > |u| by {
        assert t[|u|] == ' ';
      }
      var i' := i - |u| - 1;
      assert v[i'..i' + |w|] == t[i..i + |w|];
      WordAtRight(u, v, i' - 1);
      WordAtRight(u, v, i');
      WordAtRight(u, v, i' + |w| - 1);
      WordAtRight(u, v, i' + |w|);
    }
  }

  /** Joining two texts with a space neither creates nor hides a whole word. */
  lemma {:induction false} WholeOfJoin(u: string, v: string, w: string)
    requires IsWord(w)
    ensures HasWhole(u + " " + v, w) <==> HasWhole(u, w) || HasWhole(v, w)
  {
    if HasWhole(u + " " + v, w) {
      var i :| 0 <= i <= |u + " " + v| - |w| && WholeAt(u + " " + v, w, i);
      WholeAtSplit(u, v, w, i);
    }
    if HasWhole(u, w) {
      var i :| 0 <= i <= |u| - |w| && WholeAt(u, w, i);
      WholeAtEmbedLeft(u, v, w, i);
    }
    if HasWhole(v, w) {
      var i :| 0 <= i <= |v| - |w| && WholeAt(v, w, i);
      WholeAtEmbedRight(u, v, w, i);
    }
  }

  /** Joining two texts with a space neither creates nor hides a word start. */
  lemma StartOfJoin(u: string, v: string, p: string)
    requires IsWord(p)
    ensures HasWordStart(u + " " + v, p) <==> HasWordStart(u, p) || HasWordStart(v, p)
  {
    var t := u + " " + v;
    if HasWordStart(t, p) {
      var i :| 0 <= i <= |t| - |p| && StartAt(t, p, i);
      StartInJoin(u, v, p, i);
    }
    if HasWordStart(u, p) {
      var i :| 0 <= i <= |u| - |p| && StartAt(u, p, i);
      StartEmbedLeft(u, v, p, i);
    }
    if HasWordStart(v, p) {
      var i :| 0 <= i <= |v| - |p| && StartAt(v, p, i);
      StartEmbedRight(u, v, p, i);
    }
  }

  /** A word start in the joined text is a word start in one of its parts. */
  lemma StartInJoin(u: string, v: string, p: string, i: int)
    requires IsWord(p) && 0 <= i <= |u| + 1 + |v| - |p| && StartAt(u + " " + v, p, i)
    ensures HasWordStart(u, p) || HasWordStart(v, p)
  {
    var t := u + " " + v;
    if i + |p| <= |u| {
      assert u[i..i + |p|] == t[i..i + |p|];
      WordAtLeft(u, v, i - 1);
      WordAtLeft(u, v, i);
      assert StartAt(u, p, i);
    } else {
      assert i > |u| by {
        assert t[|u|] == ' ';
      }
      var i' := i - |u| - 1;
      assert v[i'..i' + |p|] == t[i..i + |p|];
      WordAtRight(u, v, i' - 1);
      WordAtRight(u, v, i');
      assert StartAt(v, p, i');
    }
  }

  lemma StartEmbedLeft(u: string, v: string, p: string, i: int)
    requires 0 <= i <= |u| - |p| && StartAt(u, p, i)
    ensures StartAt(u + " " + v, p, i)
  {
    var t := u + " " + v;
    assert t[i..i + |p|] == u[i..i + |p|];
    WordAtLeft(u, v, i - 1);
    WordAtLeft(u, v, i);
  }

  lemma StartEmbedRight(u: string, v: string, p: string, i: int)
    requires 0 <= i <= |v| - |p| && StartAt(v, p, i)
    ensures StartAt(u + " " + v, p, |u| + 1 + i)
  {
    var t := u + " " + v;
    assert t[|u| + 1 + i..|u| + 1 + i + |p|] == v[i..i + |p|];
    WordAtRight(u, v, i - 1);
    WordAtRight(u, v, i);
  }

  /** Inside a single token, a whole-word match is the whole token. */
  lemma {:induction false} WholeInToken(u: string, w: string, i: int)
    requires IsWord(u) && IsWord(w) && WholeAt(u, w, i)
    ensures i == 0 && u == w
  {
    assert i == 0;
    assert |w| == |u|;
    assert u[0..|u|] == u;
  }

  lemma {:induction false} WholeOfToken(u: string, w: string)
    requires IsWord(u) && IsWord(w)
    ensures HasWhole(u, w) <==> u == w
  {
    if HasWhole(u, w) {
      var i :| 0 <= i <= |u| - |w| && WholeAt(u, w, i);
      WholeInToken(u, w, i);
    }
    if u == w {
      assert u[0..|w|] == u;
      assert WholeAt(u, w, 0);
    }
  }

  lemma {:induction false} StartOfToken(u: string, p: string)
    requires IsWord(u) && IsWord(p)
    ensures HasWordStart(u, p) <==> p <= u
  {
    if HasWordStart(u, p) {
      var i :| 0 <= i <= |u| - |p| && StartAt(u, p, i);
      assert i == 0;
      assert u[..|p|] == p;
    }
    if p <= u {
      assert u[0..|p|] == p;
      assert StartAt(u, p, 0);
    }
  }

  // ---------------------------------------------------------------------
  // Token lists.

  /** Joining tokens with single spaces gives a normal text. */
  lemma {:induction false} JoinedTokensNormal(toks: seq<string>)
    requires IsTokenList(toks)
    ensures IsNormal(JoinSpaced(toks))
    ensures |toks| > 0 ==> JoinSpaced(toks) != [] && JoinSpaced(toks)[0] != ' '
  {
    if |toks| >= 2 {
      JoinedTokensNormal(toks[1..]);
      var u := toks[0];
      var r := JoinSpaced(toks[1..]);
      var t := u + " " + r;
      assert JoinSpaced(toks) == t;
      forall k | 0 <= k < |t|
        ensures IsNormalChar(t[k])
      {
        if k > |u| {
          assert t[k] == r[k - |u| - 1];
        }
      }
      forall k | 0 <= k < |t| - 1
        ensures !(t[k] == ' ' && t[k + 1] == ' ')
      {
        if k > |u| {
          assert t[k] == r[k - |u| - 1] && t[k + 1] == r[k - |u|];
        }
      }
    }
  }

  lemma {:induction false} JoinedStartsWithFirst(toks: seq<string>)
    requires |toks| >= 2
    ensures JoinSpaced(toks) == toks[0] + " " + JoinSpaced(toks[1..])
  {
  }

  /** A whole-word test on joined tokens is token membership. */
  lemma {:induction false} WholeOfTokens(toks: seq<string>, w: string)
    requires IsTokenList(toks) && IsWord(w)
    ensures HasWhole(JoinSpaced(toks), w) <==> w in toks
  {
    if |toks| == 0 {
    } else if |toks| == 1 {
      TokenIsWord(toks[0]);
      WholeOfToken(toks[0], w);
    } else {
      JoinedStartsWithFirst(toks);
      TokenIsWord(toks[0]);
      WholeOfJoin(toks[0], JoinSpaced(toks[1..]), w);
      WholeOfToken(toks[0], w);
      WholeOfTokens(toks[1..], w);
      assert toks == [toks[0]] + toks[1..];
    }
  }

  /** A `\bp` test on joined tokens asks for a token that begins with `p`. */
  lemma {:induction false} StartOfTokens(toks: seq<string>, p: string)
    requires IsTokenList(toks) && IsWord(p)
    ensures HasWordStart(JoinSpaced(toks), p) <==> SomeTokenStarts(toks, p)
  {
    if |toks| == 0 {
    } else if |toks| == 1 {
      TokenIsWord(toks[0]);
      StartOfToken(toks[0], p);
    } else {
      JoinedStartsWithFirst(toks);
      TokenIsWord(toks[0]);
      StartOfJoin(toks[0], JoinSpaced(toks[1..]), p);
      StartOfToken(toks[0], p);
      StartOfTokens(toks[1..], p);
      if SomeTokenStarts(toks[1..], p) {
        var j :| 0 <= j < |toks[1..]| && p <= toks[1..][j];
        assert p <= toks[j + 1];
      }
      if SomeTokenStarts(toks, p) {
        var j :| 0 <= j < |toks| && p <= toks[j];
        if j > 0 {
          assert p <= toks[1..][j - 1];
        }
      }
    }
  }

  /** The first token is a whole word at position 0, and no other word is. */
  lemma {:induction false} WholeAtStart(toks: seq<string>, b: string)
    requires IsTokenList(toks) && |toks| > 0 && IsWord(b)
    ensures WholeAt(JoinSpaced(toks), b, 0) <==> b == toks[0]
  {
    TokenIsWord(toks[0]);
    var u := toks[0];
    if |toks| == 1 {
      if WholeAt(u, b, 0) {
        WholeInToken(u, b, 0);
      }
      if b == u {
        assert u[0..|b|] == u;
      }
    } else {
      JoinedStartsWithFirst(toks);
      var r := JoinSpaced(toks[1..]);
      if WholeAt(u + " " + r, b, 0) {
        WholeAtSplit(u, r, b, 0);
        WholeInToken(u, b, 0);
      }
      if b == u {
        assert u[0..|b|] == u;
        WholeAtEmbedLeft(u, r, b, 0);
      }
    }
  }

  /** The two-word alternative "a b" matches on joined tokens exactly when
      token `a` is immediately followed by token `b`. */
  lemma PhraseOfTokens(toks: seq<string>, a: string, b: string)
    requires IsTokenList(toks) && IsWord(a) && IsWord(b)
    ensures HasWhole(JoinSpaced(toks), a + " " + b) <==> Adjacent(toks, a, b)
  {
    if HasWhole(JoinSpaced(toks), a + " " + b) {
      PhraseMeansAdjacent(toks, a, b);
    }
    if Adjacent(toks, a, b) {
      AdjacentMeansPhrase(toks, a, b);
    }
  }

  lemma {:induction false} PhraseMeansAdjacent(toks: seq<string>, a: string, b: string)
    requires IsTokenList(toks) && IsWord(a) && IsWord(b)
    requires HasWhole(JoinSpaced(toks), a + " " + b)
    ensures Adjacent(toks, a, b)
  {
    var ph := a + " " + b;
    if |toks| == 1 {
      NoPhraseInToken(toks[0], a, b);
    } else {
      JoinedStartsWithFirst(toks);
      var u := toks[0];
      var rest := toks[1..];
      var r := JoinSpaced(rest);
      var t := u + " " + r;
      var i :| 0 <= i <= |t| - |ph| && WholeAt(t, ph, i);
      if i >= |u| + 1 {
        WholeAtRightPart(u, r, ph, i);
        PhraseMeansAdjacent(rest, a, b);
        var j :| 0 <= j < |rest| - 1 && rest[j] == a && rest[j + 1] == b;
        assert toks[j + 1] == a && toks[j + 2] == b;
      } else {
        PhraseAtFront(u, r, rest, a, b, i);
        assert toks[0] == a && toks[1] == b;
      }
    }
  }

  lemma {:induction false} AdjacentMeansPhrase(toks: seq<string>, a: string, b: string)
    requires IsTokenList(toks) && IsWord(a) && IsWord(b)
    requires Adjacent(toks, a, b)
    ensures HasWhole(JoinSpaced(toks), a + " " + b)
  {
    var ph := a + " " + b;
    JoinedStartsWithFirst(toks);
    var u := toks[0];
    var rest := toks[1..];
    var r := JoinSpaced(rest);
    var t := u + " " + r;
    var j :| 0 <= j < |toks| - 1 && toks[j] == a && toks[j + 1] == b;
    if j == 0 {
      WholeAtStart(rest, b);
      PhraseFromParts(u, r, b);
    } else {
      assert rest[j - 1] == a && rest[j] == b;
      AdjacentMeansPhrase(rest, a, b);
      var i :| 0 <= i <= |r| - |ph| && WholeAt(r, ph, i);
      WholeAtEmbedRight(u, r, ph, i);
    }
  }

  /** A token followed by a text that starts with the whole word `b` holds
      the phrase "token b" at 0. */
  lemma PhraseFromParts(u: string, r: string, b: string)
    requires IsToken(u) && IsWord(b) && WholeAt(r, b, 0)
    ensures WholeAt(u + " " + r, u + " " + b, 0)
  {
    var t := u + " " + r;
    var ph := u + " " + b;
    WholeAtEmbedRight(u, r, b, 0);
    assert t[..|u|] == u;
    assert t[|u| + 1..|u| + 1 + |b|] == b;
    assert t[0..|ph|] == ph;
    TokenIsWord(u);
    WordAtLeft(u, r, -1);
    WordAtLeft(u, r, 0);
  }

  lemma NoPhraseInToken(u: string, a: string, b: string)
    requires IsToken(u)
    ensures !HasWhole(u, a + " " + b)
  {
    var ph := a + " " + b;
    forall i | 0 <= i <= |u| - |ph|
      ensures !OccursAt(u, ph, i)
    {
      assert ph[|a|] == ' ';
      assert u[i..i + |ph|][|a|] == u[i + |a|] != ' ';
    }
  }

  /** A phrase match that starts in the first token starts at 0 and spans
      the first two tokens. */
  lemma PhraseAtFront(u: string, r: string, rest: seq<string>, a: string, b: string, i: int)
    requires IsToken(u) && IsTokenList(rest) && |rest| > 0 && r == JoinSpaced(rest)
    requires IsWord(a) && IsWord(b)
    requires 0 <= i < |u| + 1 && WholeAt(u + " " + r, a + " " + b, i)
    ensures u == a && rest[0] == b
  {
    PhraseFirstWord(u, r, a, b, i);
    PhraseSecondWord(u, r, a, b);
    WholeAtStart(rest, b);
  }

  /** The only space of the phrase must be the joining space, so the match
      starts at 0 and its first word is the left part. */
  lemma PhraseFirstWord(u: string, r: string, a: string, b: string, i: int)
    requires IsToken(u) && IsWord(a) && IsWord(b)
    requires 0 <= i < |u| + 1 && WholeAt(u + " " + r, a + " " + b, i)
    ensures i == 0 && u == a
  {
    var t := u + " " + r;
    var ph := a + " " + b;
    TokenIsWord(u);
    assert t[i..i + |ph|] == ph;
    assert t[i + |a|] == ph[|a|] == ' ';
    assert t[|u|] == ' ';
    assert forall k :: 0 <= k < |u| ==> t[k] == u[k] && t[k] != ' ';
    assert forall k :: i <= k < i + |a| ==> t[k] == ph[k - i] == a[k - i] && t[k] != ' ';
    assert i + |a| == |u|;
    assert IsWordAt(t, i);
    assert i > 0 ==> IsWordAt(t, i - 1);
    assert i == 0;
    assert t[..|u|] == u;
    assert ph[..|a|] == a;
    assert t[..|a|] == t[0..|ph|][..|a|];
  }

  /** The second word of a phrase matched at 0 with first word `u` starts the right part. */
  lemma PhraseSecondWord(u: string, r: string, a: string, b: string)
    requires IsWord(a) && IsWord(b) && u == a
    requires WholeAt(u + " " + r, a + " " + b, 0)
    ensures WholeAt(r, b, 0)
  {
    var t := u + " " + r;
    var ph := a + " " + b;
    assert t[0..|ph|] == ph;
    assert ph[|a| + 1..] == b;
    assert t[|u| + 1..|u| + 1 + |b|] == t[0..|ph|][|a| + 1..];
    assert r[0..|b|] == t[|u| + 1..|u| + 1 + |b|];
    WordAtRight(u, r, |b| - 1);
    WordAtRight(u, r, |b|);
  }

  // ---------------------------------------------------------------------
  // Every normal text is its tokens joined by single spaces.

  /** The space-separated pieces of `t` (`t.split(" ")` without empty pieces
      for a normal text). */
  function Words(t: string): (toks: seq<string>)
    decreases |t|
    ensures t != [] <==> toks != []
  {
    if t == [] then []
    else if ' ' !in t then [t]
    else
      var k := FirstSpace(t);
      [t[..k]] + Words(t[k + 1..])
  }

  /** A normal text is its tokens joined by single spaces. */
  lemma {:induction false} WordsOfNormal(t: string)
    requires IsNormal(t)
    decreases |t|
    ensures IsTokenList(Words(t)) && JoinSpaced(Words(t)) == t
  {
    if t != [] {
      if ' ' !in t {
        forall j | 0 <= j < |t|
          ensures t[j] != ' '
        {
          assert t[j] in t;
        }
        assert IsToken(t);
        assert Words(t) == [t];
      } else {
        var k := FirstSpace(t);
        var rest := t[k + 1..];
        WordsStep(t, k);
        WordsOfNormal(rest);
        var toks := Words(t);
        assert toks == [t[..k]] + Words(rest);
        assert toks[1..] == Words(rest);
        assert |toks| > 1;
      }
    }
  }

  /** A word followed by a separator is the first run of `\w` characters. */
  lemma {:induction false} RunsOfWordThen(w: string, x: string)
    requires IsWord(w)
    requires x == [] || !IsWordChar(x[0])
    ensures Runs(w + x) == [w] + Runs(x)
  {
    assert (w + x)[1..] == w[1..] + x;
    if |w| == 1 {
      assert w[1..] + x == x;
      assert [w[0]] == w;
    } else {
      RunsOfWordThen(w[1..], x);
      assert (w + x)[1] == w[1];
      assert [w[0]] + w[1..] == w;
    }
  }

  /** Tokens joined by single spaces are the runs of `\w` characters of the result. */
  lemma {:induction false} RunsOfJoined(toks: seq<string>)
    requires IsTokenList(toks)
    ensures Runs(JoinSpaced(toks)) == toks
  {
    if |toks| > 0 {
      var w := toks[0];
      assert IsToken(w);
      assert IsWord(w);
      if |toks| == 1 {
        RunsOfWordThen(w, []);
        assert w + [] == w;
      } else {
        var rest := JoinSpaced(toks[1..]);
        assert JoinSpaced(toks) == w + (" " + rest);
        RunsOfWordThen(w, " " + rest);
        assert (" " + rest)[1..] == rest;
        RunsOfJoined(toks[1..]);
        assert [w] + toks[1..] == toks;
      }
    }
  }

  /** The tokens of `normalizeText`'s output are exactly the maximal runs of
      letters, digits and underscores of the input once lowercased and
      stripped of its diacritics. */
  lemma WordsOfNormalize(s: string)
    ensures Words(Normalize(s)) == Runs(StripMarks(Fold(s)))
  {
    var t := Normalize(s);
    WordsOfNormal(t);
    RunsOfJoined(Words(t));
  }

  /** A lone surrogate ahead of the text only separates words: the tokens are
      those of the text alone. */
  lemma LoneSurrogateSeparates(s: string)
    ensures Words(Normalize([LoneSurrogate] + s)) == Words(Normalize(s))
  {
    WordsOfNormalize([LoneSurrogate] + s);
    WordsOfNormalize(s);
    FoldLoneSurrogate(s);
    RunsSkipsSeparator(LoneSurrogate, StripMarks(Fold(s)));
  }

  function FirstSpace(t: string): (k: nat)
    requires ' ' in t
    ensures k < |t| && t[k] == ' ' && ' ' !in t[..k]
  {
    if t[0] == ' ' then 0
    else
      assert ' ' in t[1..];
      var k := 1 + FirstSpace(t[1..]);
      assert t[..k] == [t[0]] + t[1..][..k - 1];
      k
  }

  lemma {:induction false} WordsStep(t: string, k: nat)
    requires ' ' in t && k == FirstSpace(t)
    ensures IsNormal(t) ==> IsToken(t[..k]) && IsNormal(t[k + 1..]) && t[k + 1..] != []
    ensures t == t[..k] + " " + t[k + 1..]
  {
    if IsNormal(t) {
      var w := t[..k];
      forall j | 0 <= j < |w|
        ensures IsNormalChar(w[j]) && w[j] != ' '
      {
        assert w[j] in t[..k];
      }
      var rest := t[k + 1..];
      assert k < |t| - 1;
      forall j | 0 <= j < |rest| - 1
        ensures !(rest[j] == ' ' && rest[j + 1] == ' ')
      {
        assert rest[j] == t[k + 1 + j] && rest[j + 1] == t[k + 2 + j];
      }
      assert rest[0] == t[k + 1] && t[k] == ' ';
    }
  }
}

=== FILE: session.dfy ===
/**
  The listening state machine of the voice panel: the `listening` flag,
  `setMicState` (app.js:257-266), the toggle button's click handler
  (app.js:425-448), and the recogniser's `onerror` (app.js:406-411),
  `onend` (app.js:413-415) and `onresult` (app.js:380-404) handlers.

  The recogniser's `start()` and `stop()` either return or throw; each
  event carries which. An exception that escapes a handler is recorded as
  the `Uncaught` effect.
*/
module Session {
  import opened Wrappers
  import opened Text
  import opened Classifier
  import opened WakeGate
  import opened Dispatch

  /** The state the handlers read and write. */
  datatype Controller = Controller(
    listening: bool,       // the `listening` flag
    hasRecognizer: bool,   // `rec` was created: the browser offers speech recognition
    hasMicDisplay: bool,   // the `micState` element exists, so `setMicState` re-enables the button
    buttonDisabled: bool,  // `el.btn.disabled`
    tts: bool,             // the speech checkbox exists and is checked
    synthesis: bool)       // `SpeechSynthesisUtterance` and `speechSynthesis` exist

  /** What can happen to the panel. */
  datatype Event =
    | Clicked(engineOk: bool)                           // the toggle button; whether start()/stop() returned
    | Errored(reason: string)                           // `rec.onerror` with `ev.error`
    | Ended(engineOk: bool)                             // `rec.onend`; whether a restart returned
    | Results(results: seq<SpeechResult>, idx: int)     // `rec.onresult`

  const StartPrompt: string := "Listo. Di Tony y tu orden."
  const NoSpeechApi: string := "Tu navegador no soporta Web Speech API. Prueba en Chrome."
  const MicErrorPrefix: string := "Error de micr\U{F3}fono: "

  /** `speak` with the box checked constructs an utterance and calls
      `speechSynthesis`; without them it throws (app.js:319-328). */
  predicate SpeakThrows(c: Controller) {
    c.tts && !c.synthesis
  }

  /** The listening flag may only be on when there is a recogniser. */
  predicate Wf(c: Controller) {
    c.listening ==> c.hasRecognizer
  }

  /** `setMicState(on)`: sets the flag; the button is re-enabled only when the
      mic display exists, because the function returns early otherwise. */
  function SetMicState(c: Controller, on: bool): (r: Controller)
    ensures r.listening == on
    ensures c.hasMicDisplay ==> !r.buttonDisabled
    ensures !c.hasMicDisplay ==> r.buttonDisabled == c.buttonDisabled
    ensures r.hasRecognizer == c.hasRecognizer && r.hasMicDisplay == c.hasMicDisplay
    ensures r.tts == c.tts && r.synthesis == c.synthesis
  {
    c.(listening := on, buttonDisabled := if c.hasMicDisplay then false else c.buttonDisabled)
  }

  /** The click handler. A disabled button delivers no click. From off,
      `start()`, `setMicState(true)` and the spoken prompt share one `try`,
      so a throwing `start()` or a throwing `speak` both end in the `catch`
      with the flag off. */
  function Click(c: Controller, engineOk: bool): (out: (Controller, seq<Effect>))
    ensures c.buttonDisabled ==> out == (c, [])
    ensures !c.buttonDisabled && !c.hasRecognizer ==> out == (c, [Alert(NoSpeechApi)])
    ensures !c.buttonDisabled && c.hasRecognizer ==>
      out.0.listening == (!c.listening && engineOk && !SpeakThrows(c))
    ensures !c.buttonDisabled && c.hasRecognizer ==>
      out.0.buttonDisabled == !c.hasMicDisplay
  {
    if c.buttonDisabled then (c, [])
    else if !c.hasRecognizer then (c, [Alert(NoSpeechApi)])
    else
      var pressed := c.(buttonDisabled := true);
      if !c.listening then
        if !engineOk then (SetMicState(pressed, false), [StartEngine])
        else if SpeakThrows(c) then (SetMicState(SetMicState(pressed, true), false), [StartEngine])
        else (SetMicState(pressed, true), [StartEngine] + (if c.tts then [Speak(StartPrompt)] else []))
      else
        (SetMicState(pressed, false), [StopEngine] + (if engineOk then [] else [Uncaught]))
  }

  /** `rec.onerror`: report the reason and switch off. */
  function OnError(c: Controller, reason: string): (out: (Controller, seq<Effect>))
    ensures !out.0.listening
    ensures out.1 == [ShowAction(MicErrorPrefix + reason)]
  {
    (SetMicState(c, false), [ShowAction(MicErrorPrefix + reason)])
  }

  /** `rec.onend`: restart while listening. A throwing restart escapes the
      handler and leaves the flag as it was. */
  function OnEnd(c: Controller, engineOk: bool): (out: (Controller, seq<Effect>))
    ensures out.0 == c
    ensures StartEngine in out.1 <==> c.listening && c.hasRecognizer
    ensures Uncaught in out.1 <==> c.listening && c.hasRecognizer && !engineOk
  {
    if c.listening && c.hasRecognizer then (c, [StartEngine] + (if engineOk then [] else [Uncaught]))
    else (c, [])
  }

  /** The effects of a gate decision: show what was heard, then show and
      perform the command, if any. A `speak` that throws at the end of
      `performAction` escapes the handler after the POST. */
  function HeardEffects(h: Heard, c: Controller): (effects: seq<Effect>)
    ensures h.lastHeard.Some? ==> |effects| > 0 && effects[0] == ShowLastHeard(h.lastHeard.value)
    ensures h.command.None? ==> |effects| == (if h.lastHeard.Some? then 1 else 0)
    ensures var i := if h.lastHeard.Some? then 1 else 0;
      h.command.Some? ==>
        && |effects| >= i + 3
        && effects[i] == ShowDetected(DetectedText(h.command.value))
        && effects[i + 1] == ShowAction("Ejecutando: " + h.command.value.key)
        && effects[i + 2] == Post(h.command.value.id)
    ensures Uncaught in effects <==> h.command.Some? && SpeakThrows(c)
  {
    var heard := if h.lastHeard.Some? then [ShowLastHeard(h.lastHeard.value)] else [];
    match h.command
    case None => heard
    case Some(cmd) =>
      var act := PerformAction(cmd.id, cmd.key, c.tts && c.synthesis);
      assert Uncaught !in act;
      heard + [ShowDetected(DetectedText(cmd))] + act + (if SpeakThrows(c) then [Uncaught] else [])
  }

  /** `rec.onresult`: show what was heard and dispatch what the gate lets through. */
  function OnResults(c: Controller, results: seq<SpeechResult>, idx: int): (out: (Controller, seq<Effect>))
    ensures out.0 == c
  {
    (c, HeardEffects(OnResult(results, idx), c))
  }

  /** `rec.onresult` exactly as written: the gate finds the wake word in the
      lowercased transcript and cuts the original one at that index. It
      issues the same effects as `OnResults` unless the transcript holds a
      code point whose lowercase is longer than itself. */
  function OnResultsAsWritten(c: Controller, results: seq<SpeechResult>, idx: int): (out: (Controller, seq<Effect>))
    ensures out.0 == c
  {
    (c, HeardEffects(OnResultAsWritten(results, idx), c))
  }

  /** One event. Recogniser events only arrive when there is a recogniser,
      since the handlers are attached to it. */
  function Step(c: Controller, e: Event): (out: (Controller, seq<Effect>))
  {
    match e
    case Clicked(ok) => Click(c, ok)
    case Errored(reason) => if c.hasRecognizer then OnError(c, reason) else (c, [])
    case Ended(ok) => if c.hasRecognizer then OnEnd(c, ok) else (c, [])
    case Results(rs, idx) => if c.hasRecognizer then OnResults(c, rs, idx) else (c, [])
  }

  /** A run of events, in order: the final state and every effect issued. */
  function Run(c: Controller, events: seq<Event>): (out: (Controller, seq<Effect>))
    decreases |events|
  {
    if events == [] then (c, [])
    else
      var before := Run(c, events[..|events| - 1]);
      var last := Step(before.0, events[|events| - 1]);
      (last.0, before.1 + last.1)
  }

  /** Replays a run of events one at a time, as the page receives them. The
      listening flag stays consistent with the recogniser, the recogniser,
      mic display and speech setting never change, and no more movements
      are posted than there were final result events. */
  method Replay(c: Controller, events: seq<Event>) returns (final: Controller, effects: seq<Effect>)
    ensures Wf(c) ==> Wf(final)
    ensures final.hasRecognizer == c.hasRecognizer
    ensures final.hasMicDisplay == c.hasMicDisplay && final.tts == c.tts && final.synthesis == c.synthesis
    ensures PostCount(effects) <= FinalCount(events)
    ensures (final, effects) == Run(c, events)
  {
    final, effects := c, [];
    var i := 0;
    while i < |events|
      invariant 0 <= i <= |events|
      invariant (final, effects) == Run(c, events[..i])
      invariant Wf(c) ==> Wf(final)
      invariant final.hasRecognizer == c.hasRecognizer
      invariant final.hasMicDisplay == c.hasMicDisplay && final.tts == c.tts && final.synthesis == c.synthesis
      invariant PostCount(effects) <= FinalCount(events[..i])
    {
      var next := Step(final, events[i]);
      RunExtends(c, events, i);
      StepPreservesWf(final, events[i]);
      StepPosts(final, events[i]);
      PostCountAppend(effects, next.1);
      final, effects := next.0, effects + next.1;
      i := i + 1;
    }
    assert events[..|events|] == events;
  }

  /** A run one event longer is the shorter run followed by that event. */
  lemma RunExtends(c: Controller, events: seq<Event>, i: nat)
    requires i < |events|
    ensures var before := Run(c, events[..i]);
      var last := Step(before.0, events[i]);
      Run(c, events[..i + 1]) == (last.0, before.1 + last.1)
    ensures FinalCount(events[..i + 1]) == FinalCount(events[..i]) + (if FinalResults(events[i]) then 1 else 0)
  {
    assert events[..i + 1][..i] == events[..i];
  }

  // ---------------------------------------------------------------------
  // The toggle, error and end transitions.

  /** Without a recogniser a click only raises the alert. */
  lemma ClickWithoutRecognizer(c: Controller, ok: bool)
    requires !c.hasRecognizer && !c.buttonDisabled
    ensures Click(c, ok).0 == c && Click(c, ok).1 == [Alert(NoSpeechApi)]
  {
  }

  /** From off, a returning `start()` switches on and prompts the user; a
      throwing one, or a prompt that cannot be spoken, leaves the panel off
      although the engine was started. */
  lemma ClickFromOff(c: Controller, ok: bool)
    requires c.hasRecognizer && !c.buttonDisabled && !c.listening
    ensures Click(c, ok).0.listening == (ok && !SpeakThrows(c))
    ensures StartEngine in Click(c, ok).1
    ensures Speak(StartPrompt) in Click(c, ok).1 <==> ok && c.tts && c.synthesis
    ensures Uncaught !in Click(c, ok).1
  {
  }

  /** With the box checked but no speech synthesis, the prompt throws after
      `start()` returned: the engine was started, yet the `catch` leaves the
      flag off, so the next `onend` does not restart it. */
  lemma PromptFailureClearsFlag(c: Controller, restartOk: bool)
    requires c.hasRecognizer && !c.buttonDisabled && !c.listening && SpeakThrows(c)
    ensures StartEngine in Click(c, true).1 && !Click(c, true).0.listening
    ensures Step(Click(c, true).0, Ended(restartOk)).1 == []
  {
  }

  /** From on, the flag ends false whether or not `stop()` throws (`finally`). */
  lemma ClickFromOn(c: Controller, ok: bool)
    requires c.hasRecognizer && !c.buttonDisabled && c.listening
    ensures !Click(c, ok).0.listening
    ensures StopEngine in Click(c, ok).1 && StartEngine !in Click(c, ok).1
    ensures Uncaught in Click(c, ok).1 <==> !ok
  {
  }

  /** A stop the operator asked for is never undone by `onend`: after a
      click from on, the end of the session restarts nothing. */
  lemma StopIsNotRestarted(c: Controller, stopOk: bool, restartOk: bool)
    requires c.hasRecognizer && !c.buttonDisabled && c.listening
    ensures var afterClick := Click(c, stopOk).0;
      Step(afterClick, Ended(restartOk)).1 == []
  {
  }

  /** Every event keeps the flag consistent with the recogniser. */
  lemma StepPreservesWf(c: Controller, e: Event)
    ensures Wf(c) ==> Wf(Step(c, e).0)
    ensures Step(c, e).0.hasRecognizer == c.hasRecognizer
    ensures Step(c, e).0.hasMicDisplay == c.hasMicDisplay && Step(c, e).0.tts == c.tts
    ensures Step(c, e).0.synthesis == c.synthesis
  {
  }

  lemma {:induction false} RunPreservesWf(c: Controller, events: seq<Event>)
    requires Wf(c)
    decreases |events|
    ensures Wf(Run(c, events).0)
    ensures Run(c, events).0.hasRecognizer == c.hasRecognizer
    ensures Run(c, events).0.hasMicDisplay == c.hasMicDisplay && Run(c, events).0.tts == c.tts
    ensures Run(c, events).0.synthesis == c.synthesis
  {
    if events != [] {
      RunPreservesWf(c, events[..|events| - 1]);
      StepPreservesWf(Run(c, events[..|events| - 1]).0, events[|events| - 1]);
    }
  }

  /** Without a recogniser nothing ever listens, whatever happens. */
  lemma NeverListensWithoutRecognizer(c: Controller, events: seq<Event>)
    requires !c.hasRecognizer && !c.listening
    ensures !Run(c, events).0.listening
  {
    RunPreservesWf(c, events);
  }

  /** Without the mic display, the first click that reaches a recogniser
      leaves the button disabled for good, so no later click is delivered. */
  lemma {:induction false} ButtonStaysLocked(c: Controller, events: seq<Event>)
    requires !c.hasMicDisplay && c.buttonDisabled
    decreases |events|
    ensures Run(c, events).0.buttonDisabled
    ensures forall k :: 0 <= k < |Run(c, events).1| ==> Run(c, events).1[k] != StopEngine
  {
    if events != [] {
      var prefix := events[..|events| - 1];
      ButtonStaysLocked(c, prefix);
      var mid := Run(c, prefix);
      assert !mid.0.hasMicDisplay by {
        RunKeepsDisplay(c, prefix);
      }
      var last := Step(mid.0, events[|events| - 1]);
      assert forall k :: 0 <= k < |last.1| ==> last.1[k] != StopEngine by {
        StepDisabledNoStop(mid.0, events[|events| - 1]);
      }
    }
  }

  lemma {:induction false} RunKeepsDisplay(c: Controller, events: seq<Event>)
    decreases |events|
    ensures Run(c, events).0.hasMicDisplay == c.hasMicDisplay
  {
    if events != [] {
      RunKeepsDisplay(c, events[..|events| - 1]);
    }
  }

  lemma StepDisabledNoStop(c: Controller, e: Event)
    requires c.buttonDisabled && !c.hasMicDisplay
    ensures Step(c, e).0.buttonDisabled
    ensures forall k :: 0 <= k < |Step(c, e).1| ==> Step(c, e).1[k] != StopEngine
  {
    if e.Results? && c.hasRecognizer {
      ResultsNeverStop(c, e.results, e.idx);
    }
  }

  lemma ResultsNeverStop(c: Controller, results: seq<SpeechResult>, idx: int)
    ensures forall k :: 0 <= k < |OnResults(c, results, idx).1| ==> OnResults(c, results, idx).1[k] != StopEngine
  {
    HeardNeverStops(OnResult(results, idx), c);
  }

  lemma HeardNeverStops(h: Heard, c: Controller)
    ensures StopEngine !in HeardEffects(h, c)
  {
    var heard := if h.lastHeard.Some? then [ShowLastHeard(h.lastHeard.value)] else [];
    assert StopEngine !in heard;
    if h.command.Some? {
      var cmd := h.command.value;
      var p := PerformAction(cmd.id, cmd.key, c.tts && c.synthesis);
      var escape := if SpeakThrows(c) then [Uncaught] else [];
      assert HeardEffects(h, c) == heard + [ShowDetected(DetectedText(cmd))] + p + escape;
      assert StopEngine !in p;
      assert StopEngine !in escape;
    }
  }

  /** With the mic display present, every click the recogniser handles
      leaves the button enabled again. */
  lemma ClickReenables(c: Controller, ok: bool)
    requires c.hasMicDisplay && c.hasRecognizer && !c.buttonDisabled
    ensures !Click(c, ok).0.buttonDisabled
  {
  }

  // ---------------------------------------------------------------------
  // Results and dispatch.

  /** A result event is handled the same way whether or not the panel is
      listening: the handler never reads the flag. */
  lemma ResultsIgnoreListening(c: Controller, results: seq<SpeechResult>, idx: int)
    ensures OnResults(c, results, idx).1 == OnResults(c.(listening := !c.listening), results, idx).1
  {
  }

  /** A result event posts at most one movement, and only when the gate
      dispatches; the posted id is the classified one. */
  lemma ResultsPostOnce(c: Controller, results: seq<SpeechResult>, idx: int)
    ensures var h := OnResult(results, idx);
      PostCount(OnResults(c, results, idx).1) == (if h.command.Some? then 1 else 0)
    ensures var h := OnResult(results, idx);
      h.command.Some? ==> Post(h.command.value.id) in OnResults(c, results, idx).1
  {
    HeardPostsOnce(OnResult(results, idx), c);
  }

  /** The same for the handler as written: at most one movement, and only
      when its gate dispatches. */
  lemma ResultsPostOnceAsWritten(c: Controller, results: seq<SpeechResult>, idx: int)
    ensures var h := OnResultAsWritten(results, idx);
      PostCount(OnResultsAsWritten(c, results, idx).1) == (if h.command.Some? then 1 else 0)
    ensures var h := OnResultAsWritten(results, idx);
      h.command.Some? ==> Post(h.command.value.id) in OnResultsAsWritten(c, results, idx).1
  {
    HeardPostsOnce(OnResultAsWritten(results, idx), c);
  }

  /** Unless a code point of the transcript grows when lowercased, the
      handler as written and the corrected one issue the same effects. */
  lemma ResultsAgree(c: Controller, results: seq<SpeechResult>, idx: int)
    requires LengthPreservingLower(Transcript(results, idx))
    ensures OnResultsAsWritten(c, results, idx) == OnResults(c, results, idx)
  {
    AgreeOnResults(results, idx);
  }

  lemma HeardPostsOnce(h: Heard, c: Controller)
    ensures PostCount(HeardEffects(h, c)) == (if h.command.Some? then 1 else 0)
    ensures h.command.Some? ==> Post(h.command.value.id) in HeardEffects(h, c)
  {
    var heard := if h.lastHeard.Some? then [ShowLastHeard(h.lastHeard.value)] else [];
    assert PostCount(heard) == 0;
    if h.command.Some? {
      var cmd := h.command.value;
      var shown := heard + [ShowDetected(DetectedText(cmd))];
      assert PostCount(shown) == 0 by {
        PostCountAppend(heard, [ShowDetected(DetectedText(cmd))]);
      }
      var p := PerformAction(cmd.id, cmd.key, c.tts && c.synthesis);
      PostCountAppend(shown, p);
      ImmediateEffects(cmd.id, cmd.key, c.tts && c.synthesis);
      var escape := if SpeakThrows(c) then [Uncaught] else [];
      assert PostCount(escape) == 0;
      PostCountAppend(shown + p, escape);
    }
  }

  /** A result event that can dispatch: a non-empty run of results whose
      last one is final. */
  predicate FinalResults(e: Event) {
    e.Results? && |e.results| > 0 && e.results[|e.results| - 1].isFinal
  }

  function FinalCount(events: seq<Event>): (n: nat)
    ensures n <= |events|
  {
    if events == [] then 0
    else FinalCount(events[..|events| - 1]) + (if FinalResults(events[|events| - 1]) then 1 else 0)
  }

  /** Only final result events post: a run posts no more movements than it
      has final result events. */
  lemma {:induction false} PostsBoundedByFinals(c: Controller, events: seq<Event>)
    decreases |events|
    ensures PostCount(Run(c, events).1) <= FinalCount(events)
  {
    if events != [] {
      var prefix := events[..|events| - 1];
      PostsBoundedByFinals(c, prefix);
      var mid := Run(c, prefix);
      var e := events[|events| - 1];
      var last := Step(mid.0, e);
      PostCountAppend(mid.1, last.1);
      StepPosts(mid.0, e);
    }
  }

  lemma StepPosts(c: Controller, e: Event)
    ensures PostCount(Step(c, e).1) <= (if FinalResults(e) then 1 else 0)
  {
    match e
    case Clicked(ok) =>
      var out := Click(c, ok).1;
      assert forall k :: 0 <= k < |out| ==> !out[k].Post?;
    case Errored(_) =>
    case Ended(ok) =>
      var out := Step(c, e).1;
      assert forall k :: 0 <= k < |out| ==> !out[k].Post?;
    case Results(rs, idx) =>
      if c.hasRecognizer {
        ResultsPostOnce(c, rs, idx);
      }
  }
}

=== FILE: text.dfy ===
/**
  The JavaScript string primitives the voice panel relies on, over Dafny's
  Unicode scalar strings: the `\s`/`trim` blank set, the `\w` word set,
  `trim`, `toLowerCase`, `indexOf`, `join(" ")`, the UTF-16 `length`, and the
  decimal rendering of integers that template literals perform.
*/
module Text {
  import opened Wrappers

  /** ECMAScript WhiteSpace and LineTerminator: what `\s` matches and `trim` removes. */
  predicate IsSpace(c: char) {
    || c == '\t' || c == '\n' || c == '\U{0B}' || c == '\U{0C}' || c == '\r' || c == ' '
    || c == '\U{A0}' || c == '\U{1680}' || ('\U{2000}' <= c <= '\U{200A}')
    || c == '\U{2028}' || c == '\U{2029}' || c == '\U{202F}' || c == '\U{205F}'
    || c == '\U{3000}' || c == '\U{FEFF}'
  }

  /** `\w` of a regular expression without the `u` flag: ASCII letters, digits and `_`. */
  predicate IsWordChar(c: char) {
    ('a' <= c <= 'z') || ('A' <= c <= 'Z') || ('0' <= c <= '9') || c == '_'
  }

  /** A run of word characters: non-empty, all `\w`. */
  predicate IsWord(w: string) {
    |w| > 0 && forall k :: 0 <= k < |w| ==> IsWordChar(w[k])
  }

  predicate IsAsciiUpper(c: char) {
    'A' <= c <= 'Z'
  }

  predicate AllSpace(s: string) {
    forall k :: 0 <= k < |s| ==> IsSpace(s[k])
  }

  /** Number of blanks `trim` removes at the front. */
  function LeadingSpaces(s: string): (n: nat)
    ensures n <= |s|
    ensures AllSpace(s[..n])
    ensures n < |s| ==> !IsSpace(s[n])
  {
    if |s| > 0 && IsSpace(s[0]) then 1 + LeadingSpaces(s[1..]) else 0
  }

  /** Length of `s` once `trimEnd` has removed its trailing blanks. */
  function TrimmedEnd(s: string): (n: nat)
    ensures n <= |s|
    ensures AllSpace(s[n..])
    ensures n > 0 ==> !IsSpace(s[n - 1])
  {
    if |s| > 0 && IsSpace(s[|s| - 1]) then TrimmedEnd(s[..|s| - 1]) else |s|
  }

  /** `String.prototype.trim`. */
  function Trim(s: string): (r: string)
    ensures LeadingSpaces(s) + |r| <= |s|
    ensures r == s[LeadingSpaces(s)..LeadingSpaces(s) + |r|]
    ensures AllSpace(s[..LeadingSpaces(s)]) && AllSpace(s[LeadingSpaces(s) + |r|..])
    ensures |r| > 0 ==> !IsSpace(r[0]) && !IsSpace(r[|r| - 1])
  {
    var rest := s[LeadingSpaces(s)..];
    var r := rest[..TrimmedEnd(rest)];
    assert s[LeadingSpaces(s) + |r|..] == rest[TrimmedEnd(rest)..];
    r
  }

  /** A string whose ends are not blank is its own trim. */
  lemma {:induction false} TrimFixesTrimmed(s: string)
    requires |s| > 0 ==> !IsSpace(s[0]) && !IsSpace(s[|s| - 1])
    ensures Trim(s) == s
  {
    assert LeadingSpaces(s) == 0;
    assert s[0..] == s;
    if |s| > 0 {
      assert TrimmedEnd(s) == |s|;
    }
  }

  /** `trim` of blanks followed by text whose ends are not blank is that text. */
  lemma {:induction false} TrimOfPadded(a: string, s: string)
    requires AllSpace(a)
    requires |s| > 0 && !IsSpace(s[0]) && !IsSpace(s[|s| - 1])
    ensures Trim(a + s) == s
  {
    LeadingSpacesOfPadded(a, s);
    assert (a + s)[|a|..] == s;
  }

  lemma {:induction false} LeadingSpacesOfPadded(a: string, s: string)
    requires AllSpace(a)
    requires |s| > 0 && !IsSpace(s[0])
    ensures LeadingSpaces(a + s) == |a|
  {
    if a != [] {
      assert (a + s)[1..] == a[1..] + s;
      LeadingSpacesOfPadded(a[1..], s);
    } else {
      assert a + s == s;
    }
  }

  /** Text appended to a string that is not entirely blank does not change
      where that string's leading blanks end. */
  lemma {:induction false} LeadingSpacesOfPrefix(a: string, b: string)
    requires LeadingSpaces(a) < |a|
    ensures LeadingSpaces(a + b) == LeadingSpaces(a)
  {
    if IsSpace(a[0]) {
      assert (a + b)[1..] == a[1..] + b;
      LeadingSpacesOfPrefix(a[1..], b);
    }
  }

  /** `toLowerCase` of one code point. Covers ASCII, the Latin-1 capitals and
      U+0130, whose lowercase is the two code points "i" and U+0307. */
  function LowerChar(c: char): (r: seq<char>)
    ensures 1 <= |r| <= 2
    ensures forall k :: 0 <= k < |r| ==> !IsAsciiUpper(r[k])
    ensures IsWordChar(c) ==> r == [if IsAsciiUpper(c) then (c as int + 32) as char else c]
    ensures |r| == 2 <==> c == '\U{130}'
    ensures IsAstral(c) ==> r == [c]
    ensures !IsAstral(c) ==> forall k :: 0 <= k < |r| ==> !IsAstral(r[k])
  {
    if IsAsciiUpper(c) then [(c as int + 32) as char]
    else if '\U{C0}' <= c <= '\U{DE}' && c != '\U{D7}' then [(c as int + 32) as char]
    else if c == '\U{130}' then ['i', '\U{307}']
    else [c]
  }

  /** `String.prototype.toLowerCase`, one code point at a time. */
  function Lower(s: string): (r: string)
    ensures |r| >= |s|
    ensures forall k :: 0 <= k < |r| ==> !IsAsciiUpper(r[k])
  {
    if s == [] then [] else LowerChar(s[0]) + Lower(s[1..])
  }

  lemma {:induction false} LowerAppend(a: string, b: string)
    ensures Lower(a + b) == Lower(a) + Lower(b)
  {
    if a == [] {
      assert a + b == b;
    } else {
      assert (a + b)[0] == a[0] && (a + b)[1..] == a[1..] + b;
      LowerAppend(a[1..], b);
      assert Lower(a + b) == LowerChar(a[0]) + Lower(a[1..] + b);
    }
  }

  lemma LowerSingle(c: char)
    ensures Lower([c]) == LowerChar(c)
  {
    assert [c][1..] == [];
  }

  /** A code point above U+FFFF is its own lowercase. */
  lemma LowerAstral(c: char, s: string)
    requires IsAstral(c)
    ensures Lower([c] + s) == [c] + Lower(s)
  {
    assert ([c] + s)[0] == c && ([c] + s)[1..] == s;
  }

  /** Concatenation is associative. */
  lemma AppendAssoc<T>(x: seq<T>, y: seq<T>, z: seq<T>)
    ensures x + (y + z) == (x + y) + z
  {
  }

  /** Every code point of `s` lowercases to exactly one code point. */
  predicate LengthPreservingLower(s: string) {
    forall k :: 0 <= k < |s| ==> s[k] != '\U{130}'
  }

  /** When no code point expands, lowercasing acts position by position. */
  lemma {:induction false} LowerPointwise(s: string)
    requires LengthPreservingLower(s)
    ensures |Lower(s)| == |s|
    ensures forall k :: 0 <= k < |s| ==> Lower(s)[k] == LowerChar(s[k])[0]
  {
    if s != [] {
      LowerPointwise(s[1..]);
      assert Lower(s) == LowerChar(s[0]) + Lower(s[1..]);
      forall k | 0 <= k < |s|
        ensures Lower(s)[k] == LowerChar(s[k])[0]
      {
        if k > 0 {
          assert s[k] == s[1..][k - 1];
        }
      }
    }
  }

  /** Without U+0130, every prefix of the lowercase has as many UTF-16
      units as the same prefix of the text. */
  lemma LowerKeepsWidths(s: string, n: nat)
    requires LengthPreservingLower(s) && n <= |Lower(s)|
    ensures |Lower(s)| == |s|
    ensures Utf16Length(Lower(s)[..n]) == Utf16Length(s[..n])
  {
    var low := Lower(s);
    LowerPointwise(s);
    forall k | 0 <= k < n
      ensures IsAstral(low[..n][k]) <==> IsAstral(s[..n][k])
    {
      assert low[..n][k] == LowerChar(s[k])[0] && s[..n][k] == s[k];
    }
    Utf16LengthSameWidths(low[..n], s[..n]);
  }

  /** `w` occurs in `s` starting at index `i`. */
  predicate OccursAt(s: string, w: string, i: int) {
    0 <= i && i + |w| <= |s| && s[i..i + |w|] == w
  }

  /** `s.indexOf(w, from)`, with `None` for -1. */
  function IndexFrom(s: string, w: string, from: nat): (r: Option<nat>)
    decreases |s| - from
    ensures r.Some? ==> from <= r.value && OccursAt(s, w, r.value)
    ensures r.Some? ==> forall j :: from <= j < r.value ==> !OccursAt(s, w, j)
    ensures r.None? ==> forall j :: from <= j ==> !OccursAt(s, w, j)
  {
    if from + |w| > |s| then None
    else if s[from..from + |w|] == w then Some(from)
    else IndexFrom(s, w, from + 1)
  }

  /** `s.indexOf(w)`: the first occurrence, or `None`. */
  function IndexOf(s: string, w: string): (r: Option<nat>)
    ensures r.Some? ==> OccursAt(s, w, r.value) && forall j :: 0 <= j < r.value ==> !OccursAt(s, w, j)
    ensures r.None? ==> forall j :: !OccursAt(s, w, j)
  {
    IndexFrom(s, w, 0)
  }

  /** `parts.join(" ")`. */
  function JoinSpaced(parts: seq<string>): (r: string)
    ensures |parts| == 1 ==> r == parts[0]
  {
    if |parts| == 0 then []
    else if |parts| == 1 then parts[0]
    else parts[0] + " " + JoinSpaced(parts[1..])
  }

  /** A code point outside the Basic Multilingual Plane: a surrogate pair in UTF-16. */
  predicate IsAstral(c: char) {
    c as int > 0xFFFF
  }

  /** JavaScript `length`: the number of UTF-16 code units. A code point of
      the Basic Multilingual Plane is one unit, any other code point two. */
  function Utf16Length(s: string): (n: nat)
    ensures |s| <= n <= 2 * |s|
    ensures |s| == 1 ==> n == (if IsAstral(s[0]) then 2 else 1)
  {
    if s == [] then 0 else (if IsAstral(s[0]) then 2 else 1) + Utf16Length(s[1..])
  }

  /** Text wholly inside the Basic Multilingual Plane has one unit per code
      point; text wholly above it has two. */
  lemma {:induction false} Utf16LengthUniform(s: string)
    ensures (forall k :: 0 <= k < |s| ==> !IsAstral(s[k])) ==> Utf16Length(s) == |s|
    ensures (forall k :: 0 <= k < |s| ==> IsAstral(s[k])) ==> Utf16Length(s) == 2 * |s|
  {
    if s != [] {
      assert forall k :: 0 <= k < |s| - 1 ==> s[1..][k] == s[k + 1];
      Utf16LengthUniform(s[1..]);
    }
  }

  /** Lengths in code units add up over concatenation. */
  lemma {:induction false} Utf16LengthAppend(a: string, b: string)
    ensures Utf16Length(a + b) == Utf16Length(a) + Utf16Length(b)
  {
    if a == [] {
      assert a + b == b;
    } else {
      assert (a + b)[1..] == a[1..] + b;
      Utf16LengthAppend(a[1..], b);
    }
  }

  /** Two strings whose code points have the same widths, place by place,
      have the same UTF-16 length. */
  lemma {:induction false} Utf16LengthSameWidths(x: string, y: string)
    requires |x| == |y|
    requires forall k :: 0 <= k < |x| ==> (IsAstral(x[k]) <==> IsAstral(y[k]))
    ensures Utf16Length(x) == Utf16Length(y)
  {
    if x != [] {
      assert forall k :: 0 <= k < |x| - 1 ==> x[1..][k] == x[k + 1] && y[1..][k] == y[k + 1];
      Utf16LengthSameWidths(x[1..], y[1..]);
    }
  }

  /** Stands for the lone low surrogate that `slice` leaves when it cuts a
      surrogate pair, which a string of code points cannot hold. Like that
      surrogate, U+FFFD is one UTF-16 unit, neither blank nor `\w`, and its
      own lowercase. */
  const LoneSurrogate: char := '\U{FFFD}'

  /** `s.slice(u)` with `u >= 0` counted in UTF-16 units. A cut inside a
      surrogate pair keeps the pair's low half. */
  function Utf16SliceFrom(s: string, u: nat): (r: string)
    ensures |r| <= |s|
    ensures u == 0 ==> r == s
  {
    if s == [] || u == 0 then s
    else
      var w := if IsAstral(s[0]) then 2 else 1;
      if u >= w then Utf16SliceFrom(s[1..], u - w)
      else
        assert ([LoneSurrogate] + s[1..])[1..] == s[1..];
        [LoneSurrogate] + s[1..]
  }

  /** Cutting `u` units off the front leaves the rest of the units, or none. */
  lemma {:induction false} Utf16SliceLength(s: string, u: nat)
    ensures Utf16Length(Utf16SliceFrom(s, u)) == if u >= Utf16Length(s) then 0 else Utf16Length(s) - u
  {
    if s != [] && u != 0 {
      var w := if IsAstral(s[0]) then 2 else 1;
      if u >= w {
        Utf16SliceLength(s[1..], u - w);
      } else {
        assert ([LoneSurrogate] + s[1..])[1..] == s[1..];
      }
    }
  }

  /** Slicing past a prefix, measured in UTF-16 units, slices the rest. */
  lemma {:induction false} Utf16SliceAfter(a: string, b: string, u: nat)
    ensures Utf16SliceFrom(a + b, Utf16Length(a) + u) == Utf16SliceFrom(b, u)
  {
    if a == [] {
      assert a + b == b;
    } else {
      var n := Utf16Length(a[1..]);
      var w := Utf16Length(a[..1]);
      assert w == (if IsAstral(a[0]) then 2 else 1);
      assert Utf16Length(a) == w + n;
      assert (a + b)[..1] == a[..1] && (a + b)[1..] == a[1..] + b;
      Utf16SliceStep(a + b, w + n + u);
      Utf16SliceAfter(a[1..], b, u);
    }
  }

  /** Slicing past the first code point. */
  lemma Utf16SliceStep(s: string, u: nat)
    requires s != [] && u >= Utf16Length(s[..1])
    ensures Utf16SliceFrom(s, u) == Utf16SliceFrom(s[1..], u - Utf16Length(s[..1]))
  {
  }

  /** Cutting as many units as the first `n` code points hold leaves the
      code points from `n` on. */
  lemma {:induction false} Utf16SliceAtPrefix(s: string, n: nat)
    requires n <= |s|
    ensures Utf16SliceFrom(s, Utf16Length(s[..n])) == s[n..]
  {
    if n > 0 {
      var p := s[..n];
      assert p[0] == s[0] && p[1..] == s[1..][..n - 1];
      Utf16SliceAtPrefix(s[1..], n - 1);
      assert s[1..][n - 1..] == s[n..];
    }
  }

  /** With no surrogate pair before the cut, UTF-16 units and code points
      coincide and `slice` is the ordinary suffix. */
  lemma Utf16SliceOfBmp(s: string, u: nat)
    requires u <= |s|
    requires forall k :: 0 <= k < u ==> !IsAstral(s[k])
    ensures Utf16SliceFrom(s, u) == s[u..]
  {
    assert s == s[..u] + s[u..];
    assert forall k :: 0 <= k < u ==> s[..u][k] == s[k];
    Utf16SliceAfter(s[..u], s[u..], 0);
  }

  /** A cut one unit into a surrogate pair leaves its low half. */
  lemma Utf16SliceSplitsPair(a: string, c: char, b: string)
    requires IsAstral(c)
    ensures Utf16SliceFrom(a + [c] + b, Utf16Length(a) + 1) == [LoneSurrogate] + b
  {
    assert a + [c] + b == a + ([c] + b);
    Utf16SliceAfter(a, [c] + b, 1);
    assert ([c] + b)[0] == c && ([c] + b)[1..] == b;
  }

  predicate IsDigit(c: char) {
    '0' <= c <= '9'
  }

  function DigitChar(d: nat): (c: char)
    requires d < 10
    ensures IsDigit(c) && c as int - '0' as int == d
  {
    ('0' as int + d) as char
  }

  /** The decimal numeral of `n`, as `${n}` prints it. */
  function Decimal(n: nat): (r: string)
    ensures |r| >= 1
    ensures forall k :: 0 <= k < |r| ==> IsDigit(r[k])
    ensures |r| > 1 ==> r[0] != '0'
  {
    if n < 10 then [DigitChar(n)] else Decimal(n / 10) + [DigitChar(n % 10)]
  }

  /** Reads a non-empty numeral back; `None` for anything else. */
  function ParseDecimal(s: string): (r: Option<nat>)
    ensures r.Some? ==> |s| > 0
  {
    if |s| == 0 || !IsDigit(s[|s| - 1]) then None
    else
      var d := s[|s| - 1] as int - '0' as int;
      if |s| == 1 then Some(d)
      else match ParseDecimal(s[..|s| - 1])
        case None => None
        case Some(v) => Some(10 * v + d)
  }

  /** Every numeral `Decimal` prints reads back as the number it came from. */
  lemma {:induction false} ParseDecimalOfDecimal(n: nat)
    ensures ParseDecimal(Decimal(n)) == Some(n)
  {
    if n >= 10 {
      var r := Decimal(n);
      ParseDecimalOfDecimal(n / 10);
      assert r[..|r| - 1] == Decimal(n / 10);
    }
  }

  /** `String(i)` for an integer. */
  function IntToString(i: int): (r: string)
    ensures |r| >= 1
    ensures i >= 0 ==> ParseDecimal(r) == Some(i)
    ensures i < 0 ==> r[0] == '-' && ParseDecimal(r[1..]) == Some(-i)
  {
    if i >= 0 then
      ParseDecimalOfDecimal(i);
      Decimal(i)
    else
      ParseDecimalOfDecimal(-i);
      assert ("-" + Decimal(-i))[1..] == Decimal(-i);
      "-" + Decimal(-i)
  }
}

=== FILE: wakegate.dfy ===
/**
  The wake-word and finality gate: the body of `rec.onresult`
  (app.js:380-404) as a pure function of the recognition results and
  `resultIndex`. It yields the text shown as "last heard" and, at most once
  per event, the command classified from what follows the wake word.

  The source locates "tony" in the lowercased transcript and then slices
  the original transcript at that index, both counted in UTF-16 code units.
  `AfterWakeAsWritten` models that; `AfterWake` locates the wake word in the
  transcript itself, and the gate `OnResult` uses it. The two agree whenever
  lowercasing keeps every character a single character (`AsWrittenAgrees`);
  `WakeShiftCounterexample` shows an input where they differ.
*/
module WakeGate {
  import opened Wrappers
  import opened Text
  import opened Normalizer
  import opened Patterns
  import opened Classifier

  /** `WAKE_WORD`. */
  const WakeWord: string := "tony"

  /** One recognition result: its top alternative `r[0].transcript` and `isFinal`. */
  datatype SpeechResult = SpeechResult(transcript: string, isFinal: bool)

  /** What one `onresult` event does: the text written to "last heard" (if
      any) and the command handed to `performAction` (if any). */
  datatype Heard = Heard(lastHeard: Option<string>, command: Option<Command>)

  /** Where `Array.prototype.slice(idx)` starts in an array of length `len`:
      a negative index counts from the end, and both ends clamp. */
  function SliceStart(len: nat, idx: int): (k: nat)
    ensures k <= len
    ensures 0 <= idx <= len ==> k == idx
    ensures idx > len ==> k == len
    ensures idx < 0 ==> k == if len + idx < 0 then 0 else len + idx
  {
    if idx >= 0 then (if idx <= len then idx else len)
    else if len + idx < 0 then 0 else len + idx
  }

  /** The top transcripts of a run of results. */
  function Tops(rs: seq<SpeechResult>): (r: seq<string>)
    ensures |r| == |rs| && forall i :: 0 <= i < |rs| ==> r[i] == rs[i].transcript
  {
    seq(|rs|, i requires 0 <= i < |rs| => rs[i].transcript)
  }

  /** The transcript of app.js:382-386: the results from `resultIndex` on,
      joined by single spaces and trimmed. */
  function Transcript(results: seq<SpeechResult>, idx: int): string {
    Trim(JoinSpaced(Tops(results[SliceStart(|results|, idx)..])))
  }

  /** The lowercase of the four characters at `j` spell the wake word. */
  predicate WakeAt(t: string, j: int) {
    0 <= j && j + |WakeWord| <= |t| && Lower(t[j..j + |WakeWord|]) == WakeWord
  }

  /** `j` is the first place where the wake word occurs, ignoring case. */
  predicate FirstWakeAt(t: string, j: int) {
    WakeAt(t, j) && forall i :: 0 <= i < j ==> !WakeAt(t, i)
  }

  /** The first wake-word position at or after `from`. */
  function FindWake(t: string, from: nat): (r: Option<nat>)
    decreases |t| - from
    ensures r.Some? ==> from <= r.value && WakeAt(t, r.value)
    ensures r.Some? ==> forall i :: from <= i < r.value ==> !WakeAt(t, i)
    ensures r.None? ==> forall i :: from <= i ==> !WakeAt(t, i)
  {
    if from + |WakeWord| > |t| then None
    else if Lower(t[from..from + |WakeWord|]) == WakeWord then Some(from)
    else FindWake(t, from + 1)
  }

  /** The trimmed text after the first case-insensitive "tony" of `t`,
      located in `t` itself; `None` when there is none. */
  function AfterWake(t: string): (r: Option<string>)
    ensures r.None? <==> forall j :: !WakeAt(t, j)
    ensures r.Some? ==> exists j :: FirstWakeAt(t, j) && r.value == Trim(t[j + |WakeWord|..])
  {
    match FindWake(t, 0)
    case None => None
    case Some(j) =>
      assert FirstWakeAt(t, j);
      Some(Trim(t[j + |WakeWord|..]))
  }

  /** `i` is the first place where "tony" occurs in the lowercase of `t`. */
  predicate FirstLowerWakeAt(t: string, i: int) {
    OccursAt(Lower(t), WakeWord, i) && forall j :: 0 <= j < i ==> !OccursAt(Lower(t), WakeWord, j)
  }

  /** Where app.js:395 cuts the transcript `t` when "tony" begins at code
      point `i` of its lowercase: `indexOf` counts the UTF-16 units before
      that point, and the cut lies four units further into `t`. */
  function AsWrittenCut(t: string, i: nat): (u: nat)
    requires i <= |Lower(t)|
    ensures u >= i + |WakeWord|
  {
    Utf16Length(Lower(t)[..i]) + |WakeWord|
  }

  /** app.js:391-395 as written: the index of "tony" in `toLowerCase(t)`
      used to slice `t`. The slice is the trimmed text of `t` after that
      many UTF-16 units plus four, which is empty when the cut lies beyond
      `t` and begins with a lone surrogate when it splits a pair. */
  function AfterWakeAsWritten(t: string): (r: Option<string>)
    ensures r.None? <==> forall j :: !OccursAt(Lower(t), WakeWord, j)
    ensures r.Some? <==> exists i :: FirstLowerWakeAt(t, i)
    ensures forall i :: FirstLowerWakeAt(t, i) ==> r == Some(Trim(Utf16SliceFrom(t, AsWrittenCut(t, i))))
  {
    match IndexOf(Lower(t), WakeWord)
    case None => None
    case Some(i) =>
      assert FirstLowerWakeAt(t, i);
      FirstLowerWakeUnique(t, i);
      Some(Trim(Utf16SliceFrom(t, AsWrittenCut(t, i))))
  }

  /** There is at most one first occurrence. */
  lemma FirstLowerWakeUnique(t: string, i: int)
    requires FirstLowerWakeAt(t, i)
    ensures forall j :: FirstLowerWakeAt(t, j) ==> j == i
  {
  }

  /** The decision of app.js:388-403 on a transcript `t` whose last result
      has finality `lastFinal`, with the wake word located in `t` itself. */
  function Gate(t: string, lastFinal: bool): (h: Heard)
    ensures h.lastHeard.Some? <==> t != []
    ensures h.lastHeard.Some? ==> h.lastHeard.value == t
    ensures h.command.Some? <==>
      t != [] && AfterWake(t).Some? && Utf16Length(AfterWake(t).value) >= 2 && lastFinal
    ensures h.command.Some? ==> h.command.value == Classify(AfterWake(t).value)
  {
    if t == [] then Heard(None, None)
    else
      match AfterWake(t)
      case None => Heard(Some(t), None)
      case Some(after) =>
        if Utf16Length(after) < 2 then Heard(Some(t), None)
        else if !lastFinal then Heard(Some(t), None)
        else Heard(Some(t), Some(Classify(after)))
  }

  /** `AfterWake` reads the text after the first wake word, and finds one
      exactly when there is one. */
  lemma AfterWakeAtFirst(t: string)
    ensures AfterWake(t).Some? <==> exists j :: FirstWakeAt(t, j)
    ensures forall j :: FirstWakeAt(t, j) ==> AfterWake(t) == Some(Trim(t[j + |WakeWord|..]))
  {
    FirstWakeUnique(t);
  }

  /** The body of `rec.onresult`, with the wake word located in the
      transcript itself. */
  function OnResult(results: seq<SpeechResult>, idx: int): (h: Heard)
    ensures h.lastHeard.Some? <==> Transcript(results, idx) != []
    ensures h.lastHeard.Some? ==> h.lastHeard.value == Transcript(results, idx)
    ensures h.command.Some? ==> |results| > 0 && results[|results| - 1].isFinal
    ensures var t := Transcript(results, idx);
      h.command.Some? <==>
        && t != []
        && (exists j :: FirstWakeAt(t, j) && Utf16Length(Trim(t[j + |WakeWord|..])) >= 2)
        && results[|results| - 1].isFinal
    ensures var t := Transcript(results, idx);
      forall j :: FirstWakeAt(t, j) && h.command.Some? ==>
        h.command.value == Classify(Trim(t[j + |WakeWord|..]))
  {
    var t := Transcript(results, idx);
    if t == [] then Heard(None, None)
    else
      NonEmptyTranscriptHasResults(results, idx);
      AfterWakeAtFirst(t);
      Gate(t, results[|results| - 1].isFinal)
  }

  /** The decision of app.js:388-403 exactly as written. */
  function GateAsWritten(t: string, lastFinal: bool): (h: Heard)
    ensures h.lastHeard.Some? <==> t != []
    ensures h.lastHeard.Some? ==> h.lastHeard.value == t
    ensures h.command.Some? <==>
      t != [] && AfterWakeAsWritten(t).Some? && Utf16Length(AfterWakeAsWritten(t).value) >= 2 && lastFinal
    ensures h.command.Some? ==> h.command.value == Classify(AfterWakeAsWritten(t).value)
  {
    if t == [] then Heard(None, None)
    else
      match AfterWakeAsWritten(t)
      case None => Heard(Some(t), None)
      case Some(after) =>
        if Utf16Length(after) < 2 then Heard(Some(t), None)
        else if !lastFinal then Heard(Some(t), None)
        else Heard(Some(t), Some(Classify(after)))
  }

  /** The body of `rec.onresult` exactly as app.js:380-404 writes it. */
  function OnResultAsWritten(results: seq<SpeechResult>, idx: int): (h: Heard)
    ensures h.lastHeard.Some? <==> Transcript(results, idx) != []
    ensures h.lastHeard.Some? ==> h.lastHeard.value == Transcript(results, idx)
    ensures h.command.Some? ==> |results| > 0 && results[|results| - 1].isFinal
    ensures var t := Transcript(results, idx);
      h.command.Some? <==>
        && t != []
        && (exists i :: FirstLowerWakeAt(t, i) && Utf16Length(Trim(Utf16SliceFrom(t, AsWrittenCut(t, i)))) >= 2)
        && results[|results| - 1].isFinal
    ensures var t := Transcript(results, idx);
      forall i :: FirstLowerWakeAt(t, i) && h.command.Some? ==>
        h.command.value == Classify(Trim(Utf16SliceFrom(t, AsWrittenCut(t, i))))
  {
    var t := Transcript(results, idx);
    if t == [] then Heard(None, None)
    else
      NonEmptyTranscriptHasResults(results, idx);
      GateAsWritten(t, results[|results| - 1].isFinal)
  }

  // ---------------------------------------------------------------------
  // Supporting facts.

  lemma FirstWakeUnique(t: string)
    ensures forall i, j :: FirstWakeAt(t, i) && FirstWakeAt(t, j) ==> i == j
  {
  }

  /** A transcript with content comes from at least one result, so the
      `pop()` of app.js:398 always finds one. */
  lemma NonEmptyTranscriptHasResults(results: seq<SpeechResult>, idx: int)
    requires Transcript(results, idx) != []
    ensures |results| > 0
  {
  }

  // ---------------------------------------------------------------------
  // Properties of the gate.

  /** An empty transcript (no results from `resultIndex` on, or only blank
      ones) leaves everything untouched. */
  lemma EmptyTranscriptIgnored(results: seq<SpeechResult>, idx: int)
    requires forall i :: SliceStart(|results|, idx) <= i < |results| ==> AllSpace(results[i].transcript)
    ensures OnResult(results, idx) == Heard(None, None)
  {
    var rs := results[SliceStart(|results|, idx)..];
    var joined := JoinSpaced(Tops(rs));
    assert AllSpace(joined) by {
      BlankJoin(Tops(rs));
    }
  }

  /** Joining blank parts with spaces gives only blanks. */
  lemma {:induction false} BlankJoin(parts: seq<string>)
    requires forall i :: 0 <= i < |parts| ==> AllSpace(parts[i])
    ensures AllSpace(JoinSpaced(parts))
  {
    if |parts| > 1 {
      BlankJoin(parts[1..]);
      var r := JoinSpaced(parts[1..]);
      var j := JoinSpaced(parts);
      assert j == parts[0] + " " + r;
      forall k | 0 <= k < |j|
        ensures IsSpace(j[k])
      {
        if k < |parts[0]| {
          assert j[k] == parts[0][k];
        } else if k > |parts[0]| {
          assert j[k] == r[k - |parts[0]| - 1];
        }
      }
    }
  }

  /** Without "tony" in the transcript (in any case) nothing is dispatched. */
  lemma NoWakeNoCommand(results: seq<SpeechResult>, idx: int)
    requires forall j :: !WakeAt(Transcript(results, idx), j)
    ensures OnResult(results, idx).command.None?
  {
  }

  /** An interim last result never dispatches, though "last heard" is updated. */
  lemma InterimNoCommand(results: seq<SpeechResult>, idx: int)
    requires |results| > 0 && !results[|results| - 1].isFinal
    ensures OnResult(results, idx).command.None?
    ensures OnResult(results, idx).lastHeard.Some? <==> Transcript(results, idx) != []
  {
  }

  /** A wake word followed by fewer than two UTF-16 units of text (after
      trimming) dispatches nothing. */
  lemma ShortRemainderNoCommand(results: seq<SpeechResult>, idx: int, j: int)
    requires FirstWakeAt(Transcript(results, idx), j)
    requires Utf16Length(Trim(Transcript(results, idx)[j + |WakeWord|..])) < 2
    ensures OnResult(results, idx).command.None?
  {
  }

  /** Otherwise the remainder after the first wake word is classified, once. */
  lemma FinalWakeDispatches(results: seq<SpeechResult>, idx: int, j: int)
    requires |results| > 0 && results[|results| - 1].isFinal
    requires FirstWakeAt(Transcript(results, idx), j)
    requires Utf16Length(Trim(Transcript(results, idx)[j + |WakeWord|..])) >= 2
    ensures OnResult(results, idx).command == Some(Classify(Trim(Transcript(results, idx)[j + |WakeWord|..])))
  {
    var t := Transcript(results, idx);
    var h := OnResult(results, idx);
    assert t != [];
    assert FirstWakeAt(t, j) && Utf16Length(Trim(t[j + |WakeWord|..])) >= 2;
    assert h.command.Some?;
  }

  /** Results before `resultIndex` play no part: the event behaves as if the
      array began at `resultIndex`. */
  lemma EarlierResultsIgnored(earlier: seq<SpeechResult>, rest: seq<SpeechResult>)
    ensures OnResult(earlier + rest, |earlier|) == OnResult(rest, 0)
  {
    var all := earlier + rest;
    TranscriptSkipsEarlier(earlier, rest);
    var t := Transcript(rest, 0);
    if t != [] {
      NonEmptyTranscriptHasResults(rest, 0);
      assert all[|all| - 1] == rest[|rest| - 1];
      assert OnResult(all, |earlier|) == Gate(t, rest[|rest| - 1].isFinal);
      assert OnResult(rest, 0) == Gate(t, rest[|rest| - 1].isFinal);
    }
  }

  lemma TranscriptSkipsEarlier(earlier: seq<SpeechResult>, rest: seq<SpeechResult>)
    ensures Transcript(earlier + rest, |earlier|) == Transcript(rest, 0)
  {
    var all := earlier + rest;
    assert SliceStart(|all|, |earlier|) == |earlier| && SliceStart(|rest|, 0) == 0;
    assert all[|earlier|..] == rest[0..];
  }

  // ---------------------------------------------------------------------
  // The source's index arithmetic against the corrected search.

  /** When no character of the transcript lowercases to two characters, the
      index found in the lowercased text is an index into the transcript, and
      the gate as written and the corrected gate agree. */
  lemma AsWrittenAgrees(t: string)
    requires LengthPreservingLower(t)
    ensures AfterWakeAsWritten(t) == AfterWake(t)
  {
    var low := Lower(t);
    forall j
      ensures WakeAt(t, j) <==> OccursAt(low, WakeWord, j)
    {
      WakeAtLowered(t, j);
    }
    match IndexOf(low, WakeWord)
    case None =>
    case Some(i) =>
      assert FirstWakeAt(t, i);
      FirstWakeUnique(t);
      CutAtWake(t, i);
  }

  /** Without U+0130, lowercasing keeps every code point's width, so the
      UTF-16 cut after a wake word found in the lowercase falls right after
      the same wake word in the transcript. */
  lemma CutAtWake(t: string, i: nat)
    requires LengthPreservingLower(t) && OccursAt(Lower(t), WakeWord, i)
    ensures i + |WakeWord| <= |t|
    ensures Utf16SliceFrom(t, AsWrittenCut(t, i)) == t[i + |WakeWord|..]
  {
    CutWidth(t, i);
    Utf16SliceAtPrefix(t, i + |WakeWord|);
  }

  /** The cut counts the UTF-16 units of the transcript up to the end of
      the wake word. */
  lemma CutWidth(t: string, i: nat)
    requires LengthPreservingLower(t) && OccursAt(Lower(t), WakeWord, i)
    ensures i + |WakeWord| <= |t|
    ensures AsWrittenCut(t, i) == Utf16Length(t[..i + |WakeWord|])
  {
    LowerKeepsWidths(t, i + |WakeWord|);
    WakeWidth(Lower(t), i);
  }

  /** A wake word at code point `i` adds its four units to the prefix. */
  lemma WakeWidth(low: string, i: nat)
    requires OccursAt(low, WakeWord, i)
    ensures Utf16Length(low[..i + |WakeWord|]) == Utf16Length(low[..i]) + |WakeWord|
  {
    assert low[..i + |WakeWord|] == low[..i] + WakeWord;
    Utf16LengthAppend(low[..i], WakeWord);
    assert forall k :: 0 <= k < |WakeWord| ==> !IsAstral(WakeWord[k]);
    Utf16LengthUniform(WakeWord);
  }

  /** Without U+0130, the wake word is at `j` of the transcript exactly when
      it is at `j` of its lowercase. */
  lemma WakeAtLowered(t: string, j: int)
    requires LengthPreservingLower(t)
    ensures WakeAt(t, j) <==> OccursAt(Lower(t), WakeWord, j)
  {
    var low := Lower(t);
    LowerPointwise(t);
    if 0 <= j && j + |WakeWord| <= |t| {
      var w := t[j..j + |WakeWord|];
      assert LengthPreservingLower(w) by {
        forall k | 0 <= k < |w| ensures w[k] != '\U{130}' {
          assert w[k] == t[j + k];
        }
      }
      LowerPointwise(w);
      assert Lower(w) == low[j..j + |WakeWord|] by {
        forall k | 0 <= k < |WakeWord|
          ensures Lower(w)[k] == low[j + k]
        {
          assert w[k] == t[j + k];
        }
      }
    }
  }

  lemma AgreeOnResults(results: seq<SpeechResult>, idx: int)
    requires LengthPreservingLower(Transcript(results, idx))
    ensures OnResultAsWritten(results, idx) == OnResult(results, idx)
  {
    AsWrittenAgrees(Transcript(results, idx));
  }

  /** Two capital dotted I's (U+0130), then the wake word and a space. Each
      U+0130 lowercases to two characters. */
  const ShiftPrefix: string := "\U{130}\U{130} tony "

  lemma ShiftedLower(rest: string)
    requires NormalChars(rest)
    ensures Lower(ShiftPrefix + rest) == "i\U{307}i\U{307} tony " + rest
  {
    var a, b := "\U{130}\U{130}", " tony ";
    assert ShiftPrefix == a + b;
    AppendAssoc(a, b, rest);
    LowerAppend(a, b + rest);
    LowerDotted(a);
    LowerNormalTail(b, rest);
    assert "i\U{307}i\U{307} tony " == Lower(a) + b;
    AppendAssoc(Lower(a), b, rest);
  }

  lemma LowerDotted(a: string)
    requires a == "\U{130}\U{130}"
    ensures Lower(a) == "i\U{307}i\U{307}"
  {
    assert a == [a[0]] + [a[1]];
    LowerAppend([a[0]], [a[1]]);
    LowerSingle(a[0]);
    LowerSingle(a[1]);
  }

  lemma LowerNormalTail(b: string, rest: string)
    requires b == " tony " && NormalChars(rest)
    ensures Lower(b + rest) == b + rest
  {
    assert NormalChars(b);
    assert NormalChars(b + rest) by {
      forall k | 0 <= k < |b + rest|
        ensures IsNormalChar((b + rest)[k])
      {
        if k >= |b| {
          assert (b + rest)[k] == rest[k - |b|];
        }
      }
    }
    LowerFixesNormal(b + rest);
  }

  /** As written: "tony" sits at index 5 of the lowercased text but at index
      3 of the transcript, so slicing the transcript at 5 + 4 drops the first
      character of the command. */
  lemma ShiftedAsWritten(rest: string)
    requires IsNormal(rest) && rest != []
    ensures AfterWakeAsWritten(ShiftPrefix + rest) == Some(Trim(rest[1..]))
  {
    var t := ShiftPrefix + rest;
    var low := "i\U{307}i\U{307} tony " + rest;
    ShiftedLower(rest);
    assert OccursAt(low, WakeWord, 5) by {
      assert low[5..9] == "tony";
    }
    assert forall j :: 0 <= j < 5 ==> !OccursAt(low, WakeWord, j) by {
      forall j | 0 <= j < 5 ensures !OccursAt(low, WakeWord, j) {
        assert low[j..j + 4] != WakeWord by {
          assert low[j..j + 4][0] == low[j] != 't';
        }
      }
    }
    assert IndexOf(low, WakeWord) == Some(5);
    assert AsWrittenCut(t, 5) == 9 by {
      assert forall k :: 0 <= k < 5 ==> !IsAstral(low[..5][k]);
      Utf16LengthUniform(low[..5]);
    }
    assert forall k :: 0 <= k < 9 ==> !IsAstral(t[k]) by {
      forall k | 0 <= k < 9 ensures !IsAstral(t[k]) {
        if k == 8 {
          assert t[k] == rest[0];
        }
      }
    }
    Utf16SliceOfBmp(t, 9);
    assert t[9..] == rest[1..];
  }

  /** Within the prefix, the wake word starts at index 3 and nowhere before. */
  lemma ShiftPrefixWake()
    ensures FirstWakeAt(ShiftPrefix, 3)
  {
    WakeInPrefix(ShiftPrefix);
    DottedCapitalNoWake(ShiftPrefix[0..4]);
    DottedCapitalNoWake(ShiftPrefix[1..5]);
    SpaceNoWake(ShiftPrefix[2..6]);
  }

  lemma WakeInPrefix(t: string)
    requires t == ShiftPrefix
    ensures WakeAt(t, 3)
  {
    var w := t[3..7];
    assert w == "tony";
    assert NormalChars(w);
    LowerFixesNormal(w);
  }

  /** Four characters that start with a blank never spell the wake word. */
  lemma SpaceNoWake(w: string)
    requires |w| == 4 && w[0] == ' '
    ensures Lower(w) != WakeWord
  {
    assert w == [w[0]] + w[1..];
    LowerAppend([w[0]], w[1..]);
  }

  /** Four characters that start with U+0130 lowercase to five or more, so
      they never spell the wake word. */
  lemma DottedCapitalNoWake(w: string)
    requires |w| == 4 && w[0] == '\U{130}'
    ensures Lower(w) != WakeWord
  {
    assert w == [w[0]] + w[1..];
    LowerAppend([w[0]], w[1..]);
  }

  /** Corrected: the wake word starts at index 3 of the transcript, and the
      remainder is the whole command. */
  lemma ShiftedCorrected(rest: string)
    requires IsNormal(rest) && rest != []
    ensures AfterWake(ShiftPrefix + rest) == Some(rest)
  {
    var t := ShiftPrefix + rest;
    ShiftPrefixWake();
    forall j | 0 <= j <= 3
      ensures WakeAt(t, j) == WakeAt(ShiftPrefix, j)
    {
      assert t[j..j + 4] == ShiftPrefix[j..j + 4];
    }
    assert FirstWakeAt(t, 3);
    FirstWakeUnique(t);
    assert t[7..] == ShiftPrefix[7..] + rest;
    assert ShiftPrefix[7..] == " ";
    TrimOfPadded(" ", rest);
  }

  /** One final result "İİ tony " + `rest`, as written: the command is
      classified from `rest` without its first character. */
  lemma ShiftedEventAsWritten(rest: string)
    requires IsNormal(rest) && rest != []
    ensures Utf16Length(Trim(rest[1..])) >= 2 ==>
      OnResultAsWritten([SpeechResult(ShiftPrefix + rest, true)], 0).command == Some(Classify(Trim(rest[1..])))
  {
    ShiftedTranscriptOf(rest);
    ShiftedAsWritten(rest);
  }

  /** The same event, corrected: the command is classified from `rest`. */
  lemma ShiftedEventCorrected(rest: string)
    requires IsNormal(rest) && rest != []
    ensures Utf16Length(rest) >= 2 ==>
      OnResult([SpeechResult(ShiftPrefix + rest, true)], 0).command == Some(Classify(rest))
  {
    ShiftedTranscriptOf(rest);
    ShiftedCorrected(rest);
  }

  lemma ShiftedTranscriptOf(rest: string)
    requires IsNormal(rest) && rest != []
    ensures Transcript([SpeechResult(ShiftPrefix + rest, true)], 0) == ShiftPrefix + rest
  {
    SingleTranscript(ShiftPrefix + rest);
  }

  /** An event holding one final result, already trimmed, has that result's
      text as its transcript. */
  lemma SingleTranscript(t: string)
    requires |t| > 0 ==> !IsSpace(t[0]) && !IsSpace(t[|t| - 1])
    ensures Transcript([SpeechResult(t, true)], 0) == t
  {
    TrimFixesTrimmed(t);
    var rs := [SpeechResult(t, true)];
    assert rs[SliceStart(1, 0)..] == rs;
    assert Tops(rs) == [t];
  }

  /** U+0130, the wake word and an emoji, which takes two UTF-16 units. */
  const PairPrefix: string := "\U{130}tony\U{1F600}"

  lemma PairLower(rest: string)
    requires NormalChars(rest)
    ensures Lower(PairPrefix + rest) == "i\U{307}tony\U{1F600}" + rest
  {
    var b := "tony" + ['\U{1F600}'] + rest;
    assert PairPrefix + rest == ['\U{130}'] + b;
    assert Lower(PairPrefix + rest) == ['i', '\U{307}'] + Lower(b);
    LowerPairTail(rest);
  }

  lemma LowerPairTail(rest: string)
    requires NormalChars(rest)
    ensures Lower("tony" + ['\U{1F600}'] + rest) == "tony" + ['\U{1F600}'] + rest
  {
    var b := "tony";
    assert NormalChars(b);
    LowerFixesNormal(b);
    LowerAppend(b, ['\U{1F600}'] + rest);
    assert ("tony" + ['\U{1F600}'] + rest) == b + (['\U{1F600}'] + rest);
    LowerAstral('\U{1F600}', rest);
    LowerFixesNormal(rest);
  }

  /** As written: "tony" sits at unit 2 of the lowercase, so the cut falls at
      unit 6 of the transcript, between the two halves of the emoji. */
  lemma PairCut(rest: string)
    requires NormalChars(rest)
    ensures FirstLowerWakeAt(PairPrefix + rest, 2)
    ensures Utf16SliceFrom(PairPrefix + rest, AsWrittenCut(PairPrefix + rest, 2)) == [LoneSurrogate] + rest
  {
    var t, low := PairPrefix + rest, "i\U{307}tony\U{1F600}" + rest;
    PairLower(rest);
    assert OccursAt(low, WakeWord, 2) by {
      assert low[2..6] == "tony";
    }
    assert forall j :: 0 <= j < 2 ==> !OccursAt(low, WakeWord, j) by {
      forall j | 0 <= j < 2 ensures !OccursAt(low, WakeWord, j) {
        assert low[j..j + 4][0] == low[j] != 't';
      }
    }
    assert AsWrittenCut(t, 2) == 6 by {
      assert forall k :: 0 <= k < 2 ==> !IsAstral(low[..2][k]);
      Utf16LengthUniform(low[..2]);
    }
    var a := "\U{130}tony";
    assert Utf16Length(a) == 5 by {
      assert forall k :: 0 <= k < |a| ==> !IsAstral(a[k]);
      Utf16LengthUniform(a);
    }
    assert t == a + ['\U{1F600}'] + rest;
    Utf16SliceSplitsPair(a, '\U{1F600}', rest);
  }

  /** After the cut, the transcript keeps a lone surrogate ahead of the
      command. */
  lemma PairAsWritten(rest: string)
    requires IsNormal(rest) && rest != []
    ensures AfterWakeAsWritten(PairPrefix + rest) == Some([LoneSurrogate] + rest)
  {
    PairCut(rest);
    TrimFixesTrimmed([LoneSurrogate] + rest);
  }

  /** "İtony😀" + `rest`, spoken as one final result: the lone surrogate
      counts as one unit and separates no word, so the source classifies
      `rest` even when `rest` is a single unit. */
  lemma PairEventAsWritten(rest: string)
    requires IsNormal(rest) && rest != []
    ensures OnResultAsWritten([SpeechResult(PairPrefix + rest, true)], 0).command == Some(Classify(rest))
  {
    var after := [LoneSurrogate] + rest;
    SingleTranscript(PairPrefix + rest);
    PairAsWritten(rest);
    Utf16LengthAppend([LoneSurrogate], rest);
    LoneSurrogateIgnored(rest);
  }

  /** "İtony😀x": the source sends stop (id 3) for a one-letter remainder
      that the code-point count would have dropped. */
  lemma SplitPairCommand(rest: string)
    requires rest == "x"
    ensures OnResultAsWritten([SpeechResult(PairPrefix + rest, true)], 0).command == Some(Command(3, "detener"))
  {
    assert IsNormal(rest);
    PairEventAsWritten(rest);
    UnknownWordCues(rest);
    ClassifyJoined([rest]);
  }

  /** The tests on a lone token that names no command: none holds. */
  lemma UnknownWordCues(w: string)
    requires w == "vanza" || w == "x"
    ensures IsTokenList([w])
    ensures Decide(TokenCues([w])) == Command(3, "detener")
  {
    assert !Adjacent([w], "vuelta", "completa");
  }

  /** The tests on the lone token "avanza": the forward rule. */
  lemma ForwardWordCues(w: string)
    requires w == "avanza"
    ensures IsTokenList([w])
    ensures Decide(TokenCues([w])) == Command(1, "adelante")
  {
    assert w in ForwardWords;
    assert !AnyToken(StopWords, [w]) by {
      assert forall v :: v in StopWords ==> v != w;
    }
  }

  /** "İİ tony avanza", spoken as one final result: the source sends stop
      (id 3) where the speaker asked to go forward (id 1). */
  lemma WakeShiftCounterexample(rest: string)
    requires rest == "avanza"
    ensures OnResultAsWritten([SpeechResult(ShiftPrefix + rest, true)], 0).command == Some(Command(3, "detener"))
    ensures OnResult([SpeechResult(ShiftPrefix + rest, true)], 0).command == Some(Command(1, "adelante"))
  {
    assert IsNormal(rest);
    var tail := rest[1..];
    assert tail == "vanza";
    TrimFixesTrimmed(tail);
    ShiftedEventAsWritten(rest);
    ShiftedEventCorrected(rest);
    UnknownWordCues(tail);
    ClassifyJoined([tail]);
    ForwardWordCues(rest);
    ClassifyJoined([rest]);
  }
}

=== FILE: wrappers.dfy ===
/** Option and Result, the failure-carrying values the rest of the model returns. */
module Wrappers {

  datatype Option<+T> = None | Some(value: T) {
    function GetOr(default: T): T {
      match this
      case Some(v) => v
      case None => default
    }
  }

  datatype Result<+R, +E> = Success(value: R) | Failure(error: E)
}
